=== FILE: README.md ===
# A Dafny model of the faas scheduler, proxy, monitor and benchmark suite

This project models the sequential logic inside a function-as-a-service runtime and proves properties of it. The runtime has a Go part and a Python part.

The Go part:

- two scheduler variants, `ics` and `watchdog`, that launch function environments, register them, and serve, share, promote, unshare or swap the function being served;
- a proxy in front of the environments, with a primary/secondary forwarding table and request/response counters;
- fan-out readers and writers that merge the results of several connections;
- a monitor with a running sum, a moving-window sum, light-weight statistics, an analyser registry and samplers;
- two configuration readers;
- the gateway's URI prefix stripper.

The Python part is the benchmark suite:

- an adaptive stopping loop;
- a request issuer that splits work over threads;
- a CSV recorder;
- two response-log readers with grouping and filtering.

The style is functional throughout. Every stateful component is an immutable datatype, and every operation is a function from a state to the next state and the caller's reply. Goroutines and threads are replaced by their sequential outcome. The `ics` scheduler's status lock is the exception: it is modelled, because holding it while waiting deadlocks the scheduler (see Findings). Anything the code learns from outside becomes an explicit input:

- an HTTP specialisation result;
- a process kill;
- an address resolution;
- a reader's `(n, err)`;
- the order in which goroutine results arrive;
- Go's map iteration order;
- the clock;
- scipy's quantile functions.

`real` stands for Go's `float64` and Python's `float`. Fixed-width integer behaviour is written out where it matters: the proxy's `int32` counters wrap around, and `time.Duration` division truncates.

Modules follow the source files:

- `SchedulerStatus`, `PendingQueue`, `IcsScheduler`, `WatchdogScheduler`: the two scheduler variants and the status table and queue they share. `IcsScheduler` is the `ics` scheduler with its two lock errors corrected.
- `IcsLocking`: the `ics` scheduler as written, with the status lock held where the code holds it.
- `ProxyServer`, `MultiIo`, `WatchdogMultiIo`: the `ics` proxy's slot table and counters, and the fan-out I/O of both proxies.
- `Sums`, `MovingSums`, `LightStatistics`, `IntervalMonitors`, `Sampling`, `SamplerCaches`, `RequestSamplers`: the monitor.
- `ConfigParsers`, `IcsConfigReader`, `WatchdogConfigReader`: the configuration readers, with the library behaviour they rely on in `GoStrconv` (decimal parsing) and `GoDuration` (a subset of `time.ParseDuration`).
- `UriStripper`: the gateway.
- `SingleRun`, `Invoker`, `Recorder`, `Responses`, `ResponseGroups`: the benchmark suite.
- `Optional`, `GoInt`, `Text`, `Series`: shared helpers. `Series` holds the reference totals that the accumulators are checked against.

## Model

| member | source | states |
|---|---|---|
| SchedulerStatus.TransitionTable | ics/scheduler/scheduler.go:55-103 | For both variants and every operation and status: the transition succeeds with target `t` exactly when `(op, from, t)` is an edge of the LAUNCHING→READY→SERVING⇄SHARING table (SERVING→SERVING for swap); a failed transition hands back the status it was given; the "pending" error arises exactly for serve from LAUNCHING. |
| SchedulerStatus.VariantsDiffer | watchdog/scheduler.go:69-75 | The `ics` and `watchdog` tables give different results for exactly one case: share from SHARING. |
| SchedulerStatus.ShareIdempotence | watchdog/scheduler.go:69-75 | A second `watchdog` share after a successful one gives the same result; a second `ics` share fails with the transition error. |
| SchedulerStatus.ToReady | ics/scheduler/scheduler.go:55-61 | `ready()` succeeds exactly from LAUNCHING and then gives READY; from any other status it fails and hands back that status. |
| SchedulerStatus.Serve | ics/scheduler/scheduler.go:63-71 | `serve()` succeeds exactly from READY, giving SERVING; from LAUNCHING it reports the "pending" error and from any other status the transition error, each time handing back the status it was given. |
| SchedulerStatus.Swap | ics/scheduler/scheduler.go:73-79 | `swap()` succeeds exactly from SERVING and never changes the status. |
| SchedulerStatus.Share | ics/scheduler/scheduler.go:81-87 | The `ics` `share()` succeeds exactly from SERVING, giving SHARING; otherwise it is the transition error with the status unchanged. |
| SchedulerStatus.Unshare | ics/scheduler/scheduler.go:89-95 | `unshare()` succeeds exactly from SHARING, giving SERVING; otherwise it is the transition error with the status unchanged. |
| SchedulerStatus.Promote | ics/scheduler/scheduler.go:97-103 | `promote()` behaves exactly like `unshare()` on every status. |
| PendingQueue.Push | ics/scheduler/scheduler.go:572-576 | The caller is appended at the tail: the old queue is an unchanged prefix and the new caller is the last element. |
| PendingQueue.Pop | ics/scheduler/scheduler.go:593-601 | An empty queue yields nothing and stays empty; otherwise the head caller is returned and putting it back in front of the rest gives the old queue. |
| PendingQueue.PushAll | ics/scheduler/scheduler.go:572-576 | Queueing several callers lengthens the queue by their number and keeps the old queue as an unchanged prefix. |
| PendingQueue.PopN | ics/scheduler/scheduler.go:593-601 | Dispatching `k` callers returns `k` of them, or all when fewer wait; asking for at least as many as wait empties the queue. |
| PendingQueue.PushAllAppends | ics/scheduler/scheduler.go:572-576 | Queueing callers one at a time is the same as appending them all at once, in order. |
| PendingQueue.PopNTakesPrefix | ics/scheduler/scheduler.go:593-601 | Dispatching `k` callers from a queue of at least `k` returns exactly its first `k`, in order, and leaves the rest. |
| PendingQueue.Fifo | ics/scheduler/scheduler.go:572-601 | Callers are dispatched first-in first-out: after anything already waiting, in the order they were queued. |
| ConfigParsers.Getenv | ics/config/readconfig.go:11-14 | An unset variable reads as the empty string; a set one reads as its value. |
| ConfigParsers.Flag | ics/config/readconfig.go:20-29 | A flag keeps its default when the value is empty; any non-empty value sets it, to true only for the exact text "true". |
| ConfigParsers.ParseIntValue | ics/config/readconfig.go:46-55 | The result is the parsed number exactly when `Atoi` accepts the value as a non-negative int64; every other value gives the fallback. |
| ConfigParsers.ParseIntOrDurationValue | ics/config/readconfig.go:31-44 | A non-negative integer counts seconds (the nanosecond product wraps as an int64); otherwise a valid duration string is used; otherwise the fallback. |
| ConfigParsers.EmptyGivesFallback | ics/config/readconfig.go:31-55 | An empty value gives the fallback in both parsers. |
| ConfigParsers.ParseIntValueItoa | ics/config/readconfig.go:46-55 | Any non-negative int64, rendered in decimal, reads back as itself. |
| ConfigParsers.ParseIntValueNegative | ics/config/readconfig.go:46-55 | Any rendered negative integer is refused and gives the fallback. |
| ConfigParsers.SecondsValue | ics/config/readconfig.go:31-37 | A rendered count of seconds whose nanoseconds fit in an int64 is that many seconds. |
| ConfigParsers.NegativeSecondsFallBack | ics/config/readconfig.go:31-44 | A rendered negative integer is neither a count nor a duration (it has no unit), so it gives the fallback. |
| IcsConfigReader.Read | ics/config/readconfig.go:58-105 | Counts and ports are never negative; each boolean setting is characterised by its variable's value (default-true flags are on for "" or "true", the rest only for "true"); each string setting is its variable's value. |
| IcsConfigReader.ReadDefaults | ics/config/readconfig_test.go:156-182 | An empty environment gives port 8080, admin port 8079, two instances, 5 s read and write timeouts, no exec timeout, CGI headers and combined output on, and an empty base path. |
| IcsConfigReader.ReadCounts | ics/config/readconfig_test.go:184-195 | A port, admin port or instance count written as a non-negative int64 is used as given. |
| IcsConfigReader.ReadTimeoutSeconds | ics/config/readconfig_test.go:197-213 | Timeouts "10" and "60" are 10 s and 60 s. |
| IcsConfigReader.ReadTimeoutDurations | ics/config/readconfig_test.go:215-246 | Timeouts "20s" and "1m30s" are 20 s and 90 s; an exec timeout of "3s" is 3 s. |
| WatchdogConfigReader.Registry | watchdog/readconfig.go:103-111 | The registry has exactly the listed names as keys, duplicates collapsing, so never more keys than items. |
| WatchdogConfigReader.ReadRegistry | watchdog/readconfig.go:103-111 | The registry is nil exactly when `faas_registry` is empty; otherwise its keys are exactly the comma-separated items. |
| WatchdogConfigReader.Read | watchdog/readconfig.go:59-114 | Scheduler mode is on exactly when `fpattern` is set, and the process is then `fpattern`, else `fprocess`; the flags are characterised as in the `ics` reader; the port is never negative. |
| WatchdogConfigReader.ReadDefaults | watchdog/readconfig.go:59-114 | An empty environment is not scheduler mode, has port 8080, 5 s read and write timeouts, no exec timeout, CGI headers and combined output on, and no registry. |
| WatchdogConfigReader.RegistryOfNames | watchdog/readconfig.go:103-111 | Names without commas, joined with commas, give a registry with exactly those names as keys. |
| WatchdogConfigReader.DuplicatesCollapse | watchdog/readconfig.go:103-111 | "a,b,a" registers the two keys "a" and "b". |
| IcsConfigReader.ReadTimeouts | ics/config/readconfig.go:69-72 | Each timeout is read from its own variable, with a 5 s default for the read and write timeouts and 0 for the exec timeout. |
| GoStrconv.ParseUint | ics/config/readconfig.go:33-34 | The empty string is a syntax error; a success or a range error never leaves the 64-bit unsigned range, a range error saturating at its top. |
| GoStrconv.ParseUintDigits | ics/config/readconfig.go:33-34 | A non-empty digit string parses to its value when that fits in 64 bits, and to the range error past it. |
| GoStrconv.ParseInt | ics/config/readconfig.go:33-34 | A success is an int64; a range error saturates at one of the int64 bounds; a syntax error has value 0. |
| GoStrconv.Atoi | ics/scheduler/scheduler.go:170 | `strconv.Atoi`: the empty string is a syntax error with value 0. A non-empty digit string up to the int64 maximum reads as its value. Every success is an int64, and every syntax error has value 0. |
| GoStrconv.Itoa | ics/scheduler/scheduler.go:483-490 | The `%d` rendering of a non-negative number is a non-empty string of decimal digits. Its partner `ValueItoa` reads it back. |
| GoStrconv.FormatInt | ics/scheduler/scheduler.go:483-490 | The `%d` rendering of any integer is non-empty. It starts with '-' exactly when the number is negative, and is all digits otherwise. Its partner `AtoiFormatInt` reads it back. |
| GoStrconv.ValueItoa | ics/config/readconfig.go:33-34 | The value of a number's decimal rendering is the number. |
| GoStrconv.AtoiFormatInt | ics/config/readconfig.go:33-34 | `Atoi` reads back every int64 from its rendering, sign included, without error. |
| GoDuration.UnitNanos | ics/config/readconfig.go:39-43 | A known unit name is non-empty and stands for at least one nanosecond. |
| GoDuration.ParseDuration | ics/config/readconfig.go:39-43 | Every accepted duration fits in an int64 of nanoseconds. |
| GoDuration.ParseDurationExamples | ics/config/readconfig_test.go:215-246 | "20s" is 20 s, "1m30s" is 90 s and "3s" is 3 s. |
| GoDuration.ComponentRoundTrip | ics/config/readconfig.go:39-43 | Any digits followed by any known unit read back as the digits' value times the unit, when that fits in an int64. |
| GoDuration.TwoComponentRoundTrip | ics/config/readconfig.go:39-43 | Two digits-and-unit components read back as the sum of their values, when that fits in an int64. |
| GoDuration.FormattedRoundTrip | ics/config/readconfig.go:39-43 | Any number rendered in decimal and followed by a unit reads back as that many units. |
| GoDuration.UnsignedDuration | ics/config/readconfig.go:39-43 | A duration starting with a digit is the total of its components, when that fits in an int64. |
| GoDuration.SignedDuration | ics/config/readconfig.go:39-43 | A leading '-' negates a duration and a leading '+' leaves it unchanged. |
| GoDuration.ParseDurationRejects | ics/config/readconfig.go:31-44 | A bare "0" is zero; the empty string and a number without a unit ("10") are errors, which is why a plain count must be read as seconds first. |
| GoInt.Wrap32 | ics/proxy/server.go:371-391 | An `atomic.AddInt32` result is always an int32, and it equals the unbounded sum whenever that sum fits. |
| GoInt.Wrap64 | ics/config/readconfig.go:35 | A `time.Duration` product is always an int64 congruent to the unbounded product modulo 2^64, and equal to it when it fits. |
| ProxyServer.NewServer | ics/proxy/server.go:59-72 | A new server is well formed, not listening, not closed, with all counters at zero. |
| ProxyServer.Listen | ics/proxy/server.go:74-95 | An unresolvable address fails and changes nothing; a listening server answers `ErrServerListening` and changes nothing; otherwise the indices become (0, 1) and the result is nil exactly when the listener opened, leaving two distinct slots. |
| ProxyServer.ListenAndProxy | ics/proxy/server.go:97-113 | The `onProxy` callback fires exactly when listening and resolving the remote both succeed; the primary slot then holds the given id and address and the secondary slot is untouched; every other outcome returns an error. |
| ProxyServer.SetRemoteAddr | ics/proxy/server.go:286-298 | An unresolvable address fails and changes nothing; otherwise the primary slot takes the id and address and every other slot and field is unchanged. |
| ProxyServer.SetShareAddr | ics/proxy/server.go:300-312 | An unresolvable address fails and changes nothing; otherwise the secondary slot takes the id and address and every other slot and field is unchanged. |
| ProxyServer.Unshare | ics/proxy/server.go:203-209 | The secondary slot is cleared; the primary slot, the indices and everything else are unchanged. |
| ProxyServer.Promote | ics/proxy/server.go:214-223 | The primary slot is cleared and the two indices are exchanged; the other slot keeps its id and address. |
| ProxyServer.GetRemoteAddr | ics/proxy/server.go:274-284 | The primary target always comes first; there is a second target exactly when the secondary address is set, and it is that slot's id and address. |
| ProxyServer.PrimaryId | ics/proxy/server.go:225-228 | `Primary()` is the primary slot's id. |
| ProxyServer.SecondaryId | ics/proxy/server.go:230-237 | `Secondary()` is 0 when no secondary address is set, and the secondary slot's id otherwise. |
| ProxyServer.ShareThenPromote | ics/proxy/server.go:196-223 | After a share, promoting leaves the shared environment as the only target: primary id is the shared id, secondary is 0. |
| ProxyServer.ShareThenUnshare | ics/proxy/server.go:196-209 | On a server with no secondary, sharing then unsharing gives back the same forwarding targets. |
| ProxyServer.Close | ics/proxy/server.go:239-260 | The first close marks the server done, closes the feed, the listener (returning its error only if one was open) and every connection; a closed server returns nil and changes nothing. |
| ProxyServer.CloseIdempotent | ics/proxy/server.go:239-260 | A second close is a no-op returning nil, whatever the listener would report. |
| ProxyServer.ZeroBuffer | ics/proxy/forward_connection.go:163-166 | A forwarding buffer as allocated holds 0xffff zero bytes. |
| ProxyServer.Refill | ics/proxy/forward_connection.go:184-200 | After a read into a buffer, the bytes read come first and the buffer keeps its earlier bytes past them, at the same length. |
| ProxyServer.Classify | ics/proxy/server.go:353-370 | Four bytes are a response exactly when they are "HTTP", and a request exactly when they are "GET ", "POST", "PUT " or "DELE". |
| ProxyServer.ReadKind | ics/proxy/forward_connection.go:184-213 | A read of four bytes or more is classified by its own first four bytes; a shorter read is classified with the buffer's earlier bytes filling up the four, because `b[:4]` slices within the buffer's capacity. |
| ProxyServer.PackageMatcher | ics/proxy/server.go:353-382 | The package is classified by the first four bytes of the buffer after the read, whatever the read's length. "HTTP" adds one served and removes one serving; "GET ", "POST", "PUT " or "DELE" adds one requested and one serving; anything else leaves every counter alone; all in int32 arithmetic. |
| ProxyServer.ShortReadCountsStaleRequest | ics/proxy/server.go:353-376 | A one-byte read of "P" into a buffer that last held a "PUT " request counts one more request, because the three bytes after it are stale. |
| ProxyServer.ShortReadIntoFreshBuffer | ics/proxy/server.go:353-382 | The same one-byte read into a freshly allocated buffer is followed by zero bytes and counts nothing. |
| ProxyServer.Count | ics/proxy/server.go:371-382 | A request adds one to requested and serving, a response adds one to served and removes one from serving, each wrapped to int32; any other package changes nothing, and no other field ever changes. |
| ProxyServer.CountAll | ics/proxy/server.go:353-382 | Counting a stream of packages changes only the three counters. |
| ProxyServer.PipeKinds | ics/proxy/forward_connection.go:158-213 | The matcher sees one kind per read; each read of four bytes or more is classified by its own first four bytes, whichever of the two buffers it lands in. |
| ProxyServer.Kinds | ics/proxy/forward_connection.go:158-213 | For a fresh pipe, one kind per read, and each read of four bytes or more is classified by its own first four bytes. |
| ProxyServer.StaleBytesCountTwice | ics/proxy/forward_connection.go:158-213 | A fresh pipe reading "PUT /a", "x" and "P" sees request, other, request: the third read lands in the first buffer and reuses its "UT ". |
| ProxyServer.CountKeepsCounters | ics/proxy/server.go:371-391 | Every package keeps the in-service counter equal to requested minus served, modulo 2^32. |
| ProxyServer.RequestsCounted | ics/proxy/server.go:353-376 | After any stream of classified packages, short reads included, the request counter has grown by exactly the number of requests in it, wrapped to int32. |
| ProxyServer.ResponsesCounted | ics/proxy/server.go:353-382 | After any stream of classified packages, short reads included, the response counter has grown by exactly the number of responses in it, wrapped to int32. |
| ProxyServer.CountAllKeepsCounters | ics/proxy/server.go:371-391 | Any stream of packages keeps serving equal to requested minus served, modulo 2^32. |
| ProxyServer.FreshServerCounts | ics/proxy/forward_connection.go:158-213 | From a new server and a fresh pipe, after reads of any lengths up to the buffer size, the counters are exactly the wrapped numbers of requests, of responses and of their difference among the kinds the pipe sees. |
| IcsScheduler.NewScheduler | ics/scheduler/scheduler.go:124-156 | A new scheduler is LAUNCHING with an empty counter and queue, and already agrees with its fresh proxy. |
| IcsScheduler.Resolve | ics/proxy/server.go:290-293 | The address of a port resolves exactly when the port is in the 16-bit range, to that port. |
| IcsScheduler.Busy | ics/scheduler/scheduler.go:544-553 | An exclusive acquire fails with `ErrBusying`, changing nothing, exactly when the counter is held; any other acquire adds one token. |
| IcsScheduler.Pend | ics/scheduler/scheduler.go:572-576 | The caller is appended at the tail of the queue and nothing else changes. |
| IcsScheduler.TbSettle | ics/scheduler/scheduler.go:593-601 | An empty queue yields no caller and no change; otherwise the head caller is dispatched and removed, and nothing else changes. |
| IcsScheduler.Done | ics/scheduler/scheduler.go:555-601 | One token is released; a caller is dispatched exactly when the last token goes and someone waits, and it is the caller that has waited longest. This is `done` with `settle` able to take the status lock; `IcsLocking.Done` adds the cases where it cannot. |
| IcsScheduler.Release | ics/scheduler/scheduler.go:231 | The deferred `done` of `Share`, which runs after its deferred unlock: the reply is the operation's error, exactly one token is released, and the dispatch is that of `done`. |
| IcsScheduler.Pick | ics/scheduler/scheduler.go:241-247 | The search returns 0 when no environment in the iteration order is a candidate (registered, ready, not serving), and otherwise the first candidate in that order. |
| IcsScheduler.PickFindsCandidate | ics/scheduler/scheduler.go:241-250 | Whatever the map's iteration order, a non-zero pick is a candidate, and a zero pick means no candidate exists unless port 0 itself is one. |
| IcsScheduler.Launch | ics/scheduler/scheduler.go:460-494 | The launched port is recorded as not yet ready and nothing else changes. |
| IcsScheduler.Terminate | ics/scheduler/scheduler.go:495-513 | An unregistered port is `ErrUnregistered`; a failed kill returns its error and keeps the entry; otherwise exactly that port's entry is removed. |
| IcsScheduler.Relaunch | ics/scheduler/scheduler.go:292-298 | The reply is the termination's error; on success the port is relaunched, not ready, with the new process, and only the environments change. |
| IcsScheduler.LaunchFEs | ics/scheduler/scheduler.go:158-167 | The counter holds one token per instance, and the environments are exactly the ports `Port+1 .. Port+Instances`, none of them ready. |
| IcsScheduler.RegisterFE | ics/scheduler/scheduler.go:169-195 | A port that does not parse or is not launched gives -1 and no change. Otherwise its pid is returned, it becomes ready and one token is released. The oldest waiting caller is dispatched exactly when that was the last token. A proxy is started exactly when none is listening. Nothing else changes. |
| IcsScheduler.OnProxy | ics/scheduler/scheduler.go:404-419 | The registered environment becomes the serving one. LAUNCHING becomes READY and any other status stays. The head pending caller (if any) is dispatched and removed, and nothing else changes. |
| IcsScheduler.RegisterLaunched | ics/scheduler/scheduler.go:158-195 | Every environment launched by `LaunchFEs` registers under its decimal port: its pid is returned, it becomes ready and one token is released. |
| IcsScheduler.BusyDone | ics/scheduler/scheduler.go:544-563 | A successful `busy` followed by `done` leaves the counter unchanged, and an exclusive acquire succeeds only when nothing holds the counter. |
| IcsScheduler.DoneDispatchesOldest | ics/scheduler/scheduler.go:555-601 | When the last token is released, the caller dispatched is the one queued first and the rest stay queued in order. |
| IcsScheduler.ShareDuringLaunchDispatched | ics/scheduler/scheduler.go:158-195 | With `pend`'s wait outside the lock and two instances, a `Share` between the two registrations is queued, and the second registration dispatches it and empties the queue. |
| IcsScheduler.TwoServesDuringLaunchServed | ics/scheduler/scheduler.go:197-222 | With `Serve`'s `done` outside the lock and one instance, two `Serve` calls made while launching are both served. The second replies with its specialisation's outcome and dispatches the first. |
| IcsScheduler.StartProxyEstablishesInv | ics/scheduler/scheduler.go:185-192 | The first proxy callback leaves the scheduler in agreement with its proxy, and READY exactly when listening and both resolutions succeed. |
| IcsScheduler.ShareKeepsInv | ics/scheduler/scheduler.go:224-260 | `Share` keeps the proxy's primary target the serving environment and its secondary target the sharing one. |
| IcsScheduler.SwapKeepsInv | ics/scheduler/scheduler.go:346-402 | `Swap` keeps the scheduler and its proxy in agreement. |
| IcsScheduler.PromoteKeepsInv | ics/scheduler/scheduler.go:305-340 | `promote` keeps the scheduler and its proxy in agreement. |
| IcsScheduler.UnshareKeepsInv | ics/scheduler/scheduler.go:266-299 | `unshare` keeps the scheduler and its proxy in agreement. |
| IcsScheduler.ServeRegisterKeepInv | ics/scheduler/scheduler.go:169-222 | `Serve` and `RegisterFE` keep the scheduler and its proxy in agreement. |
| IcsScheduler.StartProxy | ics/scheduler/scheduler.go:185-192 | The callback runs exactly when no listener exists, listening works and both addresses resolve. Then the registered port serves and is the proxy's primary target, LAUNCHING becomes READY and the head of the queue is dispatched. Otherwise nothing is dispatched and only the proxy may change (nothing at all when a listener exists). The environments, counter and functions never change. |
| IcsScheduler.Serve | ics/scheduler/scheduler.go:197-222 | The call is queued exactly while LAUNCHING, and then nothing else changes. From SERVING or SHARING it fails with the transition error and no change. From READY the counter ends where it was, and the function and SERVING are adopted exactly when specialisation succeeds. The environments, proxy and ports stay. The oldest waiting caller is dispatched exactly when the counter was empty and someone waits. |
| IcsScheduler.Share | ics/scheduler/scheduler.go:224-260 | The call is queued exactly while the counter is held, and then nothing else changes. Any other reply leaves the counter where it was and dispatches the oldest waiting caller exactly when the counter was empty. Success happens exactly from SERVING with an available environment and a successful specialisation. It shares the first available environment with the given function and moves to SHARING, serving untouched. No environment gives `ErrNotAvailable`, and every failure changes nothing but the queue. |
| IcsScheduler.Unshare | ics/scheduler/scheduler.go:266-303 | The call is queued exactly while the counter is held. Otherwise it keeps the token it took and dispatches nothing. Outside SHARING it fails with the transition error. From SHARING it clears sharing, its function and the proxy's secondary slot and returns to SERVING, serving untouched. It succeeds exactly when the shared environment is registered and killed, and then relaunches it. |
| IcsScheduler.Promote | ics/scheduler/scheduler.go:305-344 | The call is queued exactly while the counter is held. Otherwise it keeps the token it took and dispatches nothing. Outside SHARING it fails with the transition error. From SHARING the sharing environment and function take over serving, sharing is cleared, the proxy exchanges its slots and the status returns to SERVING. It succeeds exactly when the old serving environment is registered and killed, and then relaunches it. |
| IcsScheduler.Swap | ics/scheduler/scheduler.go:346-402 | The call is queued exactly while the counter is held. Otherwise it keeps the token it took and dispatches nothing. Outside SERVING it is the transition error, with no available environment `ErrNotAvailable`, and with a failed specialisation `ErrSpecialization`, each changing nothing else. Otherwise the first available environment serves the given function (the serving one for an empty name), sharing untouched. It succeeds exactly when the old serving environment is registered and killed, and then relaunches it. |
| IcsScheduler.RunPending | ics/scheduler/scheduler.go:421-425 | A dispatched caller re-runs its operation. A `Serve` queues itself again exactly while LAUNCHING and any other caller exactly while the counter is held, at the tail of the queue with nothing else changed. |
| IcsScheduler.Inv | ics/proxy/server.go:225-284 | Once the proxy has called back, the proxy's first target is the serving environment, any second target is the sharing one, and a sharing environment is always the second target. Before that, nothing is shared. |
| IcsScheduler.ShareSuccess | ics/scheduler/scheduler.go:224-260 | On success, Share takes an exclusive token and points the proxy's secondary slot at the chosen port. It records that port and the function as sharing, moves to SHARING, and releases the token on return. |
| IcsScheduler.ServeKeepsInv | ics/scheduler/scheduler.go:197-222 | Serve keeps the scheduler and its proxy in agreement, whether it queues, fails or serves. |
| IcsScheduler.DoneKeepsInv | ics/scheduler/scheduler.go:555-563 | Releasing a token keeps the scheduler and its proxy in agreement. |
| IcsLocking.Done | ics/scheduler/scheduler.go:555-591 | Releasing the last token while someone waits hangs exactly when the status lock is stuck or held by the caller; then the lock is stuck for good and nothing is dispatched. Otherwise it is `IcsScheduler.Done`. |
| IcsLocking.Pend | ics/scheduler/scheduler.go:565-576 | `pend` never returns: it queues the caller and leaves the status lock stuck; when the lock is already stuck it waits at `Lock` without queueing. |
| IcsLocking.Serve | ics/scheduler/scheduler.go:197-222 | On a stuck lock `Serve` hangs and changes nothing. From READY it hangs exactly when the counter is empty and someone waits, leaving the lock stuck and neither the function nor the status recorded. In every other case it is `IcsScheduler.Serve`. |
| IcsLocking.Exclusive | ics/scheduler/scheduler.go:224-402 | `Share`, `unshare`, `promote` and `Swap` hang exactly while the lock is stuck or the counter is held. A held counter leaves the lock stuck, and a stuck lock keeps the queue as it is and dispatches nothing. With the counter free and the lock stuck the token is taken and kept. Otherwise each is its `IcsScheduler` operation. |
| IcsLocking.RegisterFE | ics/scheduler/scheduler.go:169-195 | Registration hangs exactly when it releases the last token while someone waits and the lock is stuck; then nothing is dispatched. Otherwise it is `IcsScheduler.RegisterFE`. |
| IcsLocking.OnProxy | ics/scheduler/scheduler.go:404-419 | The proxy callback hangs exactly while the lock is stuck; otherwise it is `IcsScheduler.OnProxy`. |
| IcsLocking.Apply | ics/scheduler/scheduler.go:169-419 | No call made while the lock is stuck unsticks it, dispatches a caller or changes the queue. |
| IcsLocking.StuckIsForever | ics/scheduler/scheduler.go:555-591 | Once the status lock is stuck, whatever calls follow, it stays stuck, the queue never drains and no caller is ever dispatched. |
| IcsLocking.ShareDuringLaunchHangs | ics/scheduler/scheduler.go:565-570 | With two instances, a `Share` between the two registrations hangs in `pend` holding the lock. The second registration then hangs, the proxy callback hangs, and the `Share` stays queued forever. |
| IcsLocking.TwoServesDuringLaunchHang | ics/scheduler/scheduler.go:207-214 | With one instance and two `Serve` calls while it launches, the second, dispatched by the proxy callback, finds READY with the first queued again behind it and hangs in its own `done`, leaving the first queued. |
| WatchdogScheduler.NewScheduler | watchdog/scheduler.go:93-109 | A new scheduler is LAUNCHING with no environments and nothing queued. |
| WatchdogScheduler.LaunchedPorts | watchdog/scheduler.go:117-118 | One port per instance (none for a non-positive count), the `i`-th being `port+i+1`. |
| WatchdogScheduler.LaunchFEs | watchdog/scheduler.go:111-151 | The counter holds one token per instance; the environments are exactly the launched ports, each with the process id its launch produced; nothing else changes. |
| WatchdogScheduler.LaunchedPortRange | watchdog/scheduler.go:111-151 | A port is launched exactly when it lies in `port+1 .. port+instances`. |
| WatchdogScheduler.RegisterFE | watchdog/scheduler.go:153-180 | A port that does not parse or was not launched gives -1 and no change; otherwise one token is released, the pid is returned, and a proxy is started exactly when none is listening. |
| WatchdogScheduler.RegisterLaunched | watchdog/scheduler.go:111-180 | Every launched environment registers under its decimal port, returning its pid and releasing one token. |
| WatchdogScheduler.Serve | watchdog/scheduler.go:182-212 | While LAUNCHING the caller is queued at the tail; once serving it fails with the transition error and no change; from READY it succeeds exactly when specialisation does, adopting the function and SERVING, with the counter back where it was. |
| WatchdogScheduler.Drain | watchdog/scheduler.go:221-228 | Draining empties the queue, gives one reply per queued caller, and never returns to LAUNCHING. |
| WatchdogScheduler.OnProxy | watchdog/scheduler.go:214-233 | The callback runs every queued caller, one reply each; with nothing queued it leaves a LAUNCHING scheduler READY. |
| WatchdogScheduler.DrainKeepsCounter | watchdog/scheduler.go:182-228 | Draining leaves the counter and the serving port alone. |
| WatchdogScheduler.DrainAllFail | watchdog/scheduler.go:182-228 | When no queued caller's specialisation succeeds, the scheduler stays READY with its function, and every caller gets the specialisation error. |
| WatchdogScheduler.DrainTakes | watchdog/scheduler.go:182-228 | When the head caller's specialisation succeeds its function is served and every later caller gets the transition error. |
| WatchdogScheduler.DrainServesFirstSuccess | watchdog/scheduler.go:182-228 | Draining from READY serves exactly the first queued function whose specialisation succeeds, and changes nothing else but the queue. |
| WatchdogScheduler.DrainRepliesFirstSuccess | watchdog/scheduler.go:182-228 | The callers before the first success get the specialisation error, it gets nil, and every caller after it gets the transition error. |
| WatchdogScheduler.DrainFromServing | watchdog/scheduler.go:182-228 | Draining once SERVING changes nothing but the queue, and every caller gets the transition error. |
| MultiIo.NewMultiWriter | ics/proxy/io.go:131-135 | The writer keeps its own copy of the given writers, in order, none of them nil. |
| MultiIo.Compact | ics/proxy/io.go:113-121 | The compacted list holds no nil writer and is never longer than the original. |
| MultiIo.Write | ics/proxy/io.go:85-124 | A single writer's result passes through. With any other number of writers, the reply is `ErrWriteToAny` exactly when every writer failed or wrote short; otherwise it is `(len(p), nil)`. The writer list never grows. |
| MultiIo.CollectWritesSpec | ics/proxy/io.go:95-110 | Whatever the arrival order, the collecting loop nils exactly the writers that failed or wrote short, lowers `succeeded` by their number, and leaves `(len(p), nil)` as the reply as soon as any writer succeeded. |
| MultiIo.FailuresPermutation | ics/proxy/io.go:95-110 | The number of failed writes is the same for every arrival order of the same results. |
| MultiIo.WriteOrderIndependent | ics/proxy/io.go:85-124 | The outcome of a parallel write does not depend on the order in which the writers' results arrive. |
| MultiIo.WriteRules | ics/proxy/io.go:85-124 | With two or more writers: no success is `(0, ErrWriteToAny)`; some failures give `(len(p), nil)` and keep only the writers that succeeded; no failure gives `(len(p), nil)` and keeps every writer. |
| MultiIo.WriteSingle | ics/proxy/io.go:86-88 | A single writer's result passes through untouched, even a short write. |
| MultiIo.CompactNulled | ics/proxy/io.go:113-121 | After a partial failure the surviving writers are exactly those that succeeded, in their original order. |
| MultiIo.NewMultiReader | ics/proxy/io.go:64-70 | The reader keeps the given readers in order, with none marked as reading. |
| MultiIo.Read | ics/proxy/io.go:29-58 | A single reader reads straight into `p`. With two or more, the read succeeds exactly when some reader succeeded. A success narrows the list to one successful reader and fills `p` from that reader's buffer. A failure keeps the list and fills `p` from the last reader's buffer. |
| MultiIo.FirstOk | ics/proxy/io.go:43-51 | The position found is the first arrival without error from the starting point on; none is found exactly when every later arrival erred. |
| MultiIo.FirstOkIsSome | ics/proxy/io.go:43-51 | Over a full arrival order, the loop finds an arrival without error exactly when some reader succeeded. |
| MultiIo.ReadLoopSpec | ics/proxy/io.go:29-58 | With two or more readers, the first arrival without error narrows the list to its reader, returns its `n` and fills `p` from its buffer; when every read fails the list stays, the last arrival's result is returned and `p` is filled from the last reader's buffer. |
| MultiIo.ReadSingle | ics/proxy/io.go:30-32 | A single reader reads straight into `p` and its result passes through. |
| WatchdogMultiIo.Write | watchdog/proxy/io.go:100-141 | A single writer's result passes through. With any other number of writers, the reply is `ErrWriteToAny` exactly when every writer failed or wrote short; otherwise it is `(len(p), nil)`. |
| WatchdogMultiIo.WriteMatchesIcs | watchdog/proxy/io.go:100-141 | Collecting the writers' results in index order gives exactly what the `ics` writer gives for any arrival order. |
| WatchdogMultiIo.Scan | watchdog/proxy/io.go:58-66 | A scan that copied nothing keeps the list, found no success from its start on, and reports the last reader's result. A scan that copied a buffer copied it from the first successful reader from its start on. It narrowed the list to that reader and reports success. |
| WatchdogMultiIo.Read | watchdog/proxy/io.go:42-73 | As written: the read succeeds exactly when some reader succeeded. A success narrows the list to one reader but fills `p` from buffer 0, whichever reader succeeded. A failure keeps the list and fills `p` from the last reader's buffer. |
| WatchdogMultiIo.ReadCopiesWrongBuffer | watchdog/proxy/io.go:58-70 | As written: with two readers where the first fails and the second reads 5 bytes, the reply is the second reader's 5 bytes but `p` ends up holding the first reader's buffer. |
| WatchdogMultiIo.FinalCopy | watchdog/proxy/io.go:67-70 | The final copy never changes the reply or the reader list, and does nothing once the list has been narrowed. |
| WatchdogMultiIo.ReadCorrected | watchdog/proxy/io.go:42-73 | Corrected: the read succeeds exactly when some reader succeeded. A success fills `p` from the buffer of the reader it reports, and the list narrows to that reader. A failure keeps the list and fills `p` from the last reader's buffer. |
| WatchdogMultiIo.ReadCorrectedMatchesIcs | watchdog/proxy/io.go:42-73 | With the final copy guarded, the reader is the `ics` reader with results arriving in index order. |
| WatchdogMultiIo.ReadCorrectedFirstSuccess | watchdog/proxy/io.go:42-73 | Corrected: with two or more readers and `i` the first without error, the list narrows to reader `i`, and both the reply and `p` come from reader `i`. |
| WatchdogMultiIo.ReadAllFail | watchdog/proxy/io.go:42-73 | When every reader fails, the code as written and the corrected one agree: the list stays, the last result is returned and `p` holds the last reader's buffer. |
| WatchdogMultiIo.ScanMatchesReadLoop | watchdog/proxy/io.go:58-66 | Awaiting the reads in index order, then copying the reported reader's buffer, is the read loop of `ics/proxy/io.go` with results arriving in index order. |
| WatchdogMultiIo.ScanAllFail | watchdog/proxy/io.go:58-66 | When every remaining read fails, the loop keeps the list and reports the last result. |
| Series.SampleVariance | ics/monitor/model/light_stats.go:290-293 | The running-sums formula `(n·Σx² − (Σx)²) / (n(n−1))` equals the sample variance: the squared deviations from the mean, over `n − 1`. |
| Series.TotalConcat | ics/monitor/model/light_stats.go:259-261 | Adding the sums of two batches gives the sums of their concatenation, for both the total and the total of squares. |
| Sums.NewSum | ics/monitor/model/sum.go:8-13 | A new accumulator has counted nothing and sums to zero. |
| Sums.Add | ics/monitor/model/sum.go:15-20 | Adding a value counts one more, raises the total by exactly the value, and returns the new total. |
| Sums.AddAll | ics/monitor/model/sum.go:15-28 | After adding any values, `N()` has grown by their number and `Sum()` by their total. |
| Sums.NewSumCounts | ics/monitor/model/sum.go:8-28 | A new accumulator after adding any values reports their number and their total. |
| LightStatistics.BucketAdd | ics/monitor/model/light_stats.go:88-97 | A bucket refuses a value, unchanged, exactly when it already holds `buffer_size` (1000) values. |
| LightStatistics.BucketAddHolds | ics/monitor/model/light_stats.go:88-97 | A bucket holding the values `h` accepts a value exactly when `h` has fewer than 1000, and then holds `h` followed by it: count, total and total of squares. |
| LightStatistics.Reset | ics/monitor/model/light_stats.go:103-111 | A reset bucket holds no values and loads as zeros. |
| LightStatistics.BucketAddAllHolds | ics/monitor/model/light_stats.go:88-97 | Adding values that fit leaves the bucket holding all of them, in the order added. |
| LightStatistics.SetPrecision | ics/monitor/model/light_stats.go:32-38 | The expander is the reciprocal of the precision, a zero precision counting as 1, and `expander2` is its square; nothing else changes. |
| LightStatistics.SetPrecisionZero | ics/monitor/model/light_stats.go:32-38 | A zero precision behaves exactly like precision 1. |
| LightStatistics.SumerAdd | ics/monitor/model/light_stats.go:259-261 | Adding to a running sum keeps its kind (plain or moving) and its well-formedness. |
| LightStatistics.NewLightStats | ics/monitor/model/light_stats.go:136-145 | New stats have two buckets and nothing pending for `calculate`. |
| LightStatistics.NewMovingLightStats | ics/monitor/model/light_stats.go:147-157 | New moving stats are well formed for a positive window and have nothing pending for `calculate`. |
| LightStatistics.Flush | ics/monitor/model/light_stats.go:248-282 | A flush keeps the stats well formed and reports the flushed bucket's count to `OnSwap`. |
| LightStatistics.FlushHolds | ics/monitor/model/light_stats.go:248-264 | Flushing a non-empty bucket holding `hb` adds its count and sums to the running sums, marks the stats changed, empties that bucket and leaves the other alone. |
| LightStatistics.Calculate | ics/monitor/model/light_stats.go:284-301 | `calculate` changes only the mean, the variance and the update mark, which then equals the change mark; with nothing changed it is a no-op. |
| LightStatistics.CalculateIdempotent | ics/monitor/model/light_stats.go:284-301 | A second `calculate` does nothing. |
| LightStatistics.CalculateStatistics | ics/monitor/model/light_stats.go:284-301 | After a change, with more than one flushed value the mean is their average and `var2` their sample variance; with at most one both are zero. |
| LightStatistics.FlushedMean | ics/monitor/model/light_stats_test.go:59-78 | Adding up to 1000 values to new stats, flushing and calculating gives their count, their total and their average. |
| LightStatistics.RampTotal | ics/monitor/model/light_stats_test.go:68 | The total of 1, 2, …, n is n(n+1)/2, the sum the test expects. |
| LightStatistics.OneToTen | ics/monitor/model/light_stats_test.go:59-78 | After adding 1 to 10, `N()` is 10, `Sum()` is 55 and `Mean()` is 5.5. |
| LightStatistics.Close | ics/monitor/model/light_stats.go:193-200 | Closing marks the stats closed and changes nothing else. |
| LightStatistics.CloseIdempotent | ics/monitor/model/light_stats.go:193-200 | Closing twice is the same as closing once. |
| MovingSums.NewMovingSum | ics/monitor/model/moving_sum.go:11-19 | A new ring buffer has `window` slots, counts nothing and sums to zero. |
| MovingSums.TryAdd | ics/monitor/model/moving_sum.go:11-40 | `Add` on any buffer `NewMovingSum` returns panics (a division by zero) exactly when the window is zero. Otherwise it is `Add`. |
| MovingSums.Next | ics/monitor/model/moving_sum.go:23 | Moving forward from the last slot wraps to slot 0, and from any other slot goes to the next one. |
| MovingSums.Back | ics/monitor/model/moving_sum.go:62 | Going `k` slots back from `last` wraps around the end of the buffer. |
| MovingSums.Add | ics/monitor/model/moving_sum.go:21-40 | Adding keeps the buffer well formed with the same window, and returns the new sum. |
| MovingSums.Last | ics/monitor/model/moving_sum.go:54-56 | `Last()` is the newest value of any non-empty history the buffer holds. |
| MovingSums.NewHoldsNothing | ics/monitor/model/moving_sum.go:11-19 | A new buffer holds the empty history. |
| MovingSums.AddHolds | ics/monitor/model/moving_sum.go:21-40 | If the buffer holds a history (count `min(len, window)`, newest values going backwards from `last`, sum of the newest `n`), then after `Add` it holds that history with the value appended. |
| MovingSums.AddAllHolds | ics/monitor/model/moving_sum.go:21-40 | Adding any values in order keeps the buffer holding the whole history. |
| MovingSums.MovingSumOfHistory | ics/monitor/model/moving_sum.go:21-56 | After adding any values to a new buffer, `N()` is `min(count, window)`, `Sum()` is the total of the last `N()` values and `Last()` is the newest value. |
| MovingSums.SumOfOneToSix | ics/monitor/model/moving_sum_test.go:40-44 | With window 5, after adding 1 to 6 the sum is 20, the newest value is 6 and the count is 5. |
| MovingSums.LastN | ics/monitor/model/moving_sum.go:58-63 | As written: on a buffer that is empty or full, `LastN(n)` is `Last()` whatever `n` is. |
| MovingSums.LastNCorrected | ics/monitor/model/moving_sum.go:58-63 | Corrected: `LastN(0)` is `Last()`, and so is `LastN(n)` on an empty buffer. |
| MovingSums.LastNIgnoresArgument | ics/monitor/model/moving_sum.go:58-63 | As written: with window 5 and 1 to 5 added, `LastN(1)` and `LastN(3)` both give 5, because the clamped argument is never used. |
| MovingSums.LastNCorrectedRecent | ics/monitor/model/moving_sum.go:58-63 | Corrected: for `n` below `N()`, `LastN(n)` is the value added `n` adds before the newest. |
| MovingSums.NewestIsLast | ics/monitor/model/moving_sum.go:54-56 | `Last()` is the newest value of a non-empty history. |
| GoInt.TruncDiv | ics/monitor/interval_monitor.go:99-100 | Go's `time.Duration` division truncates toward zero: the Euclidean quotient for non-negative operands, the negated quotient of the magnitude for a negative dividend. |
| IntervalMonitors.NewIntervalMonitor | ics/monitor/interval_monitor.go:24-34 | A new monitor has no analysers, and the given interval or, for nil, the 1 s default. |
| IntervalMonitors.AddAnalyser | ics/monitor/interval_monitor.go:37-48 | The reply says whether the name was already taken; a taken name changes nothing; otherwise the analyser is registered under it and nothing else changes. |
| IntervalMonitors.RemoveAnalyser | ics/monitor/interval_monitor.go:51-63 | The name is no longer registered; every other registration is kept unchanged and none is added. |
| IntervalMonitors.GetAnalyser | ics/monitor/interval_monitor.go:65-70 | The analyser registered under the name, and nil exactly when there is none. |
| IntervalMonitors.AddKeepsFirst | ics/monitor/interval_monitor.go:37-48 | A second registration under a name is reported as taken and changes nothing; the first analyser stays. |
| IntervalMonitors.AddThenRemove | ics/monitor/interval_monitor.go:37-63 | Removing a name just added gives the same registry as removing it from the original, and the name is then unknown. |
| IntervalMonitors.OtherNamesUntouched | ics/monitor/interval_monitor.go:37-70 | Adding or removing one name never changes what another name looks up. |
| IntervalMonitors.Timeout | ics/monitor/interval_monitor.go:97-101 | The per-analyser timeout is never above 100 ms, is a tenth of the interval (truncated) below 1 s, and exactly 100 ms from 1 s on. |
| IntervalMonitors.NextInterval | ics/monitor/interval_monitor.go:150-156 | A round that fits in the interval waits out the rest of it; one that overran waits a whole interval; the wait is never negative nor above the interval. |
| Sampling.NewDiff | ics/monitor/sampler/sampler.go:48-53 | The difference keeps the new sample's time, and adding it back to the earlier value gives the new value. |
| Sampling.NewRate | ics/monitor/sampler/sampler.go:55-60 | The rate keeps the new sample's time, and multiplied by the interval in nanoseconds it gives the difference `NewDiff` computes. A zero interval gives no rate, where Go divides by zero. |
| Sampling.ParseUint | ics/monitor/sampler/sampler.go:64-80 | A valid unsigned string passes through `ParseUint`'s result. Every failure is `ParseUint`'s own result, and every value returned lies in the uint64 range. |
| Sampling.ParseUintOutcome | ics/monitor/sampler/sampler.go:64-80 | A valid unsigned string passes through unchanged. Otherwise the parse succeeds exactly when the string is a negative integer, within or beyond int64, and every failure is `ParseUint`'s own result. Any value returned lies in the uint64 range. |
| Sampling.ParseUintDigits | ics/monitor/sampler/sampler.go:64-66 | A decimal digit string that fits in 64 bits parses to its value with no error. |
| Sampling.NegativeSaturates | ics/monitor/sampler/sampler.go:67-73 | A minus sign before any positive digit string saturates to `(0, nil)`, however many digits follow. |
| Sampling.MinusZeroRejected | ics/monitor/sampler/sampler.go:67-76 | "-0" is not a negative integer, so it keeps `ParseUint`'s syntax error. |
| Sampling.CgroupParamKeyValue | ics/monitor/sampler/sampler.go:84-97 | Fields are separated by Go's full white-space set (`unicode.IsSpace`). A line with other than two fields is `ErrNotValidFormat`. With two fields, it succeeds exactly when the value parses, giving the first field and the parsed value. Every error comes with an empty key and a zero value. |
| Sampling.KeyValueRoundTrip | ics/monitor/sampler/sampler.go:84-97 | A blank-free name, a blank and the decimal form of a 64-bit value read back as that name and value. |
| Sampling.NoBreakSpaceSeparates | ics/monitor/sampler/sampler.go:85 | A NO-BREAK SPACE separates fields, so "a\u00A0b 5" has three fields and is `ErrNotValidFormat`. |
| SamplerCaches.NewSamplerCache | ics/monitor/sampler/sampler_cache.go:15-19 | A new cache has no remembered timestamp, so its first call must ask the wrapped sampler. |
| SamplerCaches.CachedSample | ics/monitor/sampler/sampler_cache.go:21-27 | The wrapped sampler is asked exactly when the timestamp differs from the remembered one. Asking replaces the remembered answer, error included, and the timestamp. Not asking returns the remembered answer and leaves the cache unchanged. |
| SamplerCaches.FirstCallDelegates | ics/monitor/sampler/sampler_cache.go:15-25 | The first call on a new cache asks the wrapped sampler and remembers its answer under the call's timestamp. |
| SamplerCaches.RepeatIsCached | ics/monitor/sampler/sampler_cache.go:21-27 | Two calls with the same timestamp ask the wrapped sampler at most once. The second answer, error included, equals the first, whatever the sampler would have said. |
| RequestSamplers.NewRequestSampler | ics/monitor/sampler/request_sampler.go:17-21 | A new sampler has no previous statistics. |
| RequestSamplers.MakeVariable | ics/monitor/sampler/request_sampler.go:38-43 | The sample is at the given time, and adding the last served count back gives the given number. |
| RequestSamplers.RequestSample | ics/monitor/sampler/request_sampler.go:23-36 | The statistics are always remembered. The first call, and only the first, answers no sample with `ErrNotEnoughData`. Later calls answer, without error, the requests served since the previous call, at the time of the statistics. |
| RequestSamplers.SamplesTelescope | ics/monitor/sampler/request_sampler.go:23-43 | Once a sampler has statistics, each call in a run answers one sample at its statistics' time. The samples add up to the served count of the last call minus the count the sampler started from. |
| RequestSamplers.FreshSamplerRun | ics/monitor/sampler/request_sampler.go:23-43 | From a new sampler, a run of n calls answers n − 1 samples, which add up to the requests served between the first and the last call. |
| UriStripper.TrimPrefix | gateway/handlers/uri_stripper.go:12-13 | A path with the prefix is the prefix followed by the result. A path without it is returned unchanged. |
| UriStripper.Strip | gateway/handlers/uri_stripper.go:11-14 | A nil URL, or a path without the prefix, leaves the request unchanged. Otherwise only the path changes, and the prefix followed by the new path is the old path. |
| UriStripper.Serve | gateway/handlers/uri_stripper.go:10-17 | The next handler is called exactly once, with the stripped request. |
| UriStripper.StripRoundTrip | gateway/handlers/uri_stripper.go:12-13 | A path made of the prefix and any rest reaches the next handler as that rest, and nothing else in the request changes. |
| UriStripper.StripOnce | gateway/handlers/uri_stripper.go:12-13 | The prefix is removed only once, so a doubled prefix leaves one copy. |
| UriStripper.StripFunctionPaths | gateway/handlers/uri_stripper_test.go:9-51 | With the prefix "/function/", the next handler sees "/function/tester" as "tester" and "/function/tester/22" as "tester/22". |
| Recorder.NewRecorder | benchmark/common/recorder.py:6-14 | A new recorder writes to "response.csv". It has nothing pending, no wake-up signalled, no file and no running writer. |
| Recorder.OpenRecorder | benchmark/common/recorder.py:39-43 | Once the writer has opened the file, `open` does nothing. Before that, it takes the given name, if any, and starts the writer. A second start is Python's `RuntimeError`, raised after the name is taken; the error carries the renamed recorder. Pending rows, the file and the close request are never touched. |
| Recorder.Save | benchmark/common/recorder.py:45-55 | A successful save signals the writer. The pending rows become the earlier ones followed by the new ones. The file and the close request are untouched. Without a file name, a save cannot fail. |
| Recorder.WriterStep | benchmark/common/recorder.py:16-37 | One wake-up takes every pending row and clears the signal. The first wake-up creates `path + filename`, empty even if nothing is pending. The file gains the lines of the pending rows in order. The writer closes the file and stops exactly when a close was requested. |
| Recorder.Close | benchmark/common/recorder.py:57-63 | Closing always sets the close request and the wake-up signal first. It fails with the `join` error exactly when the writer was never started, and that error carries the flagged recorder. A running writer drains everything pending into the file, closes it and stops. A writer that has already stopped is only flagged. |
| Recorder.LinesAppend | benchmark/common/recorder.py:30-33 | The text written for two batches of rows is the first batch's lines followed by the second's. |
| Recorder.SavesAreFifo | benchmark/common/recorder.py:30-55 | Two saves before one wake-up write the first save's rows before the second's. |
| Recorder.StepsCompose | benchmark/common/recorder.py:16-37 | Draining two saves in two wake-ups leaves the same file as draining both in one. |
| Recorder.LineRoundTrip | benchmark/common/recorder.py:32-33 | A row whose fields hold no ',' gives a line that ends in a newline, and splitting the rest at ',' recovers the row. |
| Recorder.SecondOpenRenames | benchmark/common/recorder.py:39-43 | A second `open` before the writer has woken raises `RuntimeError`, but the recorder keeps the second name: the writer then creates the file under it. |
| Recorder.FirstWakeCreatesFile | benchmark/common/recorder.py:27-28 | A writer opened with a name and woken with nothing pending leaves an empty `path + name`. |
| SingleRun.Quantile | benchmark/common/single.py:8-9 | Below 30 answers the quantile is Student's t at level `1 − (1 − confidence)/2` with `cnt − 1` (at least 1) degrees of freedom. From 30 answers on it is the normal quantile at that level. |
| SingleRun.Accuracy | benchmark/common/single.py:23-29 | After two or more answers the accuracy is defined exactly when the answers do not sum to zero. Python divides by a zero mean otherwise. |
| SingleRun.Run | benchmark/common/single.py:5-35 | The loop makes no iteration, and the final division fails, exactly when the target is at least 100. On convergence, after at least two answers, the accuracy is that of the answers used and is within the target, and the result is their mean. Every earlier count of two or more answers had an accuracy above the target. A zero mean along the way is a division error. |
| SingleRun.Estimate | benchmark/common/single.py:23-29 | The accuracy computed from the running count, sum and sum of squares equals the accuracy of the answers themselves. |
| SingleRun.AccuracyUsesSampleVariance | benchmark/common/single.py:24-25 | The running-sum variance the accuracy uses is the sample variance of the answers: squared deviations from their mean over n − 1. |
| Invoker.LastResponse | benchmark/legacy/common/invoker.py:27-36 | After an attempt, `r` holds the response of the latest answered attempt so far. It is unassigned only if no attempt so far was answered. |
| Invoker.EntryAt | benchmark/legacy/common/invoker.py:25-42 | An entry holds the start time, the attempt's status (500 when the send raised) and the elapsed time. Without a handler it has no extra fields. With one, an answered attempt gets the handler's fields for its own response. |
| Invoker.Request | benchmark/legacy/common/invoker.py:20-46 | The caller's entries are kept as a prefix, followed by one entry per completed attempt in order. A full run appends exactly `count` entries (none for a negative count). An early stop is at the first attempt that is interrupted or where the handler reads an unassigned response: that attempt raises and no earlier one does. `KeyboardInterrupt` is raised exactly for an interruption. |
| Invoker.RequestWithoutHandler | benchmark/legacy/common/invoker.py:25-44 | Without a handler every attempt gives `[start, status, end − start]`, and a failed send gives status 500. |
| Invoker.FloorDiv | benchmark/legacy/common/invoker.py:66 | `int(round(total / num))` in Python 2: the quotient floored, for either sign of the divisor. |
| Invoker.Shares | benchmark/legacy/common/invoker.py:71-74 | `max(num, 1)` threads: all but the last get `per`, and the last gets `rest`. |
| Invoker.Threadize | benchmark/legacy/common/invoker.py:65-74 | The split as written. Zero threads is Python's `ZeroDivisionError`, and any other thread count gives a plan. |
| Invoker.ThreadizeCorrected | benchmark/legacy/common/invoker.py:65-74 | The split with `total2 = total`. Zero threads is `ZeroDivisionError`, and any other thread count gives a plan. |
| Invoker.Issued | benchmark/legacy/common/invoker.py:24 | No threads issue nothing. Each thread issues its count, or nothing when the count is negative. |
| Invoker.Planned | benchmark/legacy/common/invoker.py:69-74 | The planned total equals the requests issued when no count is negative. When some count is negative, fewer are planned than issued. |
| Invoker.ThreadizePlansPerTimesNum | benchmark/legacy/common/invoker.py:65-74 | As written, every thread gets the floored `total / num`, so `per · num` requests are planned rather than `total`. |
| Invoker.ThreadizeLosesRequests | benchmark/legacy/common/invoker.py:66-68 | 10 requests over 3 threads become three threads of 3, which issue 9 requests. 7 over 2 become two of 3, which issue 6. |
| Invoker.ThreadizeCorrectedTotal | benchmark/legacy/common/invoker.py:66-68 | With `rest` making up the difference, the planned counts always add up to `total`. When none is negative, and in particular for any non-negative `total`, exactly `total` requests are issued. |
| Invoker.NonNegativeShares | benchmark/legacy/common/invoker.py:66-68 | From a non-negative total, the floored share and the topping-up `rest` are all non-negative. |
| Invoker.ThreadizeCorrectedTen | benchmark/legacy/common/invoker.py:66-68 | Corrected, 10 requests over 3 threads are 3, 3 and 4. |
| Invoker.RunThreads | benchmark/legacy/common/invoker.py:69-81 | The shared list never holds more entries than the threads' non-negative counts add up to. When no thread stops early, it holds exactly that many. |
| Invoker.IssuedAppend | benchmark/legacy/common/invoker.py:72-74 | One more thread issues its count, or nothing when the count is negative, as `range` does. |
| ResponseGroups.Keys | benchmark/graphs/parsers/response.py:20-27 | The group keys are distinct, and every record's key is among them. |
| ResponseGroups.Group | benchmark/graphs/parsers/response.py:28 | A group is no longer than the records it comes from. |
| ResponseGroups.Groups | benchmark/graphs/parsers/response.py:33-35 | One group per key, in key order. Each is that key's records. |
| ResponseGroups.GroupBy | benchmark/graphs/parsers/response.py:16-37 | The one-pass loop with a dictionary of lists yields the keys in first-appearance order and, for each key, its records in their original order. |
| ResponseGroups.KnownKeyStep | benchmark/graphs/parsers/response.py:25-28 | A record with a known key is appended to that key's list, and the lists remain the groups of the records seen so far. |
| ResponseGroups.NewKeyStep | benchmark/graphs/parsers/response.py:25-28 | A record with a new key adds that key at the end of the key list with a one-record list, and the lists remain the groups. |
| ResponseGroups.GroupOutsideKeys | benchmark/graphs/parsers/response.py:20-28 | A key no record has gets no records. |
| ResponseGroups.GroupMembers | benchmark/graphs/parsers/response.py:28 | A group holds only records of the input, and only ones with its key. |
| ResponseGroups.KeysAreRecordKeys | benchmark/graphs/parsers/response.py:25-27 | Every group key is the key of some record. |
| ResponseGroups.GroupsAreNonEmpty | benchmark/graphs/parsers/response.py:25-28 | No group is empty. |
| ResponseGroups.GroupHolds | benchmark/graphs/parsers/response.py:28 | Every record is in the group of its key. |
| ResponseGroups.GroupAppend | benchmark/graphs/parsers/response.py:28 | Appending a record grows only the group of its key, at the end. |
| ResponseGroups.GroupsPartition | benchmark/graphs/parsers/response.py:16-37 | The groups together hold every record exactly once: their concatenation is a permutation of the records. |
| ResponseGroups.PartitionFor | benchmark/graphs/parsers/response.py:16-37 | For any duplicate-free key list covering every record's key, the groups concatenate to a permutation of the records. |
| ResponseGroups.SortKeys | benchmark/graphs/parsers/response.py:30-31 | `groups.sort()` on integer keys is an ascending permutation of the keys. |
| ResponseGroups.GroupBySorted | benchmark/graphs/parsers/response.py:30-37 | With `sort`, the keys are the same set, strictly ascending, and each key still gets its records in their original order. |
| ResponseGroups.DistinctSorted | benchmark/graphs/parsers/response.py:30-31 | Sorting distinct keys leaves them strictly ascending. |
| Responses.Texts | benchmark/graphs/parsers/response.py:52 | The fields after the fourth are kept as the text read, in order. |
| Responses.Elapsed | benchmark/graphs/parsers/response.py:56-59 | The newer reader converts a fourth field when present, failing only if that conversion fails, and gives the integer 0 for a three-field line. The older reader (benchmark/parsers/response.py:51-54) raises `IndexError` without the field. With the field it converts it for status 200, raising `ValueError` exactly when that fails, and gives the integer 0 for any other status. |
| Responses.ParseLine | benchmark/graphs/parsers/response.py:52-59 | A parsed line holds `float` of field 0, `int` of field 1, `float` of field 2 and the elapsed value `Elapsed` gives for that status, then the remaining fields as text. Only the newer reader accepts a three-field line. The errors follow the order of the conversions: `ValueError` for the first field that does not convert, `IndexError` when the status or response field is missing, and otherwise the elapsed field's error. |
| Responses.ParseLines | benchmark/graphs/parsers/response.py:51-64 | Parsing succeeds exactly when every line parses, and then gives one record per line in order. |
| Responses.Start | benchmark/graphs/parsers/response.py:49-62 | The start is at most the 9999999999 sentinel and at most every time. It is the sentinel or some record's time. |
| Responses.Shift | benchmark/graphs/parsers/response.py:66-67 | Every time becomes relative to the start, and every other field is unchanged. |
| Responses.LastIndex | benchmark/graphs/parsers/response.py:70 | The last position of the character, and none exactly when it does not occur. |
| Responses.Basename | benchmark/graphs/parsers/response.py:70 | The base name is the part of the path after its last '/', and holds no '/'. |
| Responses.Stem | benchmark/graphs/parsers/response.py:70 | `splitext(name)[0]`: the name without its last '.' and what follows, unless only dots come before that '.'. |
| Responses.Parse | benchmark/graphs/parsers/response.py:45-71 | A log parses exactly when every line does, giving one timed record per line. The newer reader names the result by the given name or the file's stem. The older one (benchmark/parsers/response.py:40-64) has no name. |
| Responses.TimesFromStart | benchmark/graphs/parsers/response.py:61-67 | After shifting no time is negative. Unless every time is after the sentinel, the earliest record is at time 0. |
| Responses.ParsedTimes | benchmark/graphs/parsers/response.py:61-67 | A parsed log is its lines' records shifted by their start. |
| Responses.LineRoundTrip | benchmark/graphs/parsers/response.py:52-59 | A row the recorder writes reads back as the values it was written from. The older reader zeroes the elapsed time unless the status is 200. |
| Responses.ThreeFields | benchmark/graphs/parsers/response.py:56-59 | A line of three fields reads with elapsed 0 in the newer reader. The older one raises `IndexError` (benchmark/parsers/response.py:51-54). |
| Responses.LastIndexIs | benchmark/graphs/parsers/response.py:70 | An occurrence with none after it is the last one. |
| Responses.BasenameOf | benchmark/graphs/parsers/response.py:70 | The base name of `dir/name` is `name`. |
| Responses.StemOf | benchmark/graphs/parsers/response.py:70 | The stem of `base.ext` is `base`. |
| Responses.NameOfLog | benchmark/graphs/parsers/response.py:69-70 | The default name of `dir/base.ext` is `base`. |
| Responses.HiddenName | benchmark/graphs/parsers/response.py:70 | A name whose only '.' is its first character is its own stem. |
| Responses.Series | benchmark/graphs/parsers/response.py:13-14 | The projection succeeds exactly when every record has the field, and then lists that field of every record in order. |
| Responses.ParsedSeries | benchmark/graphs/parsers/response.py:51-59 | Any of the four standard fields can be projected from a parsed log. |
| Responses.Filter | benchmark/graphs/parsers/response.py:39-40 | The name is kept, and exactly the accepted records remain. |
| Responses.FilterSplits | benchmark/graphs/parsers/response.py:39-40 | A filter and its complement together keep as many records as the whole has. |
| Responses.Length | benchmark/graphs/parsers/response.py:42-43 | The length is zero exactly when there are no records. |
| Responses.GroupBy | benchmark/graphs/parsers/response.py:16-37 | `IndexError` exactly when some record lacks the field. Otherwise there is one response per key, in first-appearance order, each holding its key's records in order under the whole's name. |
| Responses.DictKeyIsPyEq | benchmark/graphs/parsers/response.py:25-28 | Two field values are one dictionary key exactly when Python's `==` finds them equal: an int and a float of the same value are one key. |
| Responses.GroupByField | benchmark/graphs/parsers/response.py:16-37 | `groupby` with no mapper: `IndexError` exactly when some record lacks the field. Otherwise the records of one response have Python-equal fields and records of two different responses do not, in first-appearance order under the whole's name. |
| Responses.GroupsAreClasses | benchmark/graphs/parsers/response.py:20-28 | The groups by a field's dictionary key are the classes of records whose fields Python finds equal. |
| Responses.ZeroElapsedOneGroup | benchmark/graphs/parsers/response.py:25-28 | A record whose elapsed field is the int 0 and one whose elapsed field is 0.0 fall into a single group. |
| Responses.GroupBySorted | benchmark/graphs/parsers/response.py:16-37 | With `sort`, the same responses ordered by strictly ascending key. |
| Responses.GroupsCoverResponse | benchmark/graphs/parsers/response.py:16-37 | The grouped responses together hold every record exactly once, so their lengths add up to the whole's length. |
| Text.Split | watchdog/readconfig.go:106 | `strings.Split` at one character: at least one part, no part holds the separator, and joining the parts with it gives back the string. |
| Text.SplitJoin | benchmark/graphs/parsers/response.py:52 | Splitting separator-free parts joined with the separator gives the parts back. |
| Text.Fields | ics/monitor/sampler/sampler.go:85 | `strings.Fields`: every field is non-empty and holds no white space. White space is Go's `unicode.IsSpace` set, which includes NEL (U+0085) and NO-BREAK SPACE (U+00A0). |
| Text.FieldsUnwords | ics/monitor/sampler/sampler.go:85 | Any non-empty words free of white space, written with single blanks between them, are recovered by `Fields`. |

## Left out

Process and network plumbing:

- Process launching, the stdout/stderr piping of function environments (`pipeFE`), the HTTP POST of `specialize` and the process kill of `terminate` are not modelled. Their outcomes are inputs: a success flag per environment, a kill result and a new process id. The effect of each outcome on the scheduler is modelled.
- The proxy's accept loop, the forwarding connections and `trackConn` are not modelled. `ListenAndProxy` is reduced to its guard and its callback, and address resolution is an input. `Stats`/`RequestStats` read the clock, so the request sampler takes the statistics as an input.
- `Scheduler.Close` of the `ics` scheduler only calls the proxy's `Close`, which `ProxyServer.Close` models. `servingHandler` has an empty body.
- `ReadFile`, `getCgroupParamUint` and `getCgroupParamString` in the sampler package read cgroup files and are not modelled.

Concurrency:

- Channels and goroutines are replaced by the sequential outcome of each operation. A pending caller is handed back to the caller of the model rather than run on a new goroutine.
- The `ics` scheduler's `mustatus` lock is modelled in `IcsLocking` only as far as the deadlocks need: whether it is held when `done` runs and when `pend` waits. The `mubusy` lock, which only orders `busying` updates and never wraps a wait, is left out.
- The order in which goroutine results arrive in `ics/proxy/io.go` is an input, so every property is stated for all arrival orders. Go's map iteration order in `Share`/`Swap` is also an input.
- The `LightStats` double buffer, its `swap`, the flush timer, the feeding channel and `OnBlock` are not modelled. A flush is applied to the bucket it names.
- The `IntervalMonitor` tick loop (`Start`, `Stop`, `monitor`) is not modelled, apart from its `timeout` and `nextInterval` arithmetic.
- The threads of `threadize` and the recorder's writer thread run one after another in the model. `RunThreads` runs the request threads in creation order, and the writer runs when the model takes a `WriterStep`.

Numerics and libraries:

- Floating point is `real`: rounding, infinities and NaN are not modelled. Sampling.NewRate returns no sample where Go's division by a zero interval yields an infinity or NaN. The safe bucket's `int64` fixed-point scaling, `isSafe` and `load` are not modelled; only the effect of `setPrecision` on the precision is.
- `time.ParseDuration` is modelled for integer components with the units ns, us, µs, μs, ms, s, m and h, an optional sign and a bare "0". Fractional components such as "1.5s" are rejected by the model but accepted by Go.
- scipy's `norm.ppf`, `t.ppf` and `math.sqrt` are parameters of `SingleRun`. Python's `float()` and `int()` on a field are parameters of `Responses`.
- The proxy's `sumResponse` and the "Mean server response time" log (ics/proxy/server.go:384-389) are not modelled: they time responses with the clock and only log.
- `ics/monitor/linear_analyser.go`, `cpu_usage_sampler.go` and `latency_reporter.go` are not part of this model.

Benchmark suite:

- `SingleRun.Run`: the `creator`, `n` and `args` parameters and the progress printing are not modelled. The answers are a finite sequence, so the model stops with `OutOfAnswers` where the driver would keep calling the problem.
- `Recorder`: the model copies the `entries` list passed to `save`, whereas Python aliases it and later `extend`s it in place. A caller that reuses the list after saving is not modelled.
- `Responses.Filter` states membership and the name, not the order of the kept records. The suite is Python 2, where `map` and `filter` return lists, as the model's do.
- Responses.GroupBy: the keys a caller-supplied mapper returns are compared with Dafny equality. Python's dictionary would also merge an int and a float of equal value. Grouping with no mapper, as `Responses.GroupByField`, does merge them.
- `ResponseGroups.GroupBySorted` and `Responses.GroupBySorted`: `sort` is modelled for integer keys only. Python would also sort strings or floats, and would raise for mixed types.
- `benchmark/common/invoker.py` returns after its first iteration and references an undefined class. The legacy `benchmark/legacy/common/invoker.py` is the one modelled.

Weaker contracts and bounds:

- Series.SampleVariance: takes the mean as a parameter, required to equal the total over the count, rather than computing it inside the statement.
- SingleRun.AccuracyUsesSampleVariance: relates the variance to squared deviations about the mean but leaves the quantile and square root uninterpreted. The accuracy is therefore related to the target only through `Run`'s own postconditions.
- IcsScheduler.Pick: a registered port 0 can never be picked, because 0 is the "none found" value. The model keeps that masking, and `PickFindsCandidate` states it.
- LightStatistics.Flush: `active` is a natural number taken modulo 2, where the source's `int32` index only ever holds 0 or 1.
- MovingSums.NewMovingSum: the window is a `nat`. A negative window makes Go's `make` panic, and that case is not modelled.
- MovingSums.Add: requires a positive window. With a zero window Go's `%` panics; `MovingSums.TryAdd` models that panic as `None`.
- Invoker.RunThreads: an exception escaping a thread ends only that thread, as in Python. Interleaved appends from concurrent threads are not modelled, so only the number of entries is stated, not their order.

## Findings

| source | as written | input that shows it | evidently intended | confidence | as-written member | corrected member |
|---|---|---|---|---|---|---|
| watchdog/proxy/io.go:67-70 | After the read loop narrows the reader list to `readers[i:i+1]`, `p` is overwritten with `dps[len(readers)-1]`, which is now `dps[0]`: reader 0's buffer, not reader i's. | Two readers: the first fails, the second reads 5 bytes. The reply is `(5, nil)` from reader 1, but `p` holds reader 0's buffer. | Copy the buffer of the reader that answered (as `ics/proxy/io.go` does), or copy only when no reader succeeded. | not executed | WatchdogMultiIo.ReadCopiesWrongBuffer | WatchdogMultiIo.ReadCorrectedFirstSuccess |
| ics/monitor/model/moving_sum.go:58-63 | `LastN` clamps `n` to `N()` and then indexes with `sum.n` instead of `n`, so the argument has no effect. | Window 5 after adding 1, 2, 3, 4, 5: `LastN(1)` and `LastN(3)` both return 5. | Index with the clamped `n`, returning the value added `n` adds before the newest. | not executed | MovingSums.LastNIgnoresArgument | MovingSums.LastNCorrectedRecent |
| benchmark/legacy/common/invoker.py:66-68 | `total2 = per * num` makes `rest = per - (per * num - total2) = per`, so every thread gets `per` requests and `per * num` are issued. | `threadize(10, req, num = 3)`: Python 2 floors 10 / 3 to 3, so three threads of 3 requests issue 9 instead of 10. | `total2 = total`, so the last thread makes up the difference and exactly `total` requests are issued. | not executed | Invoker.ThreadizeLosesRequests | Invoker.ThreadizeCorrectedTotal |
| ics/scheduler/scheduler.go:565-570 | `pend` waits on the caller's `reterr` channel while still holding `mustatus`. The dispatch that would answer it needs `mustatus`, so nothing can ever dispatch again. | `Instances = 2`: the first environment registers, a `Share` arrives and is queued, then the second registration and the proxy callback both block on the lock forever. | Release `mustatus` before waiting, as `Serve` does at lines 201-204. | not executed | IcsLocking.ShareDuringLaunchHangs | IcsScheduler.ShareDuringLaunchDispatched |
| ics/scheduler/scheduler.go:207-214 | `Serve` calls `done` while its deferred `Unlock` still holds `mustatus`. When `done` brings the counter back to 0 with a caller queued, it calls `settle`, which locks `mustatus` (line 584) before `tbsettleLocked` runs. The `Serve` goroutine blocks on its own lock and nothing is dispatched, whatever kind of caller is queued. | `Instances = 1`, two `Serve` calls queued during launch. Registration dispatches the first, which queues itself again. The proxy callback dispatches the second, which blocks itself in its own `done` with the first still queued, and nothing is dispatched again. | Call `done` after unlocking, as `Share` does through its deferred calls. | not executed | IcsLocking.TwoServesDuringLaunchHang | IcsScheduler.TwoServesDuringLaunchServed |

=== FILE: config_parsers.dfy ===
/**
 * The value parsers both configuration readers share
 * (`ics/config/readconfig.go` and `watchdog/readconfig.go` define the same
 * four): the environment is a map from variable names to values, an unset
 * variable reading as "".
 */
module ConfigParsers {
  import opened Optional
  import opened GoInt
  import S = GoStrconv
  import D = GoDuration

  type Env = map<string, string>

  /** `hasEnv.Getenv(key)`: the value, or "" when the variable is unset. */
  function Getenv(env: Env, key: string): (v: string)
    ensures key !in env ==> v == ""
    ensures key in env ==> v == env[key]
  {
    if key in env then env[key] else ""
  }

  /** `isBoolValueSet`: a flag is set by any non-empty value. */
  predicate IsBoolValueSet(val: string) {
    |val| > 0
  }

  /** `parseBoolValue`: only the exact text "true" is true. */
  predicate ParseBoolValue(val: string) {
    val == "true"
  }

  /** A flag with a default that only a non-empty value overrides. */
  function Flag(val: string, default: bool): (b: bool)
    ensures b <==> (if val == "" then default else val == "true")
  {
    if IsBoolValueSet(val) then ParseBoolValue(val) else default
  }

  /** `Atoi(val)` when it succeeds with a non-negative value. */
  predicate IsCount(val: string) {
    S.Atoi(val).err == None && S.Atoi(val).value >= 0
  }

  /**
   * `parseIntValue`: the value of a non-empty `val` that `Atoi` reads as a
   * non-negative integer, otherwise the fallback.
   */
  function ParseIntValue(val: string, fallback: int): (r: int)
    ensures IsCount(val) ==> r == S.Atoi(val).value && IsInt64(r)
    ensures !IsCount(val) ==> r == fallback
  {
    if |val| > 0 && IsCount(val) then S.Atoi(val).value else fallback
  }

  /**
   * `parseIntOrDurationValue`: a non-negative integer counts seconds (the
   * int64 product `time.Duration(n) * time.Second` wraps); otherwise a
   * duration string such as "1m30s"; otherwise the fallback.
   */
  function ParseIntOrDurationValue(val: string, fallback: int): (r: int)
    ensures IsCount(val) ==> r == Wrap64(S.Atoi(val).value * D.SECOND)
    ensures !IsCount(val) && D.ParseDuration(val).Some? ==> r == D.ParseDuration(val).value
    ensures !IsCount(val) && D.ParseDuration(val).None? ==> r == fallback
  {
    if |val| > 0 && IsCount(val) then Wrap64(S.Atoi(val).value * D.SECOND)
    else match D.ParseDuration(val)
      case None => fallback
      case Some(d) => d
  }

  /** An empty value always gives the fallback. */
  lemma EmptyGivesFallback(fallback: int)
    ensures ParseIntValue("", fallback) == fallback
    ensures ParseIntOrDurationValue("", fallback) == fallback
  {
    assert S.Atoi("").err == Some(S.ErrSyntax);
  }

  /** A rendered non-negative int64 reads back as itself. */
  lemma ParseIntValueItoa(v: nat, fallback: int)
    requires v <= MAX_INT64
    ensures ParseIntValue(S.Itoa(v), fallback) == v
  {
    S.AtoiFormatInt(v);
  }

  /** A rendered negative integer is refused: the fallback. */
  lemma ParseIntValueNegative(v: int, fallback: int)
    requires v < 0 && IsInt64(v)
    ensures ParseIntValue(S.FormatInt(v), fallback) == fallback
  {
    S.AtoiFormatInt(v);
  }

  /** A rendered number of seconds that fits in an int64 of nanoseconds is that many seconds. */
  lemma SecondsValue(v: nat, fallback: int)
    requires v * D.SECOND <= MAX_INT64
    ensures ParseIntOrDurationValue(S.Itoa(v), fallback) == v * D.SECOND
  {
    S.AtoiFormatInt(v);
  }

  /**
   * A rendered negative integer is neither a count nor a duration (it has
   * no unit): the fallback.
   */
  lemma NegativeSecondsFallBack(v: int, fallback: int)
    requires v < 0 && IsInt64(v)
    ensures ParseIntOrDurationValue(S.FormatInt(v), fallback) == fallback
  {
    S.AtoiFormatInt(v);
    var s := S.FormatInt(v);
    var digits := S.Itoa(-v);
    assert s[1..] == digits;
    D.DigitPrefixAll(digits);
    assert D.Components(digits) == None by {
      assert digits[D.DigitPrefix(digits)..] == [];
    }
  }
}

=== FILE: duration.dfy ===
/**
 * The part of Go's `time.ParseDuration` the configuration readers rely
 * on: an optional sign, then one or more `<digits><unit>` components
 * ("20s", "1m30s"), with the units "ns", "us", "µs", "μs", "ms", "s", "m"
 * and "h"; a bare "0" is zero.  Durations are integers of nanoseconds and
 * must fit in an int64.
 */
module GoDuration {
  import opened Optional
  import opened GoInt
  import S = GoStrconv

  const NANOSECOND: int := 1
  const MICROSECOND: int := 1_000
  const MILLISECOND: int := 1_000_000
  const SECOND: int := 1_000_000_000
  const MINUTE: int := 60 * SECOND
  const HOUR: int := 60 * MINUTE

  /**
   * The nanoseconds of a unit name, or `None` for an unknown unit: "ns",
   * "us", "µs" (micro sign), "μs" (Greek mu), "ms", "s", "m" and "h".
   */
  function UnitNanos(u: string): (r: Option<int>)
    ensures r.Some? ==> r.value >= 1 && |u| > 0
  {
    if |u| == 1 then
      match u[0]
      case 's' => Some(SECOND)
      case 'm' => Some(MINUTE)
      case 'h' => Some(HOUR)
      case _ => None
    else if |u| == 2 && u[1] == 's' then
      match u[0]
      case 'n' => Some(NANOSECOND)
      case 'u' => Some(MICROSECOND)
      case '\U{00B5}' => Some(MICROSECOND)
      case '\U{03BC}' => Some(MICROSECOND)
      case 'm' => Some(MILLISECOND)
      case _ => None
    else None
  }

  /** The number of leading decimal digits of `s`. */
  function DigitPrefix(s: string): (k: nat)
    ensures k <= |s| && S.AllDigits(s[..k])
    ensures k < |s| ==> !S.IsDigit(s[k])
  {
    if |s| == 0 || !S.IsDigit(s[0]) then 0
    else
      var k := 1 + DigitPrefix(s[1..]);
      assert s[..k] == [s[0]] + s[1..][..k - 1];
      k
  }

  /** The number of leading characters of `s` up to the next digit or '.': the unit. */
  function UnitPrefix(s: string): (k: nat)
    ensures k <= |s|
    ensures forall i :: 0 <= i < k ==> !S.IsDigit(s[i]) && s[i] != '.'
    ensures k < |s| ==> S.IsDigit(s[k]) || s[k] == '.'
  {
    if |s| == 0 || S.IsDigit(s[0]) || s[0] == '.' then 0 else 1 + UnitPrefix(s[1..])
  }

  /**
   * The first component of a non-empty `s`: its value in nanoseconds and
   * what follows it, or `None` when it lacks digits or a unit or names an
   * unknown unit.  A decimal fraction ("1.5s") is refused too, since the
   * unit stops at the '.' and is then empty; fractions are not part of
   * this model.
   */
  function Component(s: string): (r: Option<(nat, nat, string)>)
    ensures r.Some? ==> |r.value.2| < |s|
  {
    var k := DigitPrefix(s);
    if k == 0 then None
    else
      var rest := s[k..];
      var i := UnitPrefix(rest);
      if i == 0 then None
      else match UnitNanos(rest[..i])
        case None => None
        case Some(u) => Some((S.Value(s[..k]), u, rest[i..]))
  }

  /** The components of `s` as (count, unit nanoseconds) pairs, or `None` when one of them is malformed. */
  function Components(s: string): (r: Option<seq<(nat, nat)>>)
    decreases |s|
  {
    if |s| == 0 then Some([])
    else
      var first := Component(s);
      if first.None? then None
      else
        var others := Components(first.value.2);
        if others.None? then None else Some([(first.value.0, first.value.1)] + others.value)
  }

  /** The unbounded total in nanoseconds of the components. */
  function Nanos(cs: seq<(nat, nat)>): nat {
    if |cs| == 0 then 0 else Scale(cs[0].0, cs[0].1) + Nanos(cs[1..])
  }

  function Scale(v: nat, u: nat): nat {
    v * u
  }

  /** `time.ParseDuration`: `None` is a non-nil error. */
  function ParseDuration(s: string): (r: Option<int>)
    ensures r.Some? ==> IsInt64(r.value)
  {
    var neg := |s| > 0 && s[0] == '-';
    var body := if |s| > 0 && (s[0] == '-' || s[0] == '+') then s[1..] else s;
    match Magnitude(body)
    case None => None
    case Some(d) =>
      if neg then (if d <= -MIN_INT64 then Some(0 - d) else None)
      else if d <= MAX_INT64 then Some(d) else None
  }

  /** The unbounded nanoseconds of an unsigned duration: a bare "0" or one or more components. */
  function Magnitude(body: string): (r: Option<nat>)
    ensures body == "0" ==> r == Some(0)
    ensures body == "" ==> r.None?
  {
    if |body| == 1 && body[0] == '0' then Some(0)
    else if |body| == 0 then None
    else match Components(body)
      case None => None
      case Some(cs) => Some(Nanos(cs))
  }

  /** The tests' durations: "20s" is 20 seconds, "1m30s" 90 seconds, "3s" 3 seconds. */
  lemma ParseDurationExamples()
    ensures ParseDuration("20s") == Some(20 * SECOND)
    ensures ParseDuration("1m30s") == Some(90 * SECOND)
    ensures ParseDuration("3s") == Some(3 * SECOND)
  {
    Seconds(20, "20s");
    Seconds(3, "3s");
    MinutesSeconds();
  }

  lemma Seconds(v: nat, text: string)
    requires v * SECOND <= MAX_INT64 && text == S.Itoa(v) + "s"
    ensures ParseDuration(text) == Some(v * SECOND)
  {
    FormattedRoundTrip(v, "s", SECOND);
  }

  lemma MinutesSeconds()
    ensures ParseDuration("1m30s") == Some(90 * SECOND)
  {
    var a, b := S.Itoa(1), S.Itoa(30);
    assert a == "1" && b == "30";
    S.ValueItoa(1);
    S.ValueItoa(30);
    TwoComponentRoundTrip(a, "m", MINUTE, b, "s", SECOND);
    assert a + "m" + b + "s" == "1m30s";
    SomeOfEqual(ParseDuration("1m30s"), S.Value(a) * MINUTE + S.Value(b) * SECOND, 90 * SECOND);
  }

  /** One component, digits and a unit, reads back as the digits' value times the unit. */
  lemma ComponentRoundTrip(digits: string, unit: string, u: nat)
    requires |digits| > 0 && S.AllDigits(digits) && UnitNanos(unit) == Some(u)
    requires S.Value(digits) * u <= MAX_INT64
    ensures ParseDuration(digits + unit) == Some(S.Value(digits) * u)
  {
    var s := digits + unit;
    ComponentsCons(digits, unit, "");
    assert digits + unit + "" == s;
    var cs: seq<(nat, nat)> := [(S.Value(digits), u)];
    assert cs + [] == cs;
    assert Nanos(cs) == S.Value(digits) * u by {
      assert |cs[1..]| == 0;
    }
    FirstChar(digits, unit);
    UnsignedDuration(s, cs);
  }

  /** Two components, each digits and a unit, read back as the sum of their values. */
  lemma TwoComponentRoundTrip(a: string, unit: string, u: nat, b: string, unit': string, u': nat)
    requires |a| > 0 && S.AllDigits(a) && UnitNanos(unit) == Some(u)
    requires |b| > 0 && S.AllDigits(b) && UnitNanos(unit') == Some(u')
    requires S.Value(a) * u + S.Value(b) * u' <= MAX_INT64
    ensures ParseDuration(a + unit + b + unit') == Some(S.Value(a) * u + S.Value(b) * u')
  {
    var s := a + unit + b + unit';
    var cs := [(S.Value(a), u), (S.Value(b), u')];
    TwoComponents(a, unit, b, unit');
    NanosPair(S.Value(a), u, S.Value(b), u');
    FirstChar(a, unit);
    FirstChar(a + unit, b);
    FirstChar(a + unit + b, unit');
    UnsignedDuration(s, cs);
    SomeOfEqual(ParseDuration(s), Nanos(cs), S.Value(a) * u + S.Value(b) * u');
  }

  /** Moves a result across an equality of values without arithmetic reasoning about either side. */
  lemma SomeOfEqual(p: Option<int>, n: int, x: int)
    requires p == Some(n) && n == x
    ensures p == Some(x)
  {
  }

  /** A number written by `strconv.Itoa` and a unit reads back as that number of units. */
  lemma FormattedRoundTrip(v: nat, unit: string, u: nat)
    requires UnitNanos(unit) == Some(u) && v * u <= MAX_INT64
    ensures ParseDuration(S.Itoa(v) + unit) == Some(v * u)
  {
    S.ValueItoa(v);
    ComponentRoundTrip(S.Itoa(v), unit, u);
  }

  lemma FirstChar(a: string, b: string)
    requires |a| > 0
    ensures (a + b)[0] == a[0]
  {
  }

  lemma TwoComponents(a: string, unit: string, b: string, unit': string)
    requires |a| > 0 && S.AllDigits(a) && UnitNanos(unit).Some?
    requires |b| > 0 && S.AllDigits(b) && UnitNanos(unit').Some?
    ensures Components(a + unit + b + unit') ==
      Some([(S.Value(a), UnitNanos(unit).value), (S.Value(b), UnitNanos(unit').value)])
  {
    var u, u' := UnitNanos(unit).value, UnitNanos(unit').value;
    var second := b + unit';
    assert Components(second) == Some([(S.Value(b), u')]) by {
      ComponentsCons(b, unit', "");
      assert b + unit' + "" == second;
      assert Components("") == Some([]);
      assert [(S.Value(b), u')] + [] == [(S.Value(b), u')];
    }
    ComponentsCons(a, unit, second);
    assert a + unit + second == a + unit + b + unit';
    assert [(S.Value(a), u)] + [(S.Value(b), u')] == [(S.Value(a), u), (S.Value(b), u')];
  }

  lemma NanosPair(v: nat, u: nat, w: nat, u': nat)
    ensures Nanos([(v, u), (w, u')]) == v * u + w * u'
  {
    var cs: seq<(nat, nat)> := [(v, u), (w, u')];
    assert cs[1..] == [(w, u')];
    assert Nanos(cs[1..]) == Scale(w, u') + Nanos(cs[2..]);
    assert |cs[2..]| == 0;
  }

  /** A duration that starts with a digit is the total of its components, when that fits in an int64. */
  lemma UnsignedDuration(s: string, cs: seq<(nat, nat)>)
    requires |s| > 1 && S.IsDigit(s[0])
    requires Components(s) == Some(cs) && Nanos(cs) <= MAX_INT64
    ensures ParseDuration(s) == Some(Nanos(cs))
  {
    assert Magnitude(s) == Some(Nanos(cs));
  }

  /** A component of digits and a unit, in front of further components, is the first of them. */
  lemma ComponentsCons(digits: string, unit: string, rest: string)
    requires |digits| > 0 && S.AllDigits(digits) && UnitNanos(unit).Some?
    requires |rest| == 0 || S.IsDigit(rest[0])
    ensures Components(digits + unit + rest) ==
      if Components(rest).None? then None else Some([(S.Value(digits), UnitNanos(unit).value)] + Components(rest).value)
  {
    FirstComponent(digits, unit, rest);
  }

  lemma FirstComponent(digits: string, unit: string, rest: string)
    requires |digits| > 0 && S.AllDigits(digits) && UnitNanos(unit).Some?
    requires |rest| == 0 || S.IsDigit(rest[0])
    ensures Component(digits + unit + rest) == Some((S.Value(digits), UnitNanos(unit).value, rest))
  {
    var s := digits + unit + rest;
    var tail := unit + rest;
    UnitChars(unit);
    assert s == digits + tail;
    assert s[..|digits|] == digits;
    assert s[|digits|..] == tail;
    assert s[|digits|] == unit[0];
    DigitPrefixStops(s, |digits|);
    assert tail[..|unit|] == unit && tail[|unit|..] == rest;
    if |rest| == 0 {
      assert tail == unit;
      UnitPrefixAll(unit);
    } else {
      assert tail[|unit|] == rest[0];
      UnitPrefixStops(tail, |unit|);
    }
    assert UnitPrefix(tail) == |unit|;
  }

  /** Unit names hold neither digits nor '.'. */
  lemma UnitChars(unit: string)
    requires UnitNanos(unit).Some?
    ensures |unit| > 0
    ensures forall i :: 0 <= i < |unit| ==> !S.IsDigit(unit[i]) && unit[i] != '.'
  {
  }

  /** A leading '-' negates a duration, and a leading '+' leaves it as it is. */
  lemma SignedDuration(s: string)
    requires |s| > 0 && S.IsDigit(s[0]) && ParseDuration(s).Some?
    ensures ParseDuration("-" + s) == Some(0 - ParseDuration(s).value)
    ensures ParseDuration("+" + s) == ParseDuration(s)
  {
    assert ("-" + s)[1..] == s && ("+" + s)[1..] == s;
  }

  /** A bare "0" is zero; an empty string and a number without a unit are errors. */
  lemma ParseDurationRejects()
    ensures ParseDuration("0") == Some(0)
    ensures ParseDuration("") == None
    ensures ParseDuration("10") == None
  {
    DigitPrefixAll("10");
  }

  lemma DigitPrefixAll(s: string)
    requires forall i :: 0 <= i < |s| ==> S.IsDigit(s[i])
    ensures DigitPrefix(s) == |s|
  {
    if |s| > 0 {
      DigitPrefixAll(s[1..]);
    }
  }

  lemma UnitPrefixStops(s: string, k: nat)
    requires k < |s| && (S.IsDigit(s[k]) || s[k] == '.')
    requires forall i :: 0 <= i < k ==> !S.IsDigit(s[i]) && s[i] != '.'
    ensures UnitPrefix(s) == k
  {
    if k > 0 {
      UnitPrefixStops(s[1..], k - 1);
    }
  }

  lemma DigitPrefixStops(s: string, k: nat)
    requires k < |s| && !S.IsDigit(s[k])
    requires forall i :: 0 <= i < k ==> S.IsDigit(s[i])
    ensures DigitPrefix(s) == k
  {
    if k > 0 {
      DigitPrefixStops(s[1..], k - 1);
    }
  }

  lemma UnitPrefixAll(s: string)
    requires forall i :: 0 <= i < |s| ==> !S.IsDigit(s[i]) && s[i] != '.'
    ensures UnitPrefix(s) == |s|
  {
    if |s| > 0 {
      UnitPrefixAll(s[1..]);
    }
  }
}

=== FILE: goint.dfy ===
/**
 * Fixed-width integer behaviour of Go: two's-complement wrap-around of
 * `int32`/`int64` arithmetic and division that truncates toward zero.
 */
module GoInt {

  const TWO_32: int := 0x1_0000_0000
  const TWO_64: int := 0x1_0000_0000_0000_0000
  const MIN_INT32: int := -0x8000_0000
  const MAX_INT32: int := 0x7fff_ffff
  const MIN_INT64: int := -0x8000_0000_0000_0000
  const MAX_INT64: int := 0x7fff_ffff_ffff_ffff
  const MAX_UINT64: int := 0xffff_ffff_ffff_ffff

  predicate IsInt32(x: int) {
    MIN_INT32 <= x <= MAX_INT32
  }

  predicate IsInt64(x: int) {
    MIN_INT64 <= x <= MAX_INT64
  }

  /** The int32 value that `x` wraps to: the one congruent to `x` modulo 2^32. */
  function Wrap32(x: int): (r: int)
    ensures IsInt32(r)
    ensures IsInt32(x) ==> r == x
  {
    (x - MIN_INT32) % TWO_32 + MIN_INT32
  }

  /** The int64 value that `x` wraps to: the one congruent to `x` modulo 2^64. */
  function Wrap64(x: int): (r: int)
    ensures IsInt64(r)
    ensures (x - r) % TWO_64 == 0
    ensures IsInt64(x) ==> r == x
  {
    (x - MIN_INT64) % TWO_64 + MIN_INT64
  }

  /** Wrapping is compatible with addition: wrapping an intermediate sum changes nothing. */
  lemma Wrap32Add(a: int, b: int)
    ensures Wrap32(Wrap32(a) + b) == Wrap32(a + b)
  {
    var k := (a - MIN_INT32) / TWO_32;
    assert Wrap32(a) + b - MIN_INT32 == (a + b - MIN_INT32) - k * TWO_32;
    ModShift((a + b - MIN_INT32) - k * TWO_32, k);
  }

  /** Congruent integers wrap to the same int32. */
  lemma Wrap32Congruent(x: int, y: int)
    requires (x - y) % TWO_32 == 0
    ensures Wrap32(x) == Wrap32(y)
  {
    var k := (x - y) / TWO_32;
    assert x - MIN_INT32 == (y - MIN_INT32) + k * TWO_32;
    ModShift(y - MIN_INT32, k);
  }

  /** Wrapping a subtrahend first changes nothing either. */
  lemma Wrap32Sub(a: int, b: int)
    ensures Wrap32(a - Wrap32(b)) == Wrap32(a - b)
  {
    Wrap32Congruent(a - Wrap32(b), a - b);
  }

  /** The difference of two wrapped values wraps to the wrapped difference. */
  lemma Wrap32Diff(a: int, b: int)
    ensures Wrap32(Wrap32(a) - Wrap32(b)) == Wrap32(a - b)
  {
    Wrap32Sub(Wrap32(a), b);
    Wrap32Add(a, -b);
  }

  lemma ModShift(x: int, k: int)
    ensures (x + k * TWO_32) % TWO_32 == x % TWO_32
  {
  }

  /** Go's integer division: the quotient is truncated toward zero. */
  function TruncDiv(a: int, b: int): (q: int)
    requires b != 0
    ensures b > 0 && a >= 0 ==> q == a / b
    ensures b > 0 && a < 0 ==> q == -((-a) / b)
  {
    if (a >= 0) == (b > 0) then
      (if a >= 0 then a / b else (-a) / (-b))
    else
      -((if a >= 0 then a else -a) / (if b > 0 then b else -b))
  }
}

=== FILE: ics_config.dfy ===
/** The `ics` watchdog's configuration reader (`ics/config/readconfig.go`). */
module IcsConfigReader {
  import opened Optional
  import opened GoInt
  import opened ConfigParsers
  import S = GoStrconv
  import D = GoDuration

  /** `WatchdogConfig`: durations in nanoseconds. */
  datatype Config = Config(
    faasProcess: string,
    instances: int,
    readTimeout: int,
    writeTimeout: int,
    execTimeout: int,
    port: int,
    adminPort: int,
    writeDebug: bool,
    cgiHeaders: bool,
    marshalRequest: bool,
    debugHeaders: bool,
    suppressLock: bool,
    contentType: string,
    combineOutput: bool,
    profile: string,
    faasBasePath: string,
    faas: string)

  /**
   * `ReadConfig.Read`.  The "." default of `FaasBasePath` is overwritten
   * by the variable unconditionally, so it never shows.
   */
  function Read(env: Env): (c: Config)
    ensures c.instances >= 0 && c.port >= 0 && c.adminPort >= 0
    ensures c.writeDebug <==> Getenv(env, "write_debug") == "true"
    ensures c.cgiHeaders <==> Getenv(env, "cgi_headers") in {"", "true"}
    ensures c.combineOutput <==> Getenv(env, "combine_output") in {"", "true"}
    ensures c.marshalRequest <==> Getenv(env, "marshal_request") == "true"
    ensures c.debugHeaders <==> Getenv(env, "debug_headers") == "true"
    ensures c.suppressLock <==> Getenv(env, "suppress_lock") == "true"
    ensures c.faasProcess == Getenv(env, "fprocess") && c.contentType == Getenv(env, "content_type")
    ensures c.profile == Getenv(env, "profile") && c.faas == Getenv(env, "faas")
    ensures c.faasBasePath == Getenv(env, "faasBasePath")
  {
    var defaults := Config("", 0, 0, 0, 0, 0, 0, false, true, false, false, false, "", true, "", ".", "");
    var c := defaults.(
      faasProcess := Getenv(env, "fprocess"),
      instances := ParseIntValue(Getenv(env, "instances"), 2),
      readTimeout := ParseIntOrDurationValue(Getenv(env, "read_timeout"), 5 * D.SECOND),
      writeTimeout := ParseIntOrDurationValue(Getenv(env, "write_timeout"), 5 * D.SECOND),
      execTimeout := ParseIntOrDurationValue(Getenv(env, "exec_timeout"), 0 * D.SECOND),
      port := ParseIntValue(Getenv(env, "port"), 8080),
      adminPort := ParseIntValue(Getenv(env, "admin_port"), 8079));
    var c := c.(
      writeDebug := Flag(Getenv(env, "write_debug"), c.writeDebug),
      cgiHeaders := Flag(Getenv(env, "cgi_headers"), c.cgiHeaders),
      marshalRequest := ParseBoolValue(Getenv(env, "marshal_request")),
      debugHeaders := ParseBoolValue(Getenv(env, "debug_headers")),
      suppressLock := ParseBoolValue(Getenv(env, "suppress_lock")),
      contentType := Getenv(env, "content_type"));
    var c := c.(combineOutput := Flag(Getenv(env, "combine_output"), c.combineOutput));
    c.(profile := Getenv(env, "profile"), faasBasePath := Getenv(env, "faasBasePath"), faas := Getenv(env, "faas"))
  }

  /**
   * An empty environment: port 8080, admin port 8079, two instances,
   * 5 s read and write timeouts, no exec timeout, CGI headers and combined
   * output on, and an empty base path.
   */
  lemma ReadDefaults()
    ensures Read(map[]) == Config("", 2, 5 * D.SECOND, 5 * D.SECOND, 0, 8080, 8079,
      false, true, false, false, false, "", true, "", "", "")
  {
    EmptyGivesFallback(2);
    EmptyGivesFallback(5 * D.SECOND);
    EmptyGivesFallback(0);
    EmptyGivesFallback(8080);
    EmptyGivesFallback(8079);
  }

  /** A port, admin port or instance count written as a non-negative int64 is used as given. */
  lemma ReadCounts(env: Env, key: string, v: nat)
    requires key in {"port", "admin_port", "instances"}
    requires v <= MAX_INT64 && Getenv(env, key) == S.Itoa(v)
    ensures key == "port" ==> Read(env).port == v
    ensures key == "admin_port" ==> Read(env).adminPort == v
    ensures key == "instances" ==> Read(env).instances == v
  {
    ParseIntValueItoa(v, 0);
    ParseIntValueItoa(v, 2);
    ParseIntValueItoa(v, 8080);
    ParseIntValueItoa(v, 8079);
  }

  /** "10" and "60" are seconds: read timeout 10 s and write timeout 60 s. */
  lemma ReadTimeoutSeconds()
    ensures var c := Read(map["read_timeout" := "10", "write_timeout" := "60"]);
      c.readTimeout == 10 * D.SECOND && c.writeTimeout == 60 * D.SECOND
  {
    assert S.Itoa(10) == "10" && S.Itoa(60) == "60";
    SecondsValue(10, 5 * D.SECOND);
    SecondsValue(60, 5 * D.SECOND);
  }

  /** "20s" and "1m30s" are durations: 20 s and 90 s; "3s" as exec timeout is 3 s. */
  lemma ReadTimeoutDurations(env: Env)
    requires Getenv(env, "read_timeout") == "20s" && Getenv(env, "write_timeout") == "1m30s"
    requires Getenv(env, "exec_timeout") == "3s"
    ensures var c := Read(env);
      c.readTimeout == 20 * D.SECOND && c.writeTimeout == 90 * D.SECOND && c.execTimeout == 3 * D.SECOND
  {
    D.ParseDurationExamples();
    NotCounts();
    ReadTimeouts(env);
  }

  /** The three timeouts, each read from its own variable. */
  lemma ReadTimeouts(env: Env)
    ensures Read(env).readTimeout == ParseIntOrDurationValue(Getenv(env, "read_timeout"), 5 * D.SECOND)
    ensures Read(env).writeTimeout == ParseIntOrDurationValue(Getenv(env, "write_timeout"), 5 * D.SECOND)
    ensures Read(env).execTimeout == ParseIntOrDurationValue(Getenv(env, "exec_timeout"), 0)
  {
  }

  lemma NotCounts()
    ensures !IsCount("20s") && !IsCount("1m30s") && !IsCount("3s")
  {
    assert S.Atoi("20s").err != None;
    assert S.Atoi("1m30s").err != None;
    assert S.Atoi("3s").err != None;
  }
}

=== FILE: ics_locking.dfy ===
/**
 * The `ics` scheduler's status lock `mustatus` as the scheduler takes it.
 * Two waits happen while the lock is held: `pend` waits for the queued
 * caller's reply inside the lock, and `Serve` calls `done` (whose `settle`
 * takes the lock again) before its deferred unlock.  A queued caller runs
 * only after `settle` or the proxy callback has taken the lock, and Go's
 * mutexes are not reentrant, so either wait holds the lock for good.
 *
 * `stuck` records that some goroutine waits forever while holding
 * `mustatus`; from then on every step that takes the lock hangs.  Apart
 * from the lock, each step is the step of `IcsScheduler`, which models the
 * scheduler with both waits moved out of the lock.
 */
module IcsLocking {
  import opened Optional
  import opened GoStrconv
  import S = IcsScheduler
  import St = SchedulerStatus

  datatype State = State(s: S.Scheduler, stuck: bool)

  /** What the caller sees: the scheduler's reply, or a wait that never ends. */
  datatype Reply = Returns(r: S.Reply) | Hangs

  /** The next state, the caller's reply, and the pending caller handed to a new goroutine. */
  datatype Step = Step(st: State, reply: Reply, dispatched: Option<S.PendingCall>)

  /**
   * `done`: release one token and, when none is left and someone waits,
   * `settle`, which takes `mustatus`.  `holding` says the caller already
   * holds it; then, or when the lock is stuck, `settle` never gets it.
   */
  function Done(st: State, holding: bool): (r: Step)
    ensures r.st.s.busying == st.s.busying - 1
    ensures r.reply == Hangs <==> st.s.busying == 1 && |st.s.pending| > 0 && (st.stuck || holding)
    ensures r.reply == Hangs ==> r == Step(State(st.s.(busying := 0), true), Hangs, None)
    ensures r.reply != Hangs ==>
      r == Step(State(S.Done(st.s).0, st.stuck), Returns(S.Returned(None)), S.Done(st.s).1)
  {
    var s1 := st.s.(busying := st.s.busying - 1);
    if s1.busying == 0 && |s1.pending| > 0 && (st.stuck || holding) then Step(State(s1, true), Hangs, None)
    else
      var (s2, d) := S.Done(st.s);
      Step(State(s2, st.stuck), Returns(S.Returned(None)), d)
  }

  /**
   * `pend`: take `mustatus`, queue the caller and wait for its reply
   * without letting go of the lock.  When the lock is already stuck the
   * caller waits at `Lock` and is never queued.
   */
  function Pend(st: State, c: S.PendingCall): (r: Step)
    ensures r.reply == Hangs && r.dispatched == None && r.st.stuck
    ensures !st.stuck ==> r.st.s == S.Pend(st.s, c)
    ensures st.stuck ==> r.st == st
  {
    if st.stuck then Step(st, Hangs, None) else Step(State(S.Pend(st.s, c), true), Hangs, None)
  }

  /**
   * `Serve`: it takes `mustatus` first.  Queueing while LAUNCHING and the
   * status errors release the lock as `IcsScheduler.Serve` does; from READY
   * its `done` runs inside the lock, so when that `done` has to settle a
   * waiting caller, `Serve` waits on itself before it records the function
   * and the new status.
   */
  function Serve(st: State, fn: string, o: S.Outcomes): (r: Step)
    ensures st.stuck ==> r == Step(st, Hangs, None)
    ensures !st.stuck && st.s.status != St.Status.Ready ==>
      r == Step(State(S.Serve(st.s, fn, o).s, false), Returns(S.Serve(st.s, fn, o).reply), None)
    ensures !st.stuck && st.s.status == St.Status.Ready ==>
      (r.reply == Hangs <==> st.s.busying == 0 && |st.s.pending| > 0)
    ensures !st.stuck && r.reply == Hangs ==> r == Step(State(st.s, true), Hangs, None)
    ensures r.reply != Hangs ==>
      var c := S.Serve(st.s, fn, o);
      r == Step(State(c.s, st.stuck), Returns(c.reply), c.dispatched)
  {
    if st.stuck then Step(st, Hangs, None)
    else
      var t := St.Serve(st.s.status);
      if t.err != None then
        var c := S.Serve(st.s, fn, o);
        Step(State(c.s, false), Returns(c.reply), None)
      else
        var (s1, _) := S.Busy(st.s, false);
        var d := Done(State(s1, false), true);
        if d.reply == Hangs then Step(d.st, Hangs, None)
        else if o.specialized then
          Step(State(d.st.s.(servingFunction := fn, status := t.status), false), Returns(S.Returned(None)), d.dispatched)
        else Step(d.st, Returns(S.Returned(Some(S.ErrSpecialization))), d.dispatched)
  }

  /**
   * `Share`, `unshare`, `promote` and `Swap`: while the counter is held the
   * caller goes through `pend`; otherwise it takes its token and then
   * `mustatus`, which it never gets while the lock is stuck.  With the
   * lock free it is the `IcsScheduler` operation (the deferred `done` of
   * `Share` runs after its deferred unlock).
   */
  function Exclusive(st: State, c: S.PendingCall, o: S.Outcomes): (r: Step)
    requires S.Valid(st.s)
    requires c.caller != S.CallServe
    ensures S.Valid(r.st.s)
    ensures r.reply == Hangs <==> st.stuck || st.s.busying > 0
    ensures st.s.busying > 0 ==> r.st.stuck && r.dispatched == None
    ensures st.s.busying > 0 && !st.stuck ==> r.st.s.pending == st.s.pending + [c]
    ensures st.stuck ==> r.st.stuck && r.dispatched == None && r.st.s.pending == st.s.pending
    ensures st.stuck && st.s.busying <= 0 ==> r.st == State(st.s.(busying := st.s.busying + 1), true)
    ensures r.reply != Hangs ==>
      var c' := S.RunPending(st.s, c, o);
      r == Step(State(c'.s, false), Returns(c'.reply), c'.dispatched)
  {
    if st.s.busying > 0 then Pend(st, c)
    else if st.stuck then Step(State(st.s.(busying := st.s.busying + 1), true), Hangs, None)
    else
      var c' := S.RunPending(st.s, c, o);
      Step(State(c'.s, false), Returns(c'.reply), c'.dispatched)
  }

  /** `RegisterFE`'s pid, or `None` when its `done` waits forever for the lock. */
  datatype Registration = Registration(st: State, pid: Option<int>, dispatched: Option<S.PendingCall>, startsProxy: bool)

  /**
   * `RegisterFE`: it does not take `mustatus` itself, but its `done` may
   * have to `settle`, and that hangs while the lock is stuck.
   */
  function RegisterFE(st: State, strPort: string): (r: Registration)
    ensures Atoi(strPort).err != None || Atoi(strPort).value !in st.s.envs ==> r == Registration(st, Some(-1), None, false)
    ensures r.pid == None <==>
      Atoi(strPort).err == None && Atoi(strPort).value in st.s.envs
      && st.stuck && st.s.busying == 1 && |st.s.pending| > 0
    ensures r.pid == None ==> r.st.stuck && r.dispatched == None && r.st.s.pending == st.s.pending
    ensures r.pid != None ==>
      var g := S.RegisterFE(st.s, strPort);
      r == Registration(State(g.s, st.stuck), Some(g.pid), g.dispatched, g.startsProxy)
  {
    var a := Atoi(strPort);
    if a.err != None || a.value !in st.s.envs then Registration(st, Some(-1), None, false)
    else
      var env := st.s.envs[a.value];
      var d := Done(State(st.s.(envs := st.s.envs[a.value := env.(ready := true)]), st.stuck), false);
      if d.reply == Hangs then Registration(d.st, None, None, false)
      else Registration(d.st, Some(env.pid), d.dispatched, !d.st.s.proxy.listening)
  }

  /** The proxy callback takes `mustatus` first, so it hangs while the lock is stuck. */
  function OnProxy(st: State, port: int): (r: Step)
    ensures r.reply == Hangs <==> st.stuck
    ensures st.stuck ==> r == Step(st, Hangs, None)
    ensures !st.stuck ==>
      r == Step(State(S.OnProxy(st.s, port).0, false), Returns(S.Returned(None)), S.OnProxy(st.s, port).1)
  {
    if st.stuck then Step(st, Hangs, None)
    else
      var (s1, d) := S.OnProxy(st.s, port);
      Step(State(s1, false), Returns(S.Returned(None)), d)
  }

  // ---- runs of steps ----------------------------------------------------------

  /** One call into the scheduler, with the outside outcomes it meets. */
  datatype Event =
    | ServeCall(fn: string, o: S.Outcomes)
    | ExclusiveCall(c: S.PendingCall, o: S.Outcomes)
    | RegisterCall(strPort: string)
    | ProxyCallback(port: int)

  /** The step an event makes; a queued `Serve` arriving as `ExclusiveCall` runs as `Serve`. */
  function Apply(st: State, e: Event): (r: Step)
    requires S.Valid(st.s)
    ensures S.Valid(r.st.s)
    ensures st.stuck ==> r.st.stuck && r.dispatched == None && r.st.s.pending == st.s.pending
  {
    match e
    case ServeCall(fn, o) => Serve(st, fn, o)
    case ExclusiveCall(c, o) =>
      if c.caller == S.CallServe then Serve(st, c.fn, o) else Exclusive(st, c, o)
    case RegisterCall(strPort) =>
      var g := RegisterFE(st, strPort);
      Step(g.st, if g.pid == None then Hangs else Returns(S.Returned(None)), g.dispatched)
    case ProxyCallback(port) => OnProxy(st, port)
  }

  /** The state after the events in order, and the callers they dispatched. */
  function Run(st: State, es: seq<Event>): (r: (State, seq<S.PendingCall>))
    requires S.Valid(st.s)
    ensures S.Valid(r.0.s)
    decreases |es|
  {
    if |es| == 0 then (st, [])
    else
      var r1 := Apply(st, es[0]);
      var (st', ds) := Run(r1.st, es[1..]);
      (st', (if r1.dispatched == None then [] else [r1.dispatched.value]) + ds)
  }

  /**
   * Once `mustatus` is stuck it stays stuck: whatever calls follow, no
   * queued caller is ever dispatched and the queue never drains.
   */
  lemma {:induction false} StuckIsForever(st: State, es: seq<Event>)
    requires S.Valid(st.s) && st.stuck
    ensures Run(st, es).0.stuck
    ensures Run(st, es).0.s.pending == st.s.pending
    ensures Run(st, es).1 == []
    decreases |es|
  {
    if |es| > 0 {
      StuckIsForever(Apply(st, es[0]).st, es[1..]);
    }
  }

  /**
   * Two instances, and a `Share` between the two registrations: the
   * counter still holds the second instance's token, so `Share` goes
   * through `pend` and keeps `mustatus`.  The second registration then
   * hangs in its `settle`, the proxy callback hangs, and the queued
   * `Share` never runs, whatever comes after.
   */
  lemma ShareDuringLaunchHangs(port: int, pidOf: int -> int, fn: string, o: S.Outcomes, rest: seq<Event>)
    requires 0 <= port && port + 2 <= 65535
    ensures var l := State(S.LaunchFEs(S.NewScheduler(port, 2), pidOf), false);
      var r1 := RegisterFE(l, FormatInt(port + 1));
      var r2 := Exclusive(r1.st, S.PendingCall(S.CallShare, fn), o);
      var r3 := RegisterFE(r2.st, FormatInt(port + 2));
      && r1.pid == Some(pidOf(port + 1)) && !r1.st.stuck
      && r2.reply == Hangs && r2.st.stuck
      && r3.pid == None
      && OnProxy(r3.st, port + 1).reply == Hangs
      && Run(r3.st, rest).0.s.pending == [S.PendingCall(S.CallShare, fn)]
      && Run(r3.st, rest).1 == []
  {
    AtoiFormatInt(port + 1);
    AtoiFormatInt(port + 2);
    var l := State(S.LaunchFEs(S.NewScheduler(port, 2), pidOf), false);
    var r1 := RegisterFE(l, FormatInt(port + 1));
    var r2 := Exclusive(r1.st, S.PendingCall(S.CallShare, fn), o);
    var r3 := RegisterFE(r2.st, FormatInt(port + 2));
    StuckIsForever(r3.st, rest);
  }

  /**
   * One instance and two `Serve` calls while it launches, both queued.
   * The registration dispatches the first, which finds the scheduler
   * still LAUNCHING and queues itself again; the proxy callback then
   * dispatches the second, which finds READY, an empty counter and the
   * first still waiting, and hangs in its own `done`.
   */
  lemma TwoServesDuringLaunchHang(port: int, pidOf: int -> int, f: string, g: string, o: S.Outcomes)
    requires 0 <= port && port + 1 <= 65535
    ensures var l := State(S.LaunchFEs(S.NewScheduler(port, 1), pidOf), false);
      var a := Serve(l, f, o);
      var b := Serve(a.st, g, o);
      var r := RegisterFE(b.st, FormatInt(port + 1));
      var a' := Serve(r.st, f, o);
      var p := OnProxy(a'.st, port + 1);
      var b' := Serve(p.st, g, o);
      && a.reply == Returns(S.Queued) && b.reply == Returns(S.Queued)
      && r.dispatched == Some(S.PendingCall(S.CallServe, f))
      && a'.reply == Returns(S.Queued)
      && p.dispatched == Some(S.PendingCall(S.CallServe, g))
      && b'.reply == Hangs && b'.st.stuck
      && b'.st.s.pending == [S.PendingCall(S.CallServe, f)]
  {
    AtoiFormatInt(port + 1);
  }
}

=== FILE: ics_scheduler.dfy ===
/**
 * The `ics` scheduler: it launches `Instances` function environments on
 * ports `Port+1 .. Port+Instances`, waits for them to register, serves one
 * function from the environment the proxy forwards to, and can share a
 * second environment, promote it, unshare it, or swap the serving one.
 *
 * Every operation is a function from the scheduler state to the next
 * state, the caller's reply, and the pending caller (if any) that the
 * operation hands to a new goroutine.  A caller that has to wait is queued
 * and its reply is `Queued`; its real reply is the reply of the pending
 * call when it runs.  The status lock is left out here: this is the
 * scheduler with `pend`'s wait and `Serve`'s `done` moved out of the lock,
 * and `IcsLocking` adds the lock as the scheduler takes it.
 * Outcomes of the outside world (HTTP specialisation, process kill, the
 * process id of a relaunched environment, Go's map iteration order) are
 * inputs.
 */
module IcsScheduler {
  import opened Optional
  import opened GoStrconv
  import opened PendingQueue
  import St = SchedulerStatus
  import P = ProxyServer

  /** A launched function environment: its process and whether it has registered. */
  datatype Env = Env(ready: bool, pid: int)

  /** The scheduler operations that can wait in the pending queue. */
  datatype Caller = CallServe | CallShare | CallUnshare | CallPromote | CallSwap

  /** A queued caller together with the function name it was called with. */
  datatype PendingCall = PendingCall(caller: Caller, fn: string)

  datatype Error =
    | ErrSpecialization
    | ErrBusying
    | ErrNotAvailable
    | ErrUnregistered
    | ErrKill                       // the error of killing an environment's process
    | ErrStatus(e: St.StatusError)

  /** What the caller of an operation gets back. */
  datatype Reply = Returned(err: Option<Error>) | Queued

  datatype Scheduler = Scheduler(
    port: int,                      // Config.Port
    instances: int,                 // Config.Instances
    proxy: P.Server,
    servingFunction: string,
    sharingFunction: string,
    envs: map<int, Env>,            // faasEnvs, keyed by port
    status: St.Status,
    busying: int,
    serving: int,                   // port of the serving environment
    sharing: int,                   // port of the sharing environment, 0 for none
    pending: seq<PendingCall>
  )

  /** Outcomes of the calls the scheduler makes into the outside world. */
  datatype Outcomes = Outcomes(
    order: seq<int>,                // the iteration order of `faasEnvs`
    specialized: bool,              // the specialise POST answered below 300
    killed: bool,                   // killing the replaced environment succeeded
    pid: int                        // process id of the relaunched environment
  )

  /** The next state, the reply, and the pending caller handed to a new goroutine. */
  datatype Step = Step(s: Scheduler, reply: Reply, dispatched: Option<PendingCall>)

  ghost predicate Valid(s: Scheduler) {
    P.Valid(s.proxy)
  }

  /** `NewScheduler`: zero values everywhere, a fresh proxy, no environments. */
  function NewScheduler(port: int, instances: int): (s: Scheduler)
    ensures Valid(s) && Inv(s)
    ensures s.status == St.Launching && s.busying == 0 && s.pending == []
  {
    Scheduler(port, instances, P.NewServer(), "", "", map[], St.Launching, 0, 0, 0, [])
  }

  /** The address ":port" resolves exactly for ports in the 16-bit range. */
  function Resolve(port: int): (a: Option<P.TcpAddr>)
    ensures a != None <==> 0 <= port <= 65535
    ensures a != None ==> a.value.port == port
  {
    if 0 <= port <= 65535 then Some(P.TcpAddr("", port)) else None
  }

  // ---- busy counter and pending queue -------------------------------------

  /**
   * `busy(exclusive)`: an exclusive acquire fails with `ErrBusying` while
   * anything holds the counter; otherwise the counter goes up by one.
   */
  function Busy(s: Scheduler, exclusive: bool): (r: (Scheduler, Option<Error>))
    ensures r.1 == Some(ErrBusying) <==> exclusive && s.busying > 0
    ensures r.1 == Some(ErrBusying) ==> r.0 == s
    ensures r.1 != Some(ErrBusying) ==> r == (s.(busying := s.busying + 1), None)
  {
    if exclusive && s.busying > 0 then (s, Some(ErrBusying))
    else (s.(busying := s.busying + 1), None)
  }

  /** `pendLocked`: queue the caller at the tail. */
  function Pend(s: Scheduler, c: PendingCall): (r: Scheduler)
    ensures r.pending == s.pending + [c]
    ensures r == s.(pending := r.pending)
  {
    s.(pending := Push(s.pending, c))
  }

  /** `tbsettleLocked`: take the head caller, or none when nothing waits. */
  function TbSettle(s: Scheduler): (r: (Scheduler, Option<PendingCall>))
    ensures |s.pending| == 0 ==> r == (s, None)
    ensures |s.pending| > 0 ==> r.1 == Some(s.pending[0]) && r.0 == s.(pending := s.pending[1..])
  {
    var (q, c) := Pop(s.pending);
    (s.(pending := q), c)
  }

  /**
   * `done`: release one token; when none is left, dispatch at most one
   * pending caller, the one that has waited longest.
   */
  function Done(s: Scheduler): (r: (Scheduler, Option<PendingCall>))
    ensures r.0.busying == s.busying - 1
    ensures r.1 != None <==> s.busying == 1 && |s.pending| > 0
    ensures r.1 != None ==> r.1 == Some(s.pending[0]) && r.0 == s.(busying := 0, pending := s.pending[1..])
    ensures r.1 == None ==> r.0 == s.(busying := s.busying - 1)
  {
    var s1 := s.(busying := s.busying - 1);
    if s1.busying == 0 && |s1.pending| > 0 then TbSettle(s1) else (s1, None)
  }

  /** Release the token and reply: the deferred `done` of `Share` and the `done` of `Serve`. */
  function Release(s: Scheduler, err: Option<Error>): (r: Step)
    ensures r.reply == Returned(err)
    ensures r.s.busying == s.busying - 1
    ensures r.s == Done(s).0 && r.dispatched == Done(s).1
  {
    var (s1, d) := Done(s);
    Step(s1, Returned(err), d)
  }

  // ---- environments -------------------------------------------------------

  /** A port `Share` and `Swap` may pick: registered, ready, and not the serving one. */
  predicate Candidate(s: Scheduler, p: int) {
    p in s.envs && p != s.serving && s.envs[p].ready
  }

  /**
   * The `for port, meta := range faasEnvs` search: the first candidate in
   * iteration order, or 0 when there is none.
   */
  function Pick(s: Scheduler, order: seq<int>): (p: int)
    ensures (forall i :: 0 <= i < |order| ==> !Candidate(s, order[i])) ==> p == 0
    ensures (exists i :: 0 <= i < |order| && Candidate(s, order[i])) ==>
      exists i :: 0 <= i < |order| && order[i] == p && Candidate(s, p)
        && forall j :: 0 <= j < i ==> !Candidate(s, order[j])
    decreases |order|
  {
    if |order| == 0 then 0
    else if Candidate(s, order[0]) then order[0]
    else
      var p := Pick(s, order[1..]);
      assert forall i :: 0 < i < |order| ==> order[i] == order[1..][i - 1];
      p
  }

  /** `order` is an iteration order of the environment map: each key exactly once. */
  ghost predicate IterationOrder(order: seq<int>, envs: map<int, Env>) {
    && (forall i :: 0 <= i < |order| ==> order[i] in envs)
    && (forall p :: p in envs ==> p in order)
    && (forall i, j :: 0 <= i < j < |order| ==> order[i] != order[j])
  }

  /**
   * Whatever the iteration order, the search comes back empty only when no
   * environment is a candidate, or when the first candidate it meets is on
   * port 0, which the search cannot tell from "none".
   */
  lemma PickFindsCandidate(s: Scheduler, order: seq<int>)
    requires IterationOrder(order, s.envs)
    ensures Pick(s, order) != 0 ==> Candidate(s, Pick(s, order))
    ensures Pick(s, order) == 0 ==> (forall p :: !Candidate(s, p)) || Candidate(s, 0)
  {
  }

  /** `launch`: the environment is recorded as not yet ready. */
  function Launch(s: Scheduler, port: int, pid: int): (r: Scheduler)
    ensures r.envs == s.envs[port := Env(false, pid)]
    ensures r == s.(envs := r.envs)
  {
    s.(envs := s.envs[port := Env(false, pid)])
  }

  /**
   * `terminate`: an unregistered port is `ErrUnregistered`; a failed kill
   * returns its error and keeps the entry; otherwise the entry is removed.
   */
  function Terminate(s: Scheduler, port: int, killed: bool): (r: (Scheduler, Option<Error>))
    ensures port !in s.envs ==> r == (s, Some(ErrUnregistered))
    ensures port in s.envs && !killed ==> r == (s, Some(ErrKill))
    ensures port in s.envs && killed ==>
      && r.1 == None && r.0 == s.(envs := r.0.envs)
      && port !in r.0.envs && forall q :: q != port ==> (q in r.0.envs <==> q in s.envs)
  {
    if port !in s.envs then (s, Some(ErrUnregistered))
    else if !killed then (s, Some(ErrKill))
    else (s.(envs := s.envs - {port}), None)
  }

  /** Terminate the replaced environment and, if that worked, launch a new one on its port. */
  function Relaunch(s: Scheduler, port: int, o: Outcomes): (r: Step)
    ensures r.dispatched == None
    ensures r.s == s.(envs := r.s.envs)
    ensures r.reply == Returned(Terminate(s, port, o.killed).1)
    ensures r.reply == Returned(None) ==> r.s.envs == s.envs[port := Env(false, o.pid)]
  {
    var (s1, e) := Terminate(s, port, o.killed);
    if e != None then Step(s1, Returned(e), None)
    else Step(Launch(s1, port, o.pid), Returned(None), None)
  }

  /**
   * `LaunchFEs`: the counter holds one token per instance, and ports
   * `Port+1 .. Port+Instances` are launched.
   */
  function LaunchFEs(s: Scheduler, pidOf: int -> int): (r: Scheduler)
    ensures r.busying == s.instances
    ensures forall p :: p in r.envs <==> s.port < p <= s.port + s.instances
    ensures forall p :: p in r.envs ==> !r.envs[p].ready
  {
    s.(busying := s.instances,
       envs := map p | s.port < p <= s.port + s.instances :: Env(false, pidOf(p)))
  }

  // ---- registration and the proxy callback --------------------------------

  /** The result of `RegisterFE`: the pid (-1 on failure) and whether a proxy is started. */
  datatype Registration = Registration(s: Scheduler, pid: int, dispatched: Option<PendingCall>, startsProxy: bool)

  /**
   * `RegisterFE`: a port that does not parse or is not launched yields -1
   * and no change; otherwise the environment becomes ready, its launch
   * token is released, and a proxy is started unless one is listening.
   */
  function RegisterFE(s: Scheduler, strPort: string): (r: Registration)
    ensures Atoi(strPort).err != None || Atoi(strPort).value !in s.envs ==> r == Registration(s, -1, None, false)
    ensures Atoi(strPort).err == None && Atoi(strPort).value in s.envs ==>
      var port := Atoi(strPort).value;
      && r.pid == s.envs[port].pid
      && r.s.envs == s.envs[port := s.envs[port].(ready := true)]
      && r.s.busying == s.busying - 1
      && r.startsProxy == !s.proxy.listening
      && (r.dispatched != None <==> s.busying == 1 && |s.pending| > 0)
      && (r.dispatched != None ==> r.dispatched == Some(s.pending[0]) && r.s.pending == s.pending[1..])
      && (r.dispatched == None ==> r.s.pending == s.pending)
      && r.s == s.(envs := r.s.envs, busying := r.s.busying, pending := r.s.pending)
  {
    var a := Atoi(strPort);
    if a.err != None || a.value !in s.envs then Registration(s, -1, None, false)
    else
      var env := s.envs[a.value];
      var (s1, d) := Done(s.(envs := s.envs[a.value := env.(ready := true)]));
      Registration(s1, env.pid, d, !s1.proxy.listening)
  }

  /**
   * The proxy callback: the registered environment becomes the serving one,
   * the status moves to READY if it was LAUNCHING (the error of any other
   * transition is ignored), and the head pending caller is dispatched.
   */
  function OnProxy(s: Scheduler, port: int): (r: (Scheduler, Option<PendingCall>))
    ensures r.0.serving == port
    ensures r.0.status == (if s.status == St.Launching then St.Status.Ready else s.status)
    ensures r.1 == (if |s.pending| == 0 then None else Some(s.pending[0]))
    ensures r.0.pending == (if |s.pending| == 0 then [] else s.pending[1..])
    ensures r.0 == s.(serving := port, status := r.0.status, pending := r.0.pending)
  {
    TbSettle(s.(serving := port, status := St.ToReady(s.status).status))
  }

  /**
   * The goroutine `RegisterFE` starts: `ListenAndProxy` on the scheduler's
   * port towards the registered environment, whose callback runs `OnProxy`.
   */
  function StartProxy(s: Scheduler, port: int, listenOk: bool): (r: (Scheduler, Option<PendingCall>))
    requires Valid(s)
    ensures Valid(r.0)
    ensures Proxied(s, port, listenOk) ==>
      && r.0.serving == port && P.PrimaryId(r.0.proxy) == port && r.0.proxy.listening
      && r.0.status == (if s.status == St.Launching then St.Status.Ready else s.status)
      && r.1 == (if |s.pending| == 0 then None else Some(s.pending[0]))
      && r.0.pending == (if |s.pending| == 0 then [] else s.pending[1..])
    ensures !Proxied(s, port, listenOk) ==> r.1 == None && r.0 == s.(proxy := r.0.proxy)
    ensures s.proxy.listening ==> r == (s, None)
    ensures r.0 == s.(proxy := r.0.proxy, serving := r.0.serving, status := r.0.status, pending := r.0.pending)
  {
    var ps := P.ListenAndProxy(s.proxy, port, Resolve(s.port) != None, listenOk, Resolve(port));
    var s1 := s.(proxy := ps.server);
    if ps.proxied then OnProxy(s1, port) else (s1, None)
  }

  /** The proxy gets to its callback: no listener yet, listening works, and both addresses resolve. */
  predicate Proxied(s: Scheduler, port: int, listenOk: bool) {
    !s.proxy.listening && listenOk && Resolve(s.port) != None && 0 <= port <= 65535
  }

  // ---- the scheduler operations -------------------------------------------

  /**
   * `Serve`: queued while LAUNCHING; otherwise it needs READY, holds a
   * shared token around specialising the serving environment, and adopts
   * the function and SERVING only when specialisation succeeded.
   */
  function Serve(s: Scheduler, fn: string, o: Outcomes): (r: Step)
    ensures r.reply == Queued <==> s.status == St.Launching
    ensures r.reply == Queued ==> r == Step(s.(pending := s.pending + [PendingCall(CallServe, fn)]), Queued, None)
    ensures s.status in {St.Serving, St.Sharing} ==> r == Step(s, Returned(Some(ErrStatus(St.ErrStatusTransition))), None)
    ensures s.status == St.Status.Ready ==>
      && r.s.busying == s.busying
      && (r.reply == Returned(None) <==> o.specialized)
      && (o.specialized ==> r.s.servingFunction == fn && r.s.status == St.Serving)
      && (!o.specialized ==> r.s.servingFunction == s.servingFunction && r.s.status == s.status)
      && r.s.serving == s.serving && r.s.sharing == s.sharing && r.s.envs == s.envs && r.s.proxy == s.proxy
      && (r.dispatched != None <==> s.busying == 0 && |s.pending| > 0)
      && (r.dispatched != None ==> r.dispatched == Some(s.pending[0]) && r.s.pending == s.pending[1..])
      && (r.dispatched == None ==> r.s.pending == s.pending)
  {
    var t := St.Serve(s.status);
    if t.err == Some(St.ErrStatusPendding) then Step(Pend(s, PendingCall(CallServe, fn)), Queued, None)
    else if t.err != None then Step(s, Returned(Some(ErrStatus(t.err.value))), None)
    else
      var (s1, _) := Busy(s, false);
      var (s2, d) := Done(s1);
      if o.specialized then Step(s2.(servingFunction := fn, status := t.status), Returned(None), d)
      else Step(s2, Returned(Some(ErrSpecialization)), d)
  }

  /**
   * `Share`: queued while anything holds the counter; otherwise it holds an
   * exclusive token (released on every return), needs SERVING, picks an
   * available environment, specialises it, and points the proxy's
   * secondary slot at it.
   */
  function Share(s: Scheduler, fn: string, o: Outcomes): (r: Step)
    requires Valid(s)
    ensures Valid(r.s)
    ensures r.reply == Queued <==> s.busying > 0
    ensures r.reply == Queued ==> r == Step(s.(pending := s.pending + [PendingCall(CallShare, fn)]), Queued, None)
    ensures r.reply != Queued ==>
      && r.s.busying == s.busying
      && (r.dispatched != None <==> s.busying == 0 && |s.pending| > 0)
      && (r.dispatched != None ==> r.dispatched == Some(s.pending[0]) && r.s.pending == s.pending[1..])
      && (r.dispatched == None ==> r.s.pending == s.pending)
    ensures r.reply == Returned(None) <==> s.busying <= 0 && s.status == St.Serving && Pick(s, o.order) != 0 && o.specialized
    ensures r.reply == Returned(None) ==>
      && r.s.sharing == Pick(s, o.order) && r.s.sharingFunction == fn && r.s.status == St.Sharing
      && r.s.serving == s.serving && r.s.servingFunction == s.servingFunction && r.s.envs == s.envs
    ensures s.busying <= 0 && s.status == St.Serving && Pick(s, o.order) == 0 ==> r.reply == Returned(Some(ErrNotAvailable))
    ensures r.reply != Queued && r.reply != Returned(None) ==> r.s == s.(pending := r.s.pending)
  {
    PickIgnoresCounter(s, s.busying + 1, o.order);
    var (s1, e) := Busy(s, true);
    if e != None then Step(Pend(s, PendingCall(CallShare, fn)), Queued, None)
    else
      var t := St.Share(s1.status);
      if t.err != None then Release(s1, Some(ErrStatus(t.err.value)))
      else
        var available := Pick(s1, o.order);
        if available == 0 then Release(s1, Some(ErrNotAvailable))
        else if !o.specialized then Release(s1, Some(ErrSpecialization))
        else
          var proxy := P.SetShareAddr(s1.proxy, available, Resolve(available)).0;
          Release(s1.(proxy := proxy, sharingFunction := fn, sharing := available, status := t.status), None)
  }

  /**
   * `unshare`: queued while busy; otherwise it takes an exclusive token it
   * never releases (the relaunched environment's registration does), needs
   * SHARING, clears the secondary, and relaunches the shared environment.
   */
  function Unshare(s: Scheduler, o: Outcomes): (r: Step)
    requires Valid(s)
    ensures Valid(r.s)
    ensures r.reply == Queued <==> s.busying > 0
    ensures r.reply == Queued ==> r == Step(s.(pending := s.pending + [PendingCall(CallUnshare, "")]), Queued, None)
    ensures r.reply != Queued ==> r.s.busying == s.busying + 1 && r.dispatched == None && r.s.pending == s.pending
    ensures r.reply != Queued && s.status != St.Sharing ==>
      r == Step(s.(busying := s.busying + 1), Returned(Some(ErrStatus(St.ErrStatusTransition))), None)
    ensures r.reply != Queued && s.status == St.Sharing ==>
      && r.s.sharing == 0 && r.s.sharingFunction == "" && r.s.status == St.Serving
      && r.s.serving == s.serving && r.s.servingFunction == s.servingFunction
      && r.s.proxy == P.Unshare(s.proxy)
      && (r.reply == Returned(None) <==> s.sharing in s.envs && o.killed)
      && (r.reply == Returned(None) ==> r.s.envs == s.envs[s.sharing := Env(false, o.pid)])
  {
    var (s1, e) := Busy(s, true);
    if e != None then Step(Pend(s, PendingCall(CallUnshare, "")), Queued, None)
    else
      var t := St.Unshare(s1.status);
      if t.err != None then Step(s1, Returned(Some(ErrStatus(t.err.value))), None)
      else
        var port := s1.sharing;
        Relaunch(s1.(proxy := P.Unshare(s1.proxy), sharingFunction := "", sharing := 0, status := t.status), port, o)
  }

  /**
   * `promote`: like `unshare`, but the sharing environment and function
   * take over serving and the formerly serving environment is relaunched.
   */
  function Promote(s: Scheduler, o: Outcomes): (r: Step)
    requires Valid(s)
    ensures Valid(r.s)
    ensures r.reply == Queued <==> s.busying > 0
    ensures r.reply == Queued ==> r == Step(s.(pending := s.pending + [PendingCall(CallPromote, "")]), Queued, None)
    ensures r.reply != Queued ==> r.s.busying == s.busying + 1 && r.dispatched == None && r.s.pending == s.pending
    ensures r.reply != Queued && s.status != St.Sharing ==>
      r == Step(s.(busying := s.busying + 1), Returned(Some(ErrStatus(St.ErrStatusTransition))), None)
    ensures r.reply != Queued && s.status == St.Sharing ==>
      && r.s.serving == s.sharing && r.s.sharing == 0
      && r.s.servingFunction == s.sharingFunction && r.s.sharingFunction == ""
      && r.s.status == St.Serving && r.s.proxy == P.Promote(s.proxy)
      && (r.reply == Returned(None) <==> s.serving in s.envs && o.killed)
      && (r.reply == Returned(None) ==> r.s.envs == s.envs[s.serving := Env(false, o.pid)])
  {
    var (s1, e) := Busy(s, true);
    if e != None then Step(Pend(s, PendingCall(CallPromote, "")), Queued, None)
    else
      var t := St.Promote(s1.status);
      if t.err != None then Step(s1, Returned(Some(ErrStatus(t.err.value))), None)
      else
        var port := s1.serving;
        Relaunch(s1.(proxy := P.Promote(s1.proxy), servingFunction := s1.sharingFunction, sharingFunction := "",
                     serving := s1.sharing, sharing := 0, status := t.status), port, o)
  }

  /**
   * `Swap`: queued while busy; otherwise it takes an exclusive token it
   * never releases, needs SERVING, picks an available environment,
   * specialises it with the given function (the serving one when the name
   * is empty), makes it the proxy's primary, and relaunches the old one.
   */
  function Swap(s: Scheduler, fn: string, o: Outcomes): (r: Step)
    requires Valid(s)
    ensures Valid(r.s)
    ensures r.reply == Queued <==> s.busying > 0
    ensures r.reply == Queued ==> r == Step(s.(pending := s.pending + [PendingCall(CallSwap, fn)]), Queued, None)
    ensures r.reply != Queued ==> r.s.busying == s.busying + 1 && r.dispatched == None && r.s.pending == s.pending
    ensures r.reply != Queued && s.status != St.Serving ==>
      r == Step(s.(busying := s.busying + 1), Returned(Some(ErrStatus(St.ErrStatusTransition))), None)
    ensures r.reply != Queued && s.status == St.Serving && Pick(s, o.order) == 0 ==>
      r == Step(s.(busying := s.busying + 1), Returned(Some(ErrNotAvailable)), None)
    ensures r.reply != Queued && s.status == St.Serving && Pick(s, o.order) != 0 && !o.specialized ==>
      r == Step(s.(busying := s.busying + 1), Returned(Some(ErrSpecialization)), None)
    ensures r.reply != Queued && s.status == St.Serving && Pick(s, o.order) != 0 && o.specialized ==>
      && r.s.serving == Pick(s, o.order)
      && r.s.servingFunction == (if fn == "" then s.servingFunction else fn)
      && r.s.sharing == s.sharing && r.s.sharingFunction == s.sharingFunction && r.s.status == St.Serving
      && (r.reply == Returned(None) <==> s.serving in s.envs && o.killed)
      && (r.reply == Returned(None) ==> r.s.envs == s.envs[s.serving := Env(false, o.pid)])
  {
    PickIgnoresCounter(s, s.busying + 1, o.order);
    var (s1, e) := Busy(s, true);
    if e != None then Step(Pend(s, PendingCall(CallSwap, fn)), Queued, None)
    else
      var t := St.Swap(s1.status);
      if t.err != None then Step(s1, Returned(Some(ErrStatus(t.err.value))), None)
      else
        var available := Pick(s1, o.order);
        if available == 0 then Step(s1, Returned(Some(ErrNotAvailable)), None)
        else
          var f := if |fn| == 0 then s1.servingFunction else fn;
          if !o.specialized then Step(s1, Returned(Some(ErrSpecialization)), None)
          else
            var port := s1.serving;
            var proxy := P.SetRemoteAddr(s1.proxy, available, Resolve(available)).0;
            Relaunch(s1.(proxy := proxy, servingFunction := f, serving := available, status := t.status), port, o)
  }

  /** Running a dispatched pending caller: the operation it was queued by, with its name. */
  function RunPending(s: Scheduler, c: PendingCall, o: Outcomes): (r: Step)
    requires Valid(s)
    ensures Valid(r.s)
    ensures c.caller == CallServe ==> (r.reply == Queued <==> s.status == St.Launching)
    ensures c.caller != CallServe ==> (r.reply == Queued <==> s.busying > 0)
    ensures r.reply == Queued ==>
      && r.dispatched == None && r.s == s.(pending := r.s.pending)
      && |r.s.pending| == |s.pending| + 1 && r.s.pending[..|s.pending|] == s.pending
      && r.s.pending[|s.pending|].caller == c.caller
  {
    match c.caller
    case CallServe => Serve(s, c.fn, o)
    case CallShare => Share(s, c.fn, o)
    case CallUnshare => Unshare(s, o)
    case CallPromote => Promote(s, o)
    case CallSwap => Swap(s, c.fn, o)
  }

  // ---- properties -----------------------------------------------------------

  /**
   * The scheduler and its proxy agree once the proxy has called back: the
   * primary target is the serving environment and the secondary one the
   * sharing environment (0 when none).  Before that, nothing is shared and
   * the proxy's second slot is empty.
   */
  ghost function Inv(s: Scheduler): (b: bool)
    ensures b && s.status == St.Launching ==> s.sharing == 0
    ensures b ==> P.Valid(s.proxy)
    ensures b && s.status != St.Launching && P.Valid(s.proxy) ==>
      var t := P.GetRemoteAddr(s.proxy);
      && t.ids[0] == s.serving
      && (|t.ids| == 2 ==> t.ids[1] == s.sharing)
      && (s.sharing != 0 ==> t.ids == [s.serving, s.sharing])
  {
    && P.Valid(s.proxy)
    && (s.proxy.remotes[s.proxy.secondary] == None ==> s.proxy.remoteIds[s.proxy.secondary] == 0)
    && (s.status == St.Launching ==>
          s.sharing == 0 && s.proxy.remotes[1] == None && s.proxy.remoteIds[1] == 0
          && (!s.proxy.listening ==> s.proxy.secondary == s.proxy.primary || s.proxy.secondary == 1))
    && (s.status != St.Launching ==>
          && s.proxy.primary != s.proxy.secondary
          && P.PrimaryId(s.proxy) == s.serving
          && P.SecondaryId(s.proxy) == s.sharing
          && (s.status == St.Sharing <==> s.sharing != 0))
  }

  /** Every environment port lies in the range the address resolver accepts. */
  ghost predicate PortsResolvable(s: Scheduler) {
    forall p :: p in s.envs ==> 0 <= p <= 65535
  }

  /**
   * `busy` followed by `done` is no change to the counter; an exclusive
   * acquire succeeds exactly when nothing holds the counter.
   */
  lemma BusyDone(s: Scheduler, exclusive: bool)
    requires Busy(s, exclusive).1 == None
    ensures Done(Busy(s, exclusive).0).0.busying == s.busying
    ensures exclusive ==> s.busying <= 0
  {
  }

  /**
   * Queued callers are dispatched by `done` in the order they were queued:
   * once the counter is released, the first of the callers waiting is the
   * one handed to a new goroutine.
   */
  lemma DoneDispatchesOldest(s: Scheduler, c: PendingCall)
    requires s.busying == 1
    ensures Done(Pend(s, c)).1 == Some((s.pending + [c])[0])
    ensures Done(Pend(s, c)).0.pending == (s.pending + [c])[1..]
  {
  }

  /** The search does not look at the counter. */
  lemma {:induction false} PickIgnoresCounter(s: Scheduler, b: int, order: seq<int>)
    ensures Pick(s.(busying := b), order) == Pick(s, order)
    decreases |order|
  {
    if |order| > 0 {
      PickIgnoresCounter(s, b, order[1..]);
    }
  }

  /**
   * Every environment `LaunchFEs` starts registers under its decimal port:
   * `RegisterFE` returns its pid, marks it ready and releases one token.
   */
  lemma RegisterLaunched(s: Scheduler, pidOf: int -> int, p: int)
    requires s.port < p <= s.port + s.instances
    requires 0 <= p <= 65535
    ensures var l := LaunchFEs(s, pidOf);
      var r := RegisterFE(l, FormatInt(p));
      && r.pid == pidOf(p)
      && r.s.envs[p].ready
      && r.s.busying == s.instances - 1
  {
    AtoiFormatInt(p);
  }

  /**
   * With the wait taken out of the lock, a `Share` between the two
   * registrations of two instances is queued, and the second registration
   * releases the last launch token and dispatches it.
   */
  lemma ShareDuringLaunchDispatched(port: int, pidOf: int -> int, fn: string, o: Outcomes)
    requires 0 <= port && port + 2 <= 65535
    ensures var l := LaunchFEs(NewScheduler(port, 2), pidOf);
      var r1 := RegisterFE(l, FormatInt(port + 1));
      var r2 := Share(r1.s, fn, o);
      var r3 := RegisterFE(r2.s, FormatInt(port + 2));
      && r2.reply == Queued
      && r3.pid == pidOf(port + 2)
      && r3.dispatched == Some(PendingCall(CallShare, fn))
      && r3.s.pending == []
  {
    AtoiFormatInt(port + 1);
    AtoiFormatInt(port + 2);
  }

  /**
   * With `done` taken out of the lock, the two `Serve` calls queued while
   * one instance launches are both served: the second, running from READY
   * with the first queued again behind it, dispatches the first.
   */
  lemma TwoServesDuringLaunchServed(port: int, pidOf: int -> int, f: string, g: string, o: Outcomes)
    requires 0 <= port && port + 1 <= 65535
    ensures var l := LaunchFEs(NewScheduler(port, 1), pidOf);
      var a := Serve(l, f, o);
      var b := Serve(a.s, g, o);
      var r := RegisterFE(b.s, FormatInt(port + 1));
      var a' := Serve(r.s, f, o);
      var p := OnProxy(a'.s, port + 1);
      var b' := Serve(p.0, g, o);
      && r.dispatched == Some(PendingCall(CallServe, f))
      && p.1 == Some(PendingCall(CallServe, g))
      && b'.reply == Returned(if o.specialized then None else Some(ErrSpecialization))
      && b'.dispatched == Some(PendingCall(CallServe, f))
      && b'.s.pending == []
  {
    AtoiFormatInt(port + 1);
  }

  /** The proxy callback after the first registration leaves the scheduler READY and in agreement with its proxy. */
  lemma StartProxyEstablishesInv(s: Scheduler, port: int, listenOk: bool)
    requires Valid(s) && Inv(s) && s.status == St.Launching
    ensures Inv(StartProxy(s, port, listenOk).0)
    ensures StartProxy(s, port, listenOk).0.status == St.Status.Ready
      <==> !s.proxy.listening && listenOk && Resolve(s.port) != None && 0 <= port <= 65535
  {
  }

  /** The agreement does not depend on the counter or the queue. */
  lemma InvIgnoresQueue(s: Scheduler, b: int, q: seq<PendingCall>)
    requires Inv(s)
    ensures Inv(s.(busying := b, pending := q))
  {
  }

  /** Pointing the secondary slot at a newly shared environment keeps the agreement. */
  lemma SharedKeepsInv(s: Scheduler, available: int, fn: string)
    requires Valid(s) && Inv(s) && s.status == St.Serving
    requires available != 0 && 0 <= available <= 65535
    ensures Inv(s.(proxy := P.SetShareAddr(s.proxy, available, Resolve(available)).0,
                   sharingFunction := fn, sharing := available, status := St.Sharing))
  {
  }

  /** The successful path of `Share`: what it leaves behind before its deferred `done`. */
  lemma ShareSuccess(s: Scheduler, fn: string, o: Outcomes)
    requires Valid(s)
    requires s.busying <= 0 && s.status == St.Serving && o.specialized
    requires Pick(s.(busying := s.busying + 1), o.order) != 0
    ensures var s1 := s.(busying := s.busying + 1);
      var available := Pick(s1, o.order);
      Share(s, fn, o) == Release(s1.(proxy := P.SetShareAddr(s1.proxy, available, Resolve(available)).0,
                                     sharingFunction := fn, sharing := available, status := St.Sharing), None)
  {
    var s1 := s.(busying := s.busying + 1);
    assert Busy(s, true) == (s1, None);
    assert St.Share(s1.status) == St.Transition(St.Sharing, None);
  }

  /** `Share` keeps the scheduler and its proxy in agreement. */
  lemma ShareKeepsInv(s: Scheduler, fn: string, o: Outcomes)
    requires Valid(s) && Inv(s) && PortsResolvable(s)
    ensures Inv(Share(s, fn, o).s)
  {
    var s1 := s.(busying := s.busying + 1);
    var available := Pick(s1, o.order);
    var r := Share(s, fn, o);
    if s.busying > 0 {
      assert r.s == s.(pending := s.pending + [PendingCall(CallShare, fn)]);
      InvIgnoresQueue(s, s.busying, r.s.pending);
    } else {
      InvIgnoresQueue(s, s1.busying, s.pending);
      if s.status == St.Serving && available != 0 && o.specialized {
        assert Candidate(s1, available);
        ShareSuccess(s, fn, o);
        SharedKeepsInv(s1, available, fn);
        var s2 := s1.(proxy := P.SetShareAddr(s1.proxy, available, Resolve(available)).0,
                      sharingFunction := fn, sharing := available, status := St.Sharing);
        DoneKeepsInv(s2);
      } else {
        assert Busy(s, true) == (s1, None);
        assert r.s == Done(s1).0;
        DoneKeepsInv(s1);
      }
    }
  }

  /** `Swap` keeps the scheduler and its proxy in agreement. */
  lemma SwapKeepsInv(s: Scheduler, fn: string, o: Outcomes)
    requires Valid(s) && Inv(s) && PortsResolvable(s)
    ensures Inv(Swap(s, fn, o).s)
  {
    var s1 := s.(busying := s.busying + 1);
    var r := Swap(s, fn, o);
    if s.busying > 0 {
      assert r.s == s.(pending := s.pending + [PendingCall(CallSwap, fn)]);
      InvIgnoresQueue(s, s.busying, s.pending + [PendingCall(CallSwap, fn)]);
    } else {
      assert Busy(s, true) == (s1, None);
      InvIgnoresQueue(s, s1.busying, s.pending);
      var available := Pick(s1, o.order);
      if s.status == St.Serving && available != 0 && o.specialized {
        assert Candidate(s1, available);
        var f := if |fn| == 0 then s1.servingFunction else fn;
        var proxy := P.SetRemoteAddr(s1.proxy, available, Resolve(available)).0;
        var s2 := s1.(proxy := proxy, servingFunction := f, serving := available, status := St.Serving);
        assert r == Relaunch(s2, s1.serving, o);
        SwappedKeepsInv(s1, available, f);
        InvIgnoresEnvs(s2, r.s.envs);
      } else {
        assert r.s == s1;
      }
    }
  }

  /** Pointing the primary slot at a newly picked environment keeps the agreement. */
  lemma SwappedKeepsInv(s: Scheduler, available: int, fn: string)
    requires Valid(s) && Inv(s) && s.status == St.Serving
    requires available != 0 && 0 <= available <= 65535
    ensures Inv(s.(proxy := P.SetRemoteAddr(s.proxy, available, Resolve(available)).0,
                   servingFunction := fn, serving := available, status := St.Serving))
  {
  }

  /** The agreement does not depend on the environments. */
  lemma InvIgnoresEnvs(s: Scheduler, envs: map<int, Env>)
    requires Inv(s)
    ensures Inv(s.(envs := envs))
  {
  }

  /** `promote` keeps the scheduler and its proxy in agreement. */
  lemma PromoteKeepsInv(s: Scheduler, o: Outcomes)
    requires Valid(s) && Inv(s)
    ensures Inv(Promote(s, o).s)
  {
    var s1 := s.(busying := s.busying + 1);
    var r := Promote(s, o);
    if s.busying > 0 {
      assert r.s == s.(pending := s.pending + [PendingCall(CallPromote, "")]);
      InvIgnoresQueue(s, s.busying, s.pending + [PendingCall(CallPromote, "")]);
    } else {
      assert Busy(s, true) == (s1, None);
      InvIgnoresQueue(s, s1.busying, s.pending);
      if s.status == St.Sharing {
        var s2 := s1.(proxy := P.Promote(s1.proxy), servingFunction := s1.sharingFunction, sharingFunction := "",
                      serving := s1.sharing, sharing := 0, status := St.Serving);
        assert r == Relaunch(s2, s1.serving, o);
        PromotedKeepsInv(s1);
        InvIgnoresEnvs(s2, r.s.envs);
      } else {
        assert r.s == s1;
      }
    }
  }

  /** Exchanging the proxy's slots with the sharing environment taking over keeps the agreement. */
  lemma PromotedKeepsInv(s: Scheduler)
    requires Valid(s) && Inv(s) && s.status == St.Sharing
    ensures Inv(s.(proxy := P.Promote(s.proxy), servingFunction := s.sharingFunction, sharingFunction := "",
                   serving := s.sharing, sharing := 0, status := St.Serving))
  {
  }

  /** `unshare` keeps the scheduler and its proxy in agreement. */
  lemma UnshareKeepsInv(s: Scheduler, o: Outcomes)
    requires Valid(s) && Inv(s)
    ensures Inv(Unshare(s, o).s)
  {
    var s1 := s.(busying := s.busying + 1);
    var r := Unshare(s, o);
    if s.busying > 0 {
      assert r.s == s.(pending := s.pending + [PendingCall(CallUnshare, "")]);
      InvIgnoresQueue(s, s.busying, s.pending + [PendingCall(CallUnshare, "")]);
    } else {
      assert Busy(s, true) == (s1, None);
      InvIgnoresQueue(s, s1.busying, s.pending);
      if s.status == St.Sharing {
        var s2 := s1.(proxy := P.Unshare(s1.proxy), sharingFunction := "", sharing := 0, status := St.Serving);
        assert r == Relaunch(s2, s1.sharing, o);
        UnsharedKeepsInv(s1);
        InvIgnoresEnvs(s2, r.s.envs);
      } else {
        assert r.s == s1;
      }
    }
  }

  /** Clearing the secondary slot together with sharing keeps the agreement. */
  lemma UnsharedKeepsInv(s: Scheduler)
    requires Valid(s) && Inv(s) && s.status == St.Sharing
    ensures Inv(s.(proxy := P.Unshare(s.proxy), sharingFunction := "", sharing := 0, status := St.Serving))
  {
  }

  /** `Serve` and `RegisterFE` keep the scheduler and its proxy in agreement. */
  lemma ServeRegisterKeepInv(s: Scheduler, fn: string, o: Outcomes, strPort: string)
    requires Valid(s) && Inv(s)
    ensures Inv(Serve(s, fn, o).s)
    ensures Inv(RegisterFE(s, strPort).s)
  {
    ServeKeepsInv(s, fn, o);
    var a := Atoi(strPort);
    if a.err == None && a.value in s.envs {
      var s0 := s.(envs := s.envs[a.value := s.envs[a.value].(ready := true)]);
      InvIgnoresEnvs(s, s0.envs);
      DoneKeepsInv(s0);
    }
  }

  lemma ServeKeepsInv(s: Scheduler, fn: string, o: Outcomes)
    requires Valid(s) && Inv(s)
    ensures Inv(Serve(s, fn, o).s)
  {
    var t := St.Serve(s.status);
    if t.err == Some(St.ErrStatusPendding) {
      InvIgnoresQueue(s, s.busying, s.pending + [PendingCall(CallServe, fn)]);
    } else if t.err == None {
      var s1 := s.(busying := s.busying + 1);
      InvIgnoresQueue(s, s1.busying, s.pending);
      DoneKeepsInv(s1);
      var s2 := Done(s1).0;
      if o.specialized {
        ServingKeepsInv(s2, fn);
      }
    }
  }

  /** `done` keeps the agreement. */
  lemma DoneKeepsInv(s: Scheduler)
    requires Inv(s)
    ensures Inv(Done(s).0)
  {
    InvIgnoresQueue(s, Done(s).0.busying, Done(s).0.pending);
    assert Done(s).0 == s.(busying := Done(s).0.busying, pending := Done(s).0.pending);
  }

  /** Serving from READY keeps the agreement. */
  lemma ServingKeepsInv(s: Scheduler, fn: string)
    requires Inv(s) && s.status == St.Status.Ready
    ensures Inv(s.(servingFunction := fn, status := St.Serving))
  {
  }
}

=== FILE: interval_monitor.dfy ===
/**
 * The analyser registry and tick arithmetic of the monitor's
 * `IntervalMonitor` (`ics/monitor/interval_monitor.go`).  Durations are
 * Go `time.Duration` values: integers of nanoseconds.  Analysers are
 * opaque values; the tick loop that runs them is not modelled.
 */
module IntervalMonitors {
  import opened Optional
  import opened GoInt

  const MILLISECOND: int := 1_000_000
  const SECOND: int := 1_000_000_000

  /** `DefaultInterval`. */
  const DEFAULT_INTERVAL: int := SECOND

  /** The longest time one analyser is given before the next one starts. */
  const MAX_TIMEOUT: int := 100 * MILLISECOND

  datatype IntervalMonitor<A> = IntervalMonitor(monitored: map<string, A>, interval: int)

  /** `NewIntervalMonitor`: no analysers; a nil interval is the default one. */
  function NewIntervalMonitor<A>(d: Option<int>): (m: IntervalMonitor<A>)
    ensures m.monitored == map[]
    ensures d == None ==> m.interval == DEFAULT_INTERVAL
    ensures d != None ==> m.interval == d.value
  {
    IntervalMonitor(map[], if d.Some? then d.value else DEFAULT_INTERVAL)
  }

  /** `AddAnalyser`: registers `a` under `name` unless the name is taken; reports whether it was. */
  function AddAnalyser<A>(m: IntervalMonitor<A>, name: string, a: A): (r: (IntervalMonitor<A>, bool))
    ensures r.1 <==> name in m.monitored
    ensures r.1 ==> r.0 == m
    ensures !r.1 ==> r.0.monitored == m.monitored[name := a] && r.0.interval == m.interval
  {
    if name in m.monitored then (m, true) else (m.(monitored := m.monitored[name := a]), false)
  }

  /** `RemoveAnalyser`: forgets `name` if registered; the error it returns is always nil. */
  function RemoveAnalyser<A>(m: IntervalMonitor<A>, name: string): (r: IntervalMonitor<A>)
    ensures name !in r.monitored
    ensures forall k :: k in m.monitored && k != name ==> k in r.monitored && r.monitored[k] == m.monitored[k]
    ensures forall k :: k in r.monitored ==> k in m.monitored
    ensures r.interval == m.interval
  {
    if name !in m.monitored then m else m.(monitored := m.monitored - {name})
  }

  /** `GetAnalyser`: the registered analyser, or nil. */
  function GetAnalyser<A>(m: IntervalMonitor<A>, name: string): (r: Option<A>)
    ensures r.Some? <==> name in m.monitored
    ensures r.Some? ==> r.value == m.monitored[name]
  {
    if name in m.monitored then Some(m.monitored[name]) else None
  }

  /** The first analyser registered under a name stays: a second `AddAnalyser` reports it and changes nothing. */
  lemma AddKeepsFirst<A>(m: IntervalMonitor<A>, name: string, a: A, b: A)
    ensures var (m1, taken1) := AddAnalyser(m, name, a);
      var (m2, taken2) := AddAnalyser(m1, name, b);
      && taken2 && m2 == m1
      && (!taken1 ==> GetAnalyser(m2, name) == Some(a))
  {
  }

  /** Removing what was just added gives back the registry without the name. */
  lemma AddThenRemove<A>(m: IntervalMonitor<A>, name: string, a: A)
    ensures RemoveAnalyser(AddAnalyser(m, name, a).0, name) == RemoveAnalyser(m, name)
    ensures GetAnalyser(RemoveAnalyser(m, name), name) == None
  {
    var r1 := RemoveAnalyser(AddAnalyser(m, name, a).0, name);
    var r2 := RemoveAnalyser(m, name);
    assert r1.monitored == r2.monitored;
  }

  /** `AddAnalyser` and `RemoveAnalyser` on other names do not disturb `name`. */
  lemma OtherNamesUntouched<A>(m: IntervalMonitor<A>, name: string, other: string, a: A)
    requires other != name
    ensures GetAnalyser(AddAnalyser(m, other, a).0, name) == GetAnalyser(m, name)
    ensures GetAnalyser(RemoveAnalyser(m, other), name) == GetAnalyser(m, name)
  {
  }

  /** The per-analyser timeout: a tenth of the interval (truncated), at most 100ms. */
  function Timeout(interval: int): (t: int)
    ensures t <= MAX_TIMEOUT
    ensures interval >= 0 ==> 0 <= t && 10 * t <= interval
    ensures interval >= 10 * MAX_TIMEOUT ==> t == MAX_TIMEOUT
    ensures 0 <= interval < 10 * MAX_TIMEOUT ==> interval < 10 * (t + 1)
  {
    var t := TruncDiv(interval, 10);
    if t < MAX_TIMEOUT then t else MAX_TIMEOUT
  }

  /**
   * `nextInterval`: the wait before the next round, given how long the
   * last round took.  A round that overran waits a whole interval.
   */
  function NextInterval(interval: int, skip: int): (d: int)
    ensures skip <= interval ==> d + skip == interval
    ensures skip > interval ==> d == interval
    ensures 0 <= skip && 0 <= interval ==> 0 <= d <= interval
  {
    if skip > interval then interval else interval - skip
  }
}

=== FILE: invoker.dfy ===
/**
 * The benchmark's request issuer (`benchmark/legacy/common/invoker.py`):
 * `request` sends one prepared request `count` times and records one entry
 * per attempt, and `threadize` splits a total over threads sharing one
 * entry list.  The clock and the network are inputs: each attempt carries
 * its start and end times and what the send did.
 */
module Invoker {
  import opened Optional

  datatype Response = Response(status: int, body: string)

  /** What one send did: answered, raised an ordinary exception, or was interrupted (`KeyboardInterrupt`). */
  datatype Outcome = Answered(response: Response) | Failed | Interrupted

  datatype Attempt = Attempt(start: real, end: real, outcome: Outcome)

  /** `[start, status_code, end − start]` followed by the handler's fields. */
  datatype Entry = Entry(start: real, status: int, elapsed: real, extra: seq<real>)

  /** The exceptions `request` lets escape. */
  datatype Escape =
    | KeyboardInterrupt
      /** The handler is given `r` before any send has assigned it. */
    | UnboundLocal

  datatype RequestResult = Completed(entries: seq<Entry>) | Raised(entries: seq<Entry>, error: Escape)

  /** The status recorded for an attempt: the response's, or 500 when the send raised. */
  function Status(a: Attempt): int {
    if a.outcome.Answered? then a.outcome.response.status else 500
  }

  /**
   * The variable `r` after attempt `j`: the response of the latest answered
   * attempt among the first `j + 1`, since a failed send leaves it as it was.
   */
  function LastResponse(attempts: seq<Attempt>, j: int): (r: Option<Response>)
    requires j < |attempts|
    ensures r.Some? ==> exists i :: 0 <= i <= j && attempts[i].outcome == Answered(r.value)
    ensures r.None? ==> forall i :: 0 <= i <= j ==> !attempts[i].outcome.Answered?
    decreases j + 1
  {
    if j < 0 then None
    else if attempts[j].outcome.Answered? then Some(attempts[j].outcome.response)
    else LastResponse(attempts, j - 1)
  }

  /** The entry for attempt `j`, or `None` when the handler would read an unassigned `r`. */
  function EntryAt(attempts: seq<Attempt>, j: nat, handler: Option<Response -> seq<real>>): (e: Option<Entry>)
    requires j < |attempts|
    ensures e.Some? ==>
      && e.value.start == attempts[j].start
      && e.value.status == Status(attempts[j])
      && e.value.elapsed == attempts[j].end - attempts[j].start
    ensures handler.None? ==> e.Some? && e.value.extra == []
    ensures handler.Some? && attempts[j].outcome.Answered? ==> e == Some(Entry(attempts[j].start, attempts[j].outcome.response.status,
      attempts[j].end - attempts[j].start, handler.value(attempts[j].outcome.response)))
  {
    var a := attempts[j];
    var fields := Entry(a.start, Status(a), a.end - a.start, []);
    if handler.None? then Some(fields)
    else match LastResponse(attempts, j)
      case None => None
      case Some(r) => Some(fields.(extra := handler.value(r)))
  }

  /** The first attempt among the first `count` at which `request` raises, if any. */
  predicate RaisesAt(attempts: seq<Attempt>, j: nat, handler: Option<Response -> seq<real>>)
    requires j < |attempts|
  {
    attempts[j].outcome.Interrupted? || EntryAt(attempts, j, handler).None?
  }

  /**
   * `request(count, req, handler, reuse, entries)`: the entries after the
   * loop, appended to the caller's list `entries` (a fresh list is the
   * empty one).  `attempts` are the sends in order; a negative `count`
   * makes no attempt, as `range` does.
   */
  method Request(count: int, attempts: seq<Attempt>, handler: Option<Response -> seq<real>>, entries: seq<Entry>)
    returns (r: RequestResult)
    requires |attempts| >= count
    ensures |entries| <= |r.entries| <= |entries| + (if count < 0 then 0 else count)
    ensures r.entries[..|entries|] == entries
    ensures forall j :: 0 <= j < |r.entries| - |entries| ==> Some(r.entries[|entries| + j]) == EntryAt(attempts, j, handler)
    ensures r.Completed? ==> |r.entries| == |entries| + (if count < 0 then 0 else count)
    ensures r.Completed? ==> forall j :: 0 <= j < count ==> !RaisesAt(attempts, j, handler)
    ensures r.Raised? ==> var k := |r.entries| - |entries|;
      && k < count && RaisesAt(attempts, k, handler)
      && (forall j :: 0 <= j < k ==> !RaisesAt(attempts, j, handler))
      && (r.error == KeyboardInterrupt <==> attempts[k].outcome.Interrupted?)
  {
    var es := entries;
    var j := 0;
    while j < count
      invariant 0 <= j && (count >= 0 ==> j <= count) && (count < 0 ==> j == 0)
      invariant |es| == |entries| + j && es[..|entries|] == entries
      invariant forall i :: 0 <= i < j ==> Some(es[|entries| + i]) == EntryAt(attempts, i, handler)
      invariant forall i :: 0 <= i < j ==> !RaisesAt(attempts, i, handler)
    {
      var a := attempts[j];
      if a.outcome.Interrupted? {
        return Raised(es, KeyboardInterrupt);
      }
      var e := EntryAt(attempts, j, handler);
      if e.None? {
        return Raised(es, UnboundLocal);
      }
      es := es + [e.value];
      j := j + 1;
    }
    r := Completed(es);
  }

  /** Without a handler and without interruption, `request` records every attempt, 500 for the failed ones. */
  lemma RequestWithoutHandler(count: nat, attempts: seq<Attempt>, entries: seq<Entry>, j: nat)
    requires |attempts| >= count && j < count
    ensures EntryAt(attempts, j, None) == Some(Entry(attempts[j].start, Status(attempts[j]), attempts[j].end - attempts[j].start, []))
    ensures attempts[j].outcome.Failed? ==> Status(attempts[j]) == 500
  {
  }

  /**
   * `int(round(n / d))` in Python 2, which the benchmark suite is written
   * in: `/` on two integers floors the quotient, and rounding an integer
   * leaves it as it is.
   */
  function FloorDiv(n: int, d: int): (k: int)
    requires d != 0
    ensures d > 0 ==> k * d <= n < k * d + d
    ensures d < 0 ==> k * d >= n > k * d + d
  {
    if d > 0 || n % d == 0 then n / d else n / d - 1
  }

  /** The request counts of the threads `threadize` starts: `num − 1` of `per` and a last one of `rest`. */
  function Shares(per: int, rest: int, num: int): (s: seq<int>)
    ensures |s| == (if num > 1 then num else 1)
    ensures forall i :: 0 <= i < |s| - 1 ==> s[i] == per
    ensures s[|s| - 1] == rest
  {
    (if num > 1 then seq(num - 1, _ => per) else []) + [rest]
  }

  /**
   * `threadize` as written: `total2 = per * num`, so `rest = per` and every
   * thread gets `per` requests.  `None` is Python's `ZeroDivisionError`.
   */
  function Threadize(total: int, num: int): (s: Option<seq<int>>)
    ensures s.None? <==> num == 0
    ensures s.Some? ==> |s.value| == (if num > 1 then num else 1)
    ensures s.Some? ==> forall i :: 0 <= i < |s.value| ==> s.value[i] == FloorDiv(total, num)
  {
    if num == 0 then None
    else
      var per := FloorDiv(total, num);
      var total2 := per * num;
      var rest := per - (per * num - total2);
      Some(Shares(per, rest, num))
  }

  /** `threadize` with `rest` making up the difference to `total`: `total2` is `total`. */
  function ThreadizeCorrected(total: int, num: int): (s: Option<seq<int>>)
    ensures s.None? <==> num == 0
    ensures s.Some? ==> |s.value| == (if num > 1 then num else 1)
    ensures s.Some? ==> forall i :: 0 <= i < |s.value| - 1 ==> s.value[i] == FloorDiv(total, num)
  {
    if num == 0 then None
    else
      var per := FloorDiv(total, num);
      var total2 := total;
      var rest := per - (per * num - total2);
      Some(Shares(per, rest, num))
  }

  /** The requests the threads with these counts issue: `range` of a negative count is empty. */
  function Issued(counts: seq<int>): (n: nat)
    ensures |counts| == 0 ==> n == 0
  {
    if |counts| == 0 then 0 else (if counts[0] > 0 then counts[0] else 0) + Issued(counts[1..])
  }

  /** The sum of the counts, negative ones included. */
  function Planned(counts: seq<int>): (n: int)
    ensures (forall i :: 0 <= i < |counts| ==> counts[i] >= 0) ==> n == Issued(counts)
    ensures (exists i :: 0 <= i < |counts| && counts[i] < 0) ==> n < Issued(counts)
  {
    if |counts| == 0 then 0 else counts[0] + Planned(counts[1..])
  }

  lemma {:induction false} PlannedShares(per: int, rest: int, num: int)
    ensures Planned(Shares(per, rest, num)) == (if num > 1 then (num - 1) * per else 0) + rest
    decreases num
  {
    var s := Shares(per, rest, num);
    if num > 1 {
      assert s[0] == per;
      assert s[1..] == Shares(per, rest, num - 1);
      PlannedShares(per, rest, num - 1);
    } else {
      assert s == [rest];
      assert s[1..] == [];
    }
  }

  /** As written, every one of the `num` threads gets `per`: `per · num` requests are planned, not `total`. */
  lemma ThreadizePlansPerTimesNum(total: int, num: int)
    requires num >= 1
    ensures var s := Threadize(total, num).value;
      && (forall i :: 0 <= i < |s| ==> s[i] == FloorDiv(total, num))
      && Planned(s) == FloorDiv(total, num) * num
  {
    var per := FloorDiv(total, num);
    PlannedShares(per, per, num);
  }

  /** 10 requests over 3 threads issue 9, and 7 over 2 issue 6. */
  lemma ThreadizeLosesRequests()
    ensures Threadize(10, 3) == Some([3, 3, 3])
    ensures Issued([3, 3, 3]) == 9
    ensures Threadize(7, 2) == Some([3, 3])
    ensures Issued([3, 3]) == 6
  {
    assert FloorDiv(10, 3) == 3;
    assert Shares(3, 3, 3) == [3, 3, 3];
    assert FloorDiv(7, 2) == 3;
    assert Shares(3, 3, 2) == [3, 3];
  }

  /**
   * Corrected, the counts always add up to `total`; when none is negative,
   * as for any non-negative `total` since `per` is floored, that many
   * requests are issued.
   */
  lemma ThreadizeCorrectedTotal(total: int, num: int)
    requires num >= 1
    ensures Planned(ThreadizeCorrected(total, num).value) == total
    ensures (forall i :: 0 <= i < |ThreadizeCorrected(total, num).value| ==> ThreadizeCorrected(total, num).value[i] >= 0)
      ==> Issued(ThreadizeCorrected(total, num).value) == total
    ensures total >= 0 ==> Issued(ThreadizeCorrected(total, num).value) == total
  {
    var per := FloorDiv(total, num);
    var rest := per - (per * num - total);
    var s := ThreadizeCorrected(total, num).value;
    assert s == Shares(per, rest, num);
    PlannedShares(per, rest, num);
    assert Planned(s) == total by {
      if num > 1 {
        assert (num - 1) * per + rest == total;
      }
    }
    if total >= 0 {
      NonNegativeShares(total, num, per, rest);
    }
  }

  /** From a non-negative total, the floored `per` and the `rest` that tops it up are not negative. */
  lemma NonNegativeShares(total: int, num: int, per: int, rest: int)
    requires total >= 0 && num >= 1 && per == FloorDiv(total, num) && rest == per - (per * num - total)
    ensures forall i :: 0 <= i < |Shares(per, rest, num)| ==> Shares(per, rest, num)[i] >= 0
  {
    assert rest >= per;
  }

  /** Corrected, 10 requests over 3 threads are 3, 3 and 4. */
  lemma ThreadizeCorrectedTen()
    ensures ThreadizeCorrected(10, 3) == Some([3, 3, 4])
  {
    assert FloorDiv(10, 3) == 3;
    assert Shares(3, 4, 3) == [3, 3, 4];
  }

  /**
   * The threads of `threadize` run on one shared list and are all joined.
   * Their appends interleave; the model runs them one after another, in
   * creation order.  A thread that raises stops, keeping what it appended.
   */
  method RunThreads(counts: seq<int>, runs: seq<seq<Attempt>>, handler: Option<Response -> seq<real>>)
    returns (entries: seq<Entry>, completed: bool)
    requires |runs| == |counts|
    requires forall i :: 0 <= i < |counts| ==> |runs[i]| >= counts[i]
    ensures |entries| <= Issued(counts)
    ensures completed ==> |entries| == Issued(counts)
  {
    entries := [];
    completed := true;
    var i := 0;
    while i < |counts|
      invariant i <= |counts|
      invariant |entries| <= Issued(counts[..i])
      invariant completed ==> |entries| == Issued(counts[..i])
    {
      var r := Request(counts[i], runs[i], handler, entries);
      if r.Raised? {
        completed := false;
      }
      IssuedAppend(counts[..i], counts[i]);
      assert counts[..i + 1] == counts[..i] + [counts[i]];
      entries := r.entries;
      i := i + 1;
    }
    assert counts[..i] == counts;
  }

  lemma {:induction false} IssuedAppend(counts: seq<int>, c: int)
    ensures Issued(counts + [c]) == Issued(counts) + (if c > 0 then c else 0)
  {
    if |counts| == 0 {
      assert counts + [c] == [c];
      assert [c][1..] == [];
    } else {
      assert (counts + [c])[1..] == counts[1..] + [c];
      IssuedAppend(counts[1..], c);
    }
  }
}

=== FILE: light_stats.dfy ===
/**
 * The monitor's `LightStats` (`ics/monitor/model/light_stats.go`): values
 * are added to a bucket of at most `BUFFER_SIZE` values, a full or timed-out
 * bucket is flushed into three running sums (count, total, total of
 * squares), and the mean and variance are computed from those sums on
 * demand.  The double-buffer swap, the timer and the goroutine feeding
 * values in are not modelled: a flush is applied to the bucket it names.
 * Times are integers supplied by the caller.
 */
module LightStatistics {
  import opened Series
  import Sums
  import MovingSums

  const BUFFER_SIZE: int := 1000

  /** `lightStatsBucket`: the values added since the last flush. */
  datatype Bucket = Bucket(n: int, sum: real, sum2: real)

  /** `add`: refuses a full bucket, else counts the value and its square. */
  function BucketAdd(b: Bucket, val: real): (r: (Bucket, bool))
    ensures !r.1 <==> b.n == BUFFER_SIZE
    ensures !r.1 ==> r.0 == b
  {
    if b.n == BUFFER_SIZE then (b, false)
    else (Bucket(b.n + 1, b.sum + val, b.sum2 + val * val), true)
  }

  /** `load`: the bucket's count and sums. */
  function Load(b: Bucket): (int, real, real) {
    (b.n, b.sum, b.sum2)
  }

  /** `reset`: an empty bucket, holding no values whatever `b` held. */
  function Reset(b: Bucket): (r: Bucket)
    ensures BucketHolds(r, [])
    ensures Load(r) == (0, 0.0, 0.0)
  {
    Bucket(0, 0.0, 0.0)
  }

  /** The bucket holds the values `h`: their number, total and total of squares. */
  ghost predicate BucketHolds(b: Bucket, h: seq<real>) {
    b.n == |h| && b.sum == Total(h) && b.sum2 == TotalSquares(h)
  }

  /** A bucket accepts a value exactly while it holds fewer than `BUFFER_SIZE`, and then holds it too. */
  lemma BucketAddHolds(b: Bucket, h: seq<real>, val: real)
    requires BucketHolds(b, h)
    ensures var (b', ok) := BucketAdd(b, val);
      && (ok <==> |h| != BUFFER_SIZE)
      && (ok ==> BucketHolds(b', h + [val]))
      && (!ok ==> b' == b)
  {
    TotalAppend(h, val);
  }

  /** The bucket after adding `vals` in order, refusals included. */
  function BucketAddAll(b: Bucket, vals: seq<real>): Bucket
    decreases |vals|
  {
    if |vals| == 0 then b else BucketAddAll(BucketAdd(b, vals[0]).0, vals[1..])
  }

  lemma {:induction false} BucketAddAllHolds(b: Bucket, h: seq<real>, vals: seq<real>)
    requires BucketHolds(b, h) && |h| + |vals| <= BUFFER_SIZE
    ensures BucketHolds(BucketAddAll(b, vals), h + vals)
    decreases |vals|
  {
    if |vals| == 0 {
      assert h + vals == h;
    } else {
      BucketAddHolds(b, h, vals[0]);
      assert h + vals == (h + [vals[0]]) + vals[1..];
      BucketAddAllHolds(BucketAdd(b, vals[0]).0, h + [vals[0]], vals[1..]);
    }
  }

  /** `lightStatsSafeBucket`: sums kept as integers scaled by `expander`. */
  datatype SafeBucket = SafeBucket(expander: real, expander2: real, n: int, filled: int, sum: int, sum2: int)

  /** `setPrecision`: `expander` is the reciprocal of the precision, a zero precision counting as 1. */
  function SetPrecision(b: SafeBucket, p: real): (r: SafeBucket)
    ensures r.expander * (if p == 0.0 then 1.0 else p) == 1.0
    ensures r.expander2 == r.expander * r.expander
    ensures r.(expander := b.expander, expander2 := b.expander2) == b
  {
    var p' := if p == 0.0 then 1.0 else p;
    var e := 1.0 / p';
    b.(expander := e, expander2 := e * e)
  }

  /** A zero precision is the precision 1. */
  lemma SetPrecisionZero(b: SafeBucket)
    ensures SetPrecision(b, 0.0) == SetPrecision(b, 1.0)
    ensures SetPrecision(b, 0.0).expander == 1.0
  {
  }

  /** `Sumer`: the running sums are plain (`Sum`) or over a window of flushes (`MovingSum`). */
  datatype Sumer = Plain(s: Sums.Sum) | Moving(m: MovingSums.MovingSum)

  ghost predicate SumerValid(s: Sumer) {
    s.Moving? ==> MovingSums.Valid(s.m)
  }

  function SumerAdd(s: Sumer, v: real): (r: Sumer)
    requires SumerValid(s)
    ensures SumerValid(r) && r.Plain? == s.Plain?
  {
    match s
    case Plain(p) => Plain(Sums.Add(p, v).0)
    case Moving(m) => Moving(MovingSums.Add(m, v).0)
  }

  function SumerSum(s: Sumer): real {
    match s
    case Plain(p) => p.sum
    case Moving(m) => m.sum
  }

  datatype LightStats = LightStats(
    precision: real,
    n: Sumer, x: Sumer, x2: Sumer,
    buffers: seq<Bucket>,
    mean: real, var2: real,
    changed: int, updated: int,
    closed: bool)

  ghost predicate Valid(s: LightStats) {
    SumerValid(s.n) && SumerValid(s.x) && SumerValid(s.x2) && |s.buffers| == 2
  }

  /** `NewLightStats`: plain running sums, two empty buckets, nothing changed yet. */
  function NewLightStats(precision: real): (s: LightStats)
    ensures Valid(s) && s.changed == s.updated
  {
    LightStats(precision, Plain(Sums.NewSum()), Plain(Sums.NewSum()), Plain(Sums.NewSum()),
               [Bucket(0, 0.0, 0.0), Bucket(0, 0.0, 0.0)], 0.0, 0.0, 0, 0, false)
  }

  /** `NewMovingLightStats`: running sums over the last `window` flushes. */
  function NewMovingLightStats(precision: real, window: nat): (s: LightStats)
    ensures window > 0 ==> Valid(s)
    ensures s.changed == s.updated
  {
    var m := Moving(MovingSums.NewMovingSum(window));
    LightStats(precision, m, m, m, [Bucket(0, 0.0, 0.0), Bucket(0, 0.0, 0.0)], 0.0, 0.0, 0, 0, false)
  }

  /**
   * `flush` of the bucket `active % 2` at time `now`: a non-empty bucket
   * is added into the running sums and reset; an empty one adds zeros
   * while the count is positive, so a moving window slides.  Returns the
   * bucket's count, as reported to `OnSwap`.
   */
  function Flush(s: LightStats, active: nat, now: int): (r: (LightStats, int))
    requires Valid(s)
    ensures Valid(r.0)
    ensures r.1 == s.buffers[active % 2].n
  {
    var i := active % 2;
    var b := s.buffers[i];
    if b.n > 0 then
      var (n, x, x2) := Load(b);
      var s' := s.(n := SumerAdd(s.n, n as real), x := SumerAdd(s.x, x), x2 := SumerAdd(s.x2, x2), changed := now);
      (s'.(buffers := s.buffers[i := Reset(b)]), n)
    else if SumerSum(s.n) > 0.0 then
      var s' := s.(n := SumerAdd(s.n, 0.0), x := SumerAdd(s.x, 0.0), x2 := SumerAdd(s.x2, 0.0));
      (if SumerSum(s'.n) < 1.0 then s'.(changed := now) else s', b.n)
    else (s, b.n)
  }

  /** Plain running sums over all the values flushed so far, `h`. */
  ghost predicate Holds(s: LightStats, h: seq<real>) {
    && s.n.Plain? && s.x.Plain? && s.x2.Plain?
    && SumerSum(s.n) == |h| as real && SumerSum(s.x) == Total(h) && SumerSum(s.x2) == TotalSquares(h)
  }

  /**
   * Flushing a non-empty bucket holding `hb` adds its count and sums into
   * the running sums, marks the stats changed at `now`, empties that
   * bucket and leaves the other one alone.
   */
  lemma FlushHolds(s: LightStats, h: seq<real>, active: nat, hb: seq<real>, now: int)
    requires Valid(s) && Holds(s, h)
    requires BucketHolds(s.buffers[active % 2], hb) && |hb| > 0
    ensures var (s', n) := Flush(s, active, now);
      && Holds(s', h + hb)
      && n == |hb|
      && BucketHolds(s'.buffers[active % 2], [])
      && s'.buffers[1 - active % 2] == s.buffers[1 - active % 2]
      && s'.changed == now
  {
    TotalConcat(h, hb);
  }

  /**
   * `calculate`: when the sums changed since the last calculation, the
   * mean and variance are recomputed (zero for a count of at most 1) and
   * the calculation is marked current; otherwise nothing changes.
   */
  function Calculate(s: LightStats): (r: LightStats)
    ensures r.updated == r.changed == s.changed
    ensures r.(mean := s.mean, var2 := s.var2, updated := s.updated) == s
    ensures s.changed == s.updated ==> r == s
  {
    if s.changed == s.updated then s
    else
      var n, x, x2 := SumerSum(s.n), SumerSum(s.x), SumerSum(s.x2);
      if n > 1.0 then s.(mean := x / n, var2 := Variance(n, x, x2), updated := s.changed)
      else s.(mean := 0.0, var2 := 0.0, updated := s.changed)
  }

  /** A second `calculate` does nothing. */
  lemma CalculateIdempotent(s: LightStats)
    ensures Calculate(Calculate(s)) == Calculate(s)
  {
  }

  /**
   * After a change, over the flushed values `h`: the mean is their
   * average and `var2` their sample variance; with at most one value both
   * are zero.
   */
  lemma CalculateStatistics(s: LightStats, h: seq<real>)
    requires Holds(s, h) && s.changed != s.updated
    ensures var r := Calculate(s);
      && (|h| > 1 ==>
            && r.mean == Total(h) / (|h| as real)
            && r.var2 == SquaredDeviations(h, r.mean) / (|h| as real - 1.0))
      && (|h| <= 1 ==> r.mean == 0.0 && r.var2 == 0.0)
  {
    if |h| > 1 {
      var mean := Calculate(s).mean;
      assert mean == Total(h) / (|h| as real);
      SampleVariance(h, mean);
      CalculatedVariance(s);
      VarianceOfEqual(SumerSum(s.n), SumerSum(s.x), SumerSum(s.x2), |h| as real, Total(h), TotalSquares(h));
    }
  }

  lemma CalculatedVariance(s: LightStats)
    requires s.changed != s.updated && SumerSum(s.n) > 1.0
    ensures Calculate(s).var2 == Variance(SumerSum(s.n), SumerSum(s.x), SumerSum(s.x2))
  {
  }

  lemma VarianceOfEqual(n: real, x: real, x2: real, n': real, x': real, x2': real)
    requires n > 1.0 && n == n' && x == x' && x2 == x2'
    ensures Variance(n, x, x2) == Variance(n', x', x2')
  {
  }

  /**
   * Adding up to `BUFFER_SIZE` values to fresh stats, flushing at a
   * non-zero time and calculating: the count, the total and their average.
   */
  lemma FlushedMean(vals: seq<real>, now: int)
    requires 1 < |vals| <= BUFFER_SIZE && now != 0
    ensures var s := NewLightStats(0.0);
      var s1 := s.(buffers := s.buffers[0 := BucketAddAll(s.buffers[0], vals)]);
      var r := Calculate(Flush(s1, 0, now).0);
      SumerSum(r.n) == |vals| as real && SumerSum(r.x) == Total(vals) && r.mean == Total(vals) / (|vals| as real)
  {
    var s := NewLightStats(0.0);
    BucketAddAllHolds(s.buffers[0], [], vals);
    assert [] + vals == vals;
    var s1 := s.(buffers := s.buffers[0 := BucketAddAll(s.buffers[0], vals)]);
    assert Holds(s1, []);
    FlushHolds(s1, [], 0, vals, now);
    CalculateStatistics(Flush(s1, 0, now).0, vals);
  }

  /** The values 1, 2, …, n in order, as the test adds them. */
  function Ramp(n: nat): (r: seq<real>)
    ensures |r| == n
  {
    if n == 0 then [] else Ramp(n - 1) + [n as real]
  }

  /** The total of 1 to n is n(n + 1)/2. */
  lemma {:induction false} RampTotal(n: nat)
    ensures Total(Ramp(n)) == (n * (n + 1)) as real / 2.0
  {
    if n > 0 {
      RampTotal(n - 1);
      TotalAppend(Ramp(n - 1), n as real);
      var m := n - 1;
      assert n * (n + 1) == m * (m + 1) + 2 * n;
      assert (n * (n + 1)) as real == (m * (m + 1)) as real + 2.0 * n as real;
    }
  }

  /**
   * The figures the test expects after adding 1 to 10, flushing and
   * calculating (by `FlushedMean`): `N()` 10, `Sum()` 55, `Mean()` 5.5.
   */
  lemma OneToTen()
    ensures var vals := Ramp(10);
      |vals| == 10 && Total(vals) == 55.0 && Total(vals) / (|vals| as real) == 5.5
  {
    RampTotal(10);
  }

  /** `Close`: marks the stats closed; closing again is harmless. */
  function Close(s: LightStats): (r: LightStats)
    ensures r.closed && r.(closed := s.closed) == s
  {
    s.(closed := true)
  }

  lemma CloseIdempotent(s: LightStats)
    ensures Close(Close(s)) == Close(s)
  {
  }
}

=== FILE: moving_sum.dfy ===
/**
 * The monitor's `MovingSum` ring buffer (`ics/monitor/model/moving_sum.go`):
 * the sum of the last `window` values added.  `last` is the slot of the
 * newest value; the first `Add` writes slot 1, not slot 0.
 */
module MovingSums {
  import opened Optional
  import opened Series

  datatype MovingSum = MovingSum(window: int, n: int, values: seq<real>, last: int, sum: real)

  /** `NewMovingSum`: `window` zero slots. */
  function NewMovingSum(window: nat): (m: MovingSum)
    ensures |m.values| == window && m.n == 0 && m.sum == 0.0
  {
    MovingSum(window, 0, seq(window, _ => 0.0), 0, 0.0)
  }

  /**
   * Go's `Add` on any buffer `NewMovingSum` returns: with a zero window
   * `(last + 1) % window` is a division by zero and panics (`None`).
   */
  function TryAdd(m: MovingSum, val: real): (r: Option<(MovingSum, real)>)
    requires Valid(m) || m == NewMovingSum(0)
    ensures r.None? <==> m.window == 0
    ensures r.Some? ==> Valid(r.value.0) && r.value == Add(m, val)
  {
    if m.window == 0 then None else Some(Add(m, val))
  }

  /** The shape `Add` relies on: `% window` needs a positive window. */
  ghost predicate Valid(m: MovingSum) {
    m.window > 0 && |m.values| == m.window && 0 <= m.last < m.window && 0 <= m.n <= m.window
  }

  /** Go's `(last + 1) % window` for a slot index. */
  function Next(last: int, window: int): (i: int)
    requires 0 <= last < window
    ensures i == if last + 1 == window then 0 else last + 1
  {
    (last + 1) % window
  }

  /** Go's `(last + window - k) % window`: `k` slots back from `last`. */
  function Back(last: int, window: int, k: int): (i: int)
    requires 0 <= last < window && 0 <= k <= window
    ensures i == if k <= last then last - k else last - k + window
  {
    (last + window - k) % window
  }

  /** The slot of the value added `k` adds before the newest one. */
  function Slot(m: MovingSum, k: int): (i: nat)
    requires Valid(m) && 0 <= k < m.window
    ensures i < m.window
  {
    Back(m.last, m.window, k)
  }

  /**
   * `m` holds the history `h`: `n` is `min(|h|, window)`, the `n` newest
   * values sit in the slots going backwards from `last`, the other slots
   * are zero, and `sum` is the total of the `n` newest values.
   */
  ghost predicate Holds(m: MovingSum, h: seq<real>) {
    && Valid(m)
    && m.n == Min(|h|, m.window)
    && SlotsHold(m, h)
    && m.sum == Total(h[|h| - m.n..])
  }

  /** `Add`: move `last` forward, replace that slot's value, return the new sum. */
  function Add(m: MovingSum, val: real): (r: (MovingSum, real))
    requires Valid(m)
    ensures Valid(r.0) && r.0.window == m.window
    ensures r.1 == r.0.sum
  {
    var last := Next(m.last, m.window);
    var sum := m.sum - m.values[last] + val;
    var m' := MovingSum(m.window, if m.n < m.window then m.n + 1 else m.n, m.values[last := val], last, sum);
    (m', sum)
  }

  /** `Last`: the value in the newest slot, which is the newest value added. */
  function Last(m: MovingSum): (r: real)
    requires Valid(m)
    ensures forall h :: Holds(m, h) && |h| > 0 ==> r == h[|h| - 1]
  {
    assert Slot(m, 0) == m.last;
    m.values[m.last]
  }

  lemma NewHoldsNothing(window: nat)
    requires window > 0
    ensures Holds(NewMovingSum(window), [])
  {
  }

  lemma SlotStep(m: MovingSum, val: real, k: int)
    requires Valid(m) && 0 <= k < m.window
    ensures Slot(Add(m, val).0, k) == if k == 0 then Next(m.last, m.window) else Slot(m, k - 1)
    ensures Slot(m, m.window - 1) == Next(m.last, m.window)
  {
  }

  /** The newest `n` values in the slots going backwards from `last`, zero elsewhere. */
  ghost predicate SlotsHold(m: MovingSum, h: seq<real>)
    requires Valid(m) && m.n <= |h|
  {
    forall k :: 0 <= k < m.window ==> m.values[Slot(m, k)] == if k < m.n then h[|h| - 1 - k] else 0.0
  }

  lemma AddSlotsHold(m: MovingSum, h: seq<real>, val: real)
    requires Valid(m) && m.n == Min(|h|, m.window) && SlotsHold(m, h)
    ensures Add(m, val).0.n == Min(|h| + 1, m.window)
    ensures SlotsHold(Add(m, val).0, h + [val])
  {
    var m' := Add(m, val).0;
    var h' := h + [val];
    forall k | 0 <= k < m.window
      ensures m'.values[Slot(m', k)] == if k < m'.n then h'[|h'| - 1 - k] else 0.0
    {
      SlotStep(m, val, k);
      if k > 0 {
        SlotStep(m, val, k - 1);
        assert Slot(m, k - 1) != Slot(m, m.window - 1);
        assert m.values[Slot(m, k - 1)] == if k - 1 < m.n then h[|h| - k] else 0.0;
      }
    }
  }

  lemma AddSumHolds(m: MovingSum, h: seq<real>, val: real)
    requires Valid(m) && m.n == Min(|h|, m.window) && SlotsHold(m, h)
    requires m.sum == Total(h[|h| - m.n..])
    ensures Add(m, val).0.sum == Total((h + [val])[|h| + 1 - Add(m, val).0.n..])
  {
    SlotStep(m, val, 0);
    var removed := m.values[Slot(m, m.window - 1)];
    assert removed == if m.window - 1 < m.n then h[|h| - m.window] else 0.0;
    assert Add(m, val).0.sum == m.sum - removed + val;
    var n' := Add(m, val).0.n;
    if m.n < m.window {
      SumGrows(h, m.n, n', val);
    } else {
      SumSlides(h, m.n, n', val);
    }
  }

  /** Appending a value to a history whose last `n` values are summed adds it to the sum of the last `n + 1`. */
  lemma SumGrows(h: seq<real>, n: nat, n': nat, val: real)
    requires n <= |h| && n' == n + 1
    ensures Total((h + [val])[|h| + 1 - n'..]) == Total(h[|h| - n..]) + val
  {
    assert (h + [val])[|h| + 1 - n'..] == h[|h| - n..] + [val];
    TotalAppend(h[|h| - n..], val);
  }

  /** Appending a value while keeping the last `n` drops the oldest of them from the sum. */
  lemma SumSlides(h: seq<real>, n: nat, n': nat, val: real)
    requires 0 < n <= |h| && n' == n
    ensures Total((h + [val])[|h| + 1 - n'..]) == Total(h[|h| - n..]) - h[|h| - n] + val
  {
    var recent := h[|h| - n..];
    assert Total(recent) == recent[0] + Total(recent[1..]);
    assert (h + [val])[|h| + 1 - n..] == recent[1..] + [val];
    TotalAppend(recent[1..], val);
  }

  /** `Add` keeps the ring buffer holding the history, one value longer. */
  lemma AddHolds(m: MovingSum, h: seq<real>, val: real)
    requires Holds(m, h)
    ensures Holds(Add(m, val).0, h + [val])
  {
    AddSlotsHold(m, h, val);
    AddSumHolds(m, h, val);
  }

  /** The buffer after adding `vals` in order. */
  function AddAll(m: MovingSum, vals: seq<real>): (r: MovingSum)
    requires Valid(m)
    ensures Valid(r) && r.window == m.window
    decreases |vals|
  {
    if |vals| == 0 then m else AddAll(Add(m, vals[0]).0, vals[1..])
  }

  lemma {:induction false} AddAllHolds(m: MovingSum, h: seq<real>, vals: seq<real>)
    requires Holds(m, h)
    ensures Holds(AddAll(m, vals), h + vals)
    decreases |vals|
  {
    if |vals| > 0 {
      AddHolds(m, h, vals[0]);
      assert h + vals == (h + [vals[0]]) + vals[1..];
      AddAllHolds(Add(m, vals[0]).0, h + [vals[0]], vals[1..]);
    } else {
      assert h + vals == h;
    }
  }

  /**
   * After adding `vals` to a new buffer: `N()` is `min(|vals|, window)`,
   * `Sum()` the total of the last `N()` values, and `Last()` the newest.
   */
  lemma MovingSumOfHistory(window: nat, vals: seq<real>)
    requires window > 0
    ensures var m := AddAll(NewMovingSum(window), vals);
      && m.n == Min(|vals|, window)
      && m.sum == Total(vals[|vals| - m.n..])
      && (|vals| > 0 ==> Last(m) == vals[|vals| - 1])
  {
    NewHoldsNothing(window);
    AddAllHolds(NewMovingSum(window), [], vals);
    assert [] + vals == vals;
    if |vals| > 0 {
      NewestIsLast(AddAll(NewMovingSum(window), vals), vals);
    }
  }

  /** The newest slot holds the newest value of a non-empty history. */
  lemma NewestIsLast(m: MovingSum, h: seq<real>)
    requires Holds(m, h) && |h| > 0
    ensures Last(m) == h[|h| - 1]
  {
    assert m.values[Slot(m, 0)] == h[|h| - 1];
  }

  /** Adding 1 to 6 with window 5 sums to 20, and the newest is 6. */
  lemma SumOfOneToSix()
    ensures var m := AddAll(NewMovingSum(5), [1.0, 2.0, 3.0, 4.0, 5.0, 6.0]);
      m.sum == 20.0 && Last(m) == 6.0 && m.n == 5
  {
    var vals := [1.0, 2.0, 3.0, 4.0, 5.0, 6.0];
    MovingSumOfHistory(5, vals);
    assert vals[1..] == [2.0, 3.0, 4.0, 5.0, 6.0];
  }

  /** `LastN` as written: the clamped argument is not used, `N()` is. */
  function LastN(m: MovingSum, n: int): (r: real)
    requires Valid(m)
    ensures m.n == 0 || m.n == m.window ==> r == Last(m)
  {
    var n' := if n > m.n then m.n else n;
    m.values[Back(m.last, m.window, m.n)]
  }

  /** `LastN` with its clamped argument used: the value added `n` adds before the newest. */
  function LastNCorrected(m: MovingSum, n: int): (r: real)
    requires Valid(m) && n >= 0
    ensures n == 0 || m.n == 0 ==> r == Last(m)
  {
    var n' := if n > m.n then m.n else n;
    m.values[Back(m.last, m.window, n')]
  }

  /** With window 5 and 1 to 5 added, `LastN(1)` and `LastN(3)` both give the newest value, 5. */
  lemma LastNIgnoresArgument()
    ensures var m := AddAll(NewMovingSum(5), [1.0, 2.0, 3.0, 4.0, 5.0]);
      LastN(m, 1) == 5.0 && LastN(m, 3) == 5.0 && LastNCorrected(m, 1) == 4.0
  {
    var vals := [1.0, 2.0, 3.0, 4.0, 5.0];
    var m := AddAll(NewMovingSum(5), vals);
    NewHoldsNothing(5);
    AddAllHolds(NewMovingSum(5), [], vals);
    assert [] + vals == vals;
    assert m.values[Slot(m, 0)] == 5.0;
    assert m.values[Slot(m, 1)] == 4.0;
  }

  /** For `n` below `N()`, the corrected `LastN(n)` is the value added `n` adds before the newest. */
  lemma LastNCorrectedRecent(m: MovingSum, h: seq<real>, n: int)
    requires Holds(m, h) && 0 <= n < m.n
    ensures LastNCorrected(m, n) == h[|h| - 1 - n]
  {
    assert m.values[Slot(m, n)] == h[|h| - 1 - n];
  }
}

=== FILE: multi_io.dfy ===
/**
 * The `ics` proxy's fan-out reader and writer.  A `multiWriter` writes the
 * same bytes to every writer in parallel; a `multiReader` reads from every
 * reader in parallel and keeps the first one that answers without error.
 * The goroutines are replaced by their results: `results[i]` is what the
 * i-th reader or writer returned, and `arrival` is the order in which the
 * results reached the collecting loop.  Writers and readers are opaque
 * identities; bytes are not modelled, only which buffer ends up in `p`.
 */
module MultiIo {
  import opened Optional

  datatype IoError = EOF | ErrShortWrite | ErrWriteToAny | ErrOther(code: int)

  /** The `(n, err)` pair an `io.Reader` or `io.Writer` returned. */
  datatype IoResult = IoResult(n: int, err: Option<IoError>)

  /** The indices `0 .. k-1` in order: the order an index loop visits them. */
  function Indices(k: nat): (s: seq<nat>)
    ensures |s| == k && forall i :: 0 <= i < k ==> s[i] == i
  {
    seq(k, i => i)
  }

  /** `arrival` delivers each of the `k` results exactly once. */
  ghost predicate IsArrival(arrival: seq<nat>, k: nat) {
    multiset(arrival) == multiset(Indices(k))
  }

  lemma ArrivalInRange(arrival: seq<nat>, k: nat)
    requires IsArrival(arrival, k)
    ensures |arrival| == k
    ensures forall i :: 0 <= i < |arrival| ==> arrival[i] < k
    ensures forall i :: 0 <= i < k ==> i in arrival
  {
    assert |arrival| == |multiset(arrival)| == |multiset(Indices(k))| == k;
    forall i | 0 <= i < |arrival|
      ensures arrival[i] < k
    {
      assert arrival[i] in multiset(Indices(k));
    }
    forall i | 0 <= i < k
      ensures i in arrival
    {
      assert Indices(k)[i] == i;
      assert i in multiset(Indices(k));
    }
  }

  /** The identity order is an arrival order. */
  lemma IndicesIsArrival(k: nat)
    ensures IsArrival(Indices(k), k)
  {
  }

  // ---- writing --------------------------------------------------------------

  /** A write fails when it errs, or when it is short (`io.ErrShortWrite`). */
  predicate WriteFails(r: IoResult, len: int) {
    r.err != None || r.n != len
  }

  /** The writer list and the reply of a `Write`; a `None` writer is a nil entry. */
  datatype WriteOutcome<W> = WriteOutcome(n: int, err: Option<IoError>, writers: seq<Option<W>>)

  /** `MultiWriter`: a copy of the writers the caller passed. */
  function NewMultiWriter<W>(ws: seq<W>): (r: seq<Option<W>>)
    ensures |r| == |ws| && forall i :: 0 <= i < |ws| ==> r[i] == Some(ws[i])
  {
    seq(|ws|, i requires 0 <= i < |ws| => Some(ws[i]))
  }

  /** The running state of the collecting loop. */
  datatype Collect<W> = Collect(writers: seq<Option<W>>, succeeded: int, n: int, err: Option<IoError>)

  /**
   * The collecting loop from the `k`-th arrival on: a failed (or short)
   * write nils its writer and lowers `succeeded`; a successful one sets
   * `(n, err)`.
   */
  function CollectWrites<W>(c: Collect<W>, results: seq<IoResult>, len: int, arrival: seq<nat>, k: nat): (r: Collect<W>)
    requires |c.writers| == |results|
    requires forall i :: 0 <= i < |arrival| ==> arrival[i] < |results|
    ensures |r.writers| == |c.writers|
    decreases |arrival| - k
  {
    if k >= |arrival| then c
    else
      var j := arrival[k];
      var ret := results[j];
      var c1 :=
        if !WriteFails(ret, len) then c.(n := ret.n, err := None)
        else c.(succeeded := c.succeeded - 1, writers := c.writers[j := None]);
      CollectWrites(c1, results, len, arrival, k + 1)
  }

  /** The non-nil writers, in order. */
  function Compact<W>(ws: seq<Option<W>>): (r: seq<Option<W>>)
    ensures forall i :: 0 <= i < |r| ==> r[i] != None
    ensures |r| <= |ws|
  {
    if |ws| == 0 then [] else (if ws[0] != None then [ws[0]] else []) + Compact(ws[1..])
  }

  /**
   * `multiWriter.Write`: one writer passes straight through; otherwise the
   * collected results decide: no success is `ErrWriteToAny`, some failures
   * compact the list to the survivors.
   */
  function Write<W>(writers: seq<Option<W>>, results: seq<IoResult>, len: int, arrival: seq<nat>): (r: WriteOutcome<W>)
    requires |results| == |writers|
    requires IsArrival(arrival, |writers|)
    ensures |writers| == 1 ==> r == WriteOutcome(results[0].n, results[0].err, writers)
    ensures |writers| != 1 ==> (r.err == Some(ErrWriteToAny) <==> Failures(results, len, Indices(|writers|)) == |writers|)
    ensures |writers| != 1 && r.err != Some(ErrWriteToAny) ==> r.err == None && r.n == len
    ensures |r.writers| <= |writers|
  {
    if |writers| == 1 then WriteOutcome(results[0].n, results[0].err, writers)
    else
      ArrivalInRange(arrival, |writers|);
      CollectWritesSpec(Collect(writers, |writers|, 0, None), results, len, arrival, 0);
      FailuresPermutation(results, len, arrival, Indices(|writers|));
      assert arrival[0..] == arrival;
      var c := CollectWrites(Collect(writers, |writers|, 0, None), results, len, arrival, 0);
      if c.succeeded == 0 then WriteOutcome(0, Some(ErrWriteToAny), c.writers)
      else if c.succeeded < |writers| then WriteOutcome(c.n, c.err, Compact(c.writers))
      else WriteOutcome(c.n, c.err, c.writers)
  }

  /** The writers with every failed one set to nil: what the loop leaves, whatever the arrival order. */
  function Nulled<W>(writers: seq<Option<W>>, results: seq<IoResult>, len: int): (r: seq<Option<W>>)
    requires |results| == |writers|
    ensures |r| == |writers|
    ensures forall i :: 0 <= i < |r| ==> r[i] == if WriteFails(results[i], len) then None else writers[i]
  {
    seq(|writers|, i requires 0 <= i < |writers| => if WriteFails(results[i], len) then None else writers[i])
  }

  /** The number of failed writes among the given arrivals. */
  function Failures(results: seq<IoResult>, len: int, arrival: seq<nat>): (f: nat)
    requires forall i :: 0 <= i < |arrival| ==> arrival[i] < |results|
    ensures f <= |arrival|
  {
    if |arrival| == 0 then 0
    else (if WriteFails(results[arrival[0]], len) then 1 else 0) + Failures(results, len, arrival[1..])
  }

  /**
   * What the collecting loop computes, stated without the order: after the
   * arrivals from `k` on, exactly the writers that failed among them are
   * nil, `succeeded` dropped by their number, and `(n, err)` is
   * `(len, nil)` as soon as any of them succeeded.
   */
  lemma {:induction false} CollectWritesSpec<W>(c: Collect<W>, results: seq<IoResult>, len: int, arrival: seq<nat>, k: nat)
    requires |c.writers| == |results|
    requires forall i :: 0 <= i < |arrival| ==> arrival[i] < |results|
    requires k <= |arrival|
    requires c.err == None && (c.n == 0 || c.n == len)
    ensures var r := CollectWrites(c, results, len, arrival, k);
      && r.succeeded == c.succeeded - Failures(results, len, arrival[k..])
      && (forall i :: 0 <= i < |results| ==>
            r.writers[i] == if i in arrival[k..] && WriteFails(results[i], len) then None else c.writers[i])
      && r.err == None
      && (r.n == if Failures(results, len, arrival[k..]) < |arrival| - k then len else c.n)
    decreases |arrival| - k
  {
    if k < |arrival| {
      var j := arrival[k];
      var ret := results[j];
      var c1 :=
        if !WriteFails(ret, len) then c.(n := ret.n, err := None)
        else c.(succeeded := c.succeeded - 1, writers := c.writers[j := None]);
      CollectWritesSpec(c1, results, len, arrival, k + 1);
      assert arrival[k..] == [j] + arrival[k + 1..];
      assert Failures(results, len, arrival[k..]) ==
        (if WriteFails(ret, len) then 1 else 0) + Failures(results, len, arrival[k + 1..]);
    }
  }

  /** Failures counted over an arrival order are the failures among all writers. */
  lemma {:induction false} FailuresPermutation(results: seq<IoResult>, len: int, a: seq<nat>, b: seq<nat>)
    requires forall i :: 0 <= i < |a| ==> a[i] < |results|
    requires forall i :: 0 <= i < |b| ==> b[i] < |results|
    requires multiset(a) == multiset(b)
    ensures Failures(results, len, a) == Failures(results, len, b)
    decreases |a|
  {
    if |a| > 0 {
      var i := IndexOf(b, a[0]);
      var b' := b[..i] + b[i + 1..];
      MultisetTail(a, b, i);
      RemoveInRange(b, i, |results|, b');
      FailuresPermutation(results, len, a[1..], b');
      FailuresRemove(results, len, b, i);
    }
  }

  /** A position of `x` in `b`. */
  lemma IndexOf(b: seq<nat>, x: nat) returns (i: nat)
    requires x in multiset(b)
    ensures i < |b| && b[i] == x
  {
    assert x in b;
    i :| 0 <= i < |b| && b[i] == x;
  }

  /** Equal multisets stay equal when the head of one and a copy of it in the other are taken out. */
  lemma MultisetTail(a: seq<nat>, b: seq<nat>, i: nat)
    requires |a| > 0 && i < |b| && b[i] == a[0] && multiset(a) == multiset(b)
    ensures multiset(a[1..]) == multiset(b[..i] + b[i + 1..])
  {
    MultisetRemove(b, i);
    assert a == [a[0]] + a[1..];
    assert multiset(a) == multiset{a[0]} + multiset(a[1..]);
  }

  /** Taking an arrival out keeps the others in range. */
  lemma RemoveInRange(b: seq<nat>, i: nat, k: nat, c: seq<nat>)
    requires i < |b| && forall j :: 0 <= j < |b| ==> b[j] < k
    requires c == b[..i] + b[i + 1..]
    ensures forall j :: 0 <= j < |c| ==> c[j] < k
  {
    forall j | 0 <= j < |c|
      ensures c[j] < k
    {
      if j < i {
        assert c[j] == b[j];
      } else {
        assert c[j] == b[j + 1];
      }
    }
  }

  lemma MultisetRemove<T>(s: seq<T>, i: nat)
    requires i < |s|
    ensures multiset(s[..i] + s[i + 1..]) == multiset(s) - multiset{s[i]}
  {
    assert s == s[..i] + [s[i]] + s[i + 1..];
  }

  /** Counting failures with one arrival taken out. */
  lemma {:induction false} FailuresRemove(results: seq<IoResult>, len: int, b: seq<nat>, i: nat)
    requires forall k :: 0 <= k < |b| ==> b[k] < |results|
    requires i < |b|
    ensures Failures(results, len, b) ==
      (if WriteFails(results[b[i]], len) then 1 else 0) + Failures(results, len, b[..i] + b[i + 1..])
    decreases i
  {
    if i > 0 {
      FailuresRemove(results, len, b[1..], i - 1);
      assert b[1..][..i - 1] + b[1..][i..] == (b[..i] + b[i + 1..])[1..];
      assert (b[..i] + b[i + 1..])[0] == b[0];
    } else {
      assert b[..i] + b[i + 1..] == b[1..];
    }
  }

  /**
   * The outcome of `Write` does not depend on the order in which the
   * writers' results arrive: it is that of the index-ordered loop.
   */
  lemma WriteOrderIndependent<W>(writers: seq<Option<W>>, results: seq<IoResult>, len: int, arrival: seq<nat>)
    requires |results| == |writers|
    requires IsArrival(arrival, |writers|)
    ensures IsArrival(Indices(|writers|), |writers|)
    ensures Write(writers, results, len, arrival) == Write(writers, results, len, Indices(|writers|))
  {
    var idx := Indices(|writers|);
    ArrivalInRange(arrival, |writers|);
    ArrivalInRange(idx, |writers|);
    if |writers| != 1 {
      var c := Collect(writers, |writers|, 0, None);
      CollectWritesSpec(c, results, len, arrival, 0);
      CollectWritesSpec(c, results, len, idx, 0);
      FailuresPermutation(results, len, arrival, idx);
      assert arrival[0..] == arrival && idx[0..] == idx;
      var r1 := CollectWrites(c, results, len, arrival, 0);
      var r2 := CollectWrites(c, results, len, idx, 0);
      assert r1.writers == r2.writers;
    }
  }

  /**
   * The rules of `Write` with two or more writers: a short write counts as
   * a failure; every failure nils its writer; no success at all is
   * `(0, ErrWriteToAny)`; otherwise the reply is `(len(p), nil)`, and the
   * list is compacted to the survivors when some writer failed.
   */
  lemma WriteRules<W>(writers: seq<Option<W>>, results: seq<IoResult>, len: int, arrival: seq<nat>)
    requires |results| == |writers| && |writers| != 1
    requires IsArrival(arrival, |writers|)
    ensures var r := Write(writers, results, len, arrival);
      var f := Failures(results, len, Indices(|writers|));
      && (f == |writers| ==> r == WriteOutcome(0, Some(ErrWriteToAny), Nulled(writers, results, len)))
      && (0 < f < |writers| ==> r == WriteOutcome(len, None, Compact(Nulled(writers, results, len))))
      && (f == 0 < |writers| ==> r == WriteOutcome(len, None, writers))
  {
    WriteOrderIndependent(writers, results, len, arrival);
    var idx := Indices(|writers|);
    ArrivalInRange(idx, |writers|);
    var c := Collect(writers, |writers|, 0, None);
    CollectWritesSpec(c, results, len, idx, 0);
    assert idx[0..] == idx;
    var r := CollectWrites(c, results, len, idx, 0);
    assert r.writers == Nulled(writers, results, len);
    if Failures(results, len, idx) == 0 {
      assert forall i :: 0 <= i < |writers| ==> !WriteFails(results[i], len) by {
        forall i | 0 <= i < |writers|
          ensures !WriteFails(results[i], len)
        {
          FailuresRemove(results, len, idx, i);
        }
      }
      assert r.writers == writers;
    }
  }

  /** A single writer passes its result through untouched, short or not. */
  lemma WriteSingle<W>(w: W, result: IoResult, len: int)
    ensures Write([Some(w)], [result], len, [0]) == WriteOutcome(result.n, result.err, [Some(w)])
  {
    assert multiset([0 as nat]) == multiset(Indices(1));
  }

  /** The survivors a partial failure keeps are the writers that succeeded, in their original order. */
  lemma {:induction false} CompactNulled<W>(writers: seq<W>, results: seq<IoResult>, len: int)
    requires |results| == |writers|
    ensures Compact(Nulled(NewMultiWriter(writers), results, len)) == Survivors(writers, results, len)
    decreases |writers|
  {
    if |writers| > 0 {
      CompactNulled(writers[1..], results[1..], len);
      assert Nulled(NewMultiWriter(writers), results, len)[1..] == Nulled(NewMultiWriter(writers[1..]), results[1..], len);
    }
  }

  /** The writers whose writes succeeded, in order. */
  function Survivors<W>(writers: seq<W>, results: seq<IoResult>, len: int): (r: seq<Option<W>>)
    requires |results| == |writers|
    decreases |writers|
  {
    if |writers| == 0 then []
    else (if WriteFails(results[0], len) then [] else [Some(writers[0])]) + Survivors(writers[1..], results[1..], len)
  }

  // ---- reading --------------------------------------------------------------

  /** A `multiReader`: its own copy of the readers and one `readings` flag per reader. */
  datatype MultiReaderState<R> = MultiReaderState(readers: seq<R>, readings: seq<bool>)

  /** `MultiReader`: a copy of the readers the caller passed, with no reader marked as reading. */
  function NewMultiReader<R>(rs: seq<R>): (r: MultiReaderState<R>)
    ensures r.readers == rs
    ensures |r.readings| == |rs| && forall i :: 0 <= i < |rs| ==> !r.readings[i]
  {
    MultiReaderState(rs, seq(|rs|, i => false))
  }

  /** Where the bytes in the caller's `p` come from after a `Read`. */
  datatype Filled = Untouched | Direct | CopiedFrom(index: nat)

  datatype ReadOutcome<R> = ReadOutcome(n: int, err: Option<IoError>, readers: seq<R>, p: Filled)

  /**
   * The `ics` collecting loop from the `k`-th arrival on: the first result
   * without error narrows the list to its reader and copies its buffer;
   * if none comes, the last result is returned and, with two or more
   * readers, the last reader's buffer is copied.
   */
  function ReadLoop<R>(readers: seq<R>, results: seq<IoResult>, arrival: seq<nat>, k: nat, n: int, err: Option<IoError>): (r: ReadOutcome<R>)
    requires |results| == |readers|
    requires forall i :: 0 <= i < |arrival| ==> arrival[i] < |readers|
    decreases |arrival| - k
  {
    if k >= |arrival| then
      ReadOutcome(n, err, readers, if |readers| > 1 then CopiedFrom(|readers| - 1) else Untouched)
    else
      var j := arrival[k];
      if results[j].err == None then ReadOutcome(results[j].n, None, readers[j..j + 1], CopiedFrom(j))
      else ReadLoop(readers, results, arrival, k + 1, results[j].n, results[j].err)
  }

  /** `multiReader.Read`: one reader passes straight through, otherwise the first success wins. */
  function Read<R>(readers: seq<R>, results: seq<IoResult>, arrival: seq<nat>): (r: ReadOutcome<R>)
    requires |results| == |readers|
    requires IsArrival(arrival, |readers|)
    ensures |readers| == 1 ==> r == ReadOutcome(results[0].n, results[0].err, readers, Direct)
    ensures |readers| > 1 ==> (r.err == None <==> exists i :: 0 <= i < |readers| && results[i].err == None)
    ensures |readers| > 1 && r.err == None ==>
      r.p.CopiedFrom? && r.p.index < |readers| && results[r.p.index].err == None && r.readers == [readers[r.p.index]]
    ensures |readers| > 1 && r.err != None ==> r.readers == readers && r.p == CopiedFrom(|readers| - 1)
  {
    if |readers| == 1 then ReadOutcome(results[0].n, results[0].err, readers, Direct)
    else if |readers| == 0 then
      ReadLoop(readers, results, arrival, 0, 0, None)
    else
      ArrivalInRange(arrival, |readers|);
      ReadLoopSpec(readers, results, arrival, 0, 0, None);
      FirstOkIsSome(results, arrival);
      ReadLoop(readers, results, arrival, 0, 0, None)
  }

  /** Over a full arrival order, some result without error arrives exactly when some reader succeeded. */
  lemma FirstOkIsSome(results: seq<IoResult>, arrival: seq<nat>)
    requires IsArrival(arrival, |results|)
    requires forall i :: 0 <= i < |arrival| ==> arrival[i] < |results|
    ensures FirstOk(results, arrival, 0) != None <==> exists i :: 0 <= i < |results| && results[i].err == None
  {
    ArrivalInRange(arrival, |results|);
    if FirstOk(results, arrival, 0) == None {
      forall i | 0 <= i < |results|
        ensures results[i].err != None
      {
        assert i in arrival;
        var m :| 0 <= m < |arrival| && arrival[m] == i;
      }
    }
  }

  /** The position in `arrival` (from `k` on) of the first result without error. */
  function FirstOk(results: seq<IoResult>, arrival: seq<nat>, k: nat): (f: Option<nat>)
    requires forall i :: 0 <= i < |arrival| ==> arrival[i] < |results|
    ensures f != None ==>
      && k <= f.value < |arrival| && results[arrival[f.value]].err == None
      && forall i :: k <= i < f.value ==> results[arrival[i]].err != None
    ensures f == None ==> forall i :: k <= i < |arrival| ==> results[arrival[i]].err != None
    decreases |arrival| - k
  {
    if k >= |arrival| then None
    else if results[arrival[k]].err == None then Some(k)
    else FirstOk(results, arrival, k + 1)
  }

  /**
   * With two or more readers, the first result (in arrival order) without
   * error narrows the list to its reader and its buffer fills `p`; when
   * every read fails, the list stays and the last arrival's result is
   * returned with the last reader's buffer in `p`.
   */
  lemma {:induction false} ReadLoopSpec<R>(readers: seq<R>, results: seq<IoResult>, arrival: seq<nat>, k: nat, n: int, err: Option<IoError>)
    requires |results| == |readers| && |readers| > 1
    requires forall i :: 0 <= i < |arrival| ==> arrival[i] < |readers|
    requires k < |arrival|
    ensures var r := ReadLoop(readers, results, arrival, k, n, err);
      var f := FirstOk(results, arrival, k);
      && (f != None ==>
            var j := arrival[f.value];
            r == ReadOutcome(results[j].n, None, [readers[j]], CopiedFrom(j)))
      && (f == None ==>
            var j := arrival[|arrival| - 1];
            r == ReadOutcome(results[j].n, results[j].err, readers, CopiedFrom(|readers| - 1)))
    decreases |arrival| - k
  {
    if results[arrival[k]].err != None && k + 1 < |arrival| {
      ReadLoopSpec(readers, results, arrival, k + 1, results[arrival[k]].n, results[arrival[k]].err);
    }
  }

  /** A single reader passes its result through into `p` directly. */
  lemma ReadSingle<R>(rd: R, result: IoResult)
    ensures Read([rd], [result], [0]) == ReadOutcome(result.n, result.err, [rd], Direct)
  {
    assert multiset([0 as nat]) == multiset(Indices(1));
  }
}

=== FILE: option.dfy ===
/** Optional values: Go's nil pointers and Python's None. */
module Optional {

  datatype Option<+T> = None | Some(value: T) {

    /** The wrapped value, or `default` when there is none. */
    function GetOr(default: T): T {
      match this
      case Some(v) => v
      case None => default
    }
  }
}

=== FILE: pending_queue.dfy ===
/**
 * The queue of pending callers both schedulers keep: callers that cannot
 * proceed yet are appended at the tail (`pendLocked`, or `append` in the
 * `watchdog` variant) and dispatched from the head (`tbsettleLocked`, or
 * the drain loop of the `watchdog` proxy handler).
 */
module PendingQueue {
  import opened Optional

  /** Appending a caller at the tail. */
  function Push<T>(q: seq<T>, x: T): (r: seq<T>)
    ensures |r| == |q| + 1 && r[|q|] == x
    ensures r[..|q|] == q
  {
    q + [x]
  }

  /** Taking the head caller, or nothing from an empty queue (the nil `func()`). */
  function Pop<T>(q: seq<T>): (r: (seq<T>, Option<T>))
    ensures |q| == 0 ==> r == (q, None)
    ensures |q| > 0 ==> r.1 == Some(q[0]) && [q[0]] + r.0 == q
  {
    if |q| == 0 then (q, None) else (q[1..], Some(q[0]))
  }

  /** Appends the callers in order. */
  function PushAll<T>(q: seq<T>, xs: seq<T>): (r: seq<T>)
    ensures |r| == |q| + |xs|
    ensures r[..|q|] == q
    decreases |xs|
  {
    if |xs| == 0 then q else PushAll(Push(q, xs[0]), xs[1..])
  }

  /** Pops `k` callers, returning the remaining queue and the callers in dispatch order. */
  function PopN<T>(q: seq<T>, k: nat): (r: (seq<T>, seq<T>))
    ensures |r.1| == if k <= |q| then k else |q|
    ensures k >= |q| ==> r.0 == []
    decreases k
  {
    if k == 0 then (q, [])
    else
      var (q1, x) := Pop(q);
      var (q2, xs) := PopN(q1, k - 1);
      (q2, (if x.Some? then [x.value] else []) + xs)
  }

  /** Pushing many is one concatenation. */
  lemma {:induction false} PushAllAppends<T>(q: seq<T>, xs: seq<T>)
    ensures PushAll(q, xs) == q + xs
    decreases |xs|
  {
    if |xs| > 0 {
      PushAllAppends(q + [xs[0]], xs[1..]);
      assert q + [xs[0]] + xs[1..] == q + xs;
    }
  }

  /** Popping `k <= |q|` callers yields exactly the first `k`, and leaves the rest. */
  lemma {:induction false} PopNTakesPrefix<T>(q: seq<T>, k: nat)
    requires k <= |q|
    ensures PopN(q, k) == (q[k..], q[..k])
    decreases k
  {
    if k > 0 {
      PopNTakesPrefix(q[1..], k - 1);
      assert q[1..][k - 1..] == q[k..];
      assert [q[0]] + q[1..][..k - 1] == q[..k];
    }
  }

  /**
   * The queue is first-in first-out: whatever was queued is dispatched in
   * the order it was queued, after anything already waiting.
   */
  lemma Fifo<T>(q: seq<T>, xs: seq<T>)
    ensures PopN(PushAll(q, xs), |q| + |xs|) == ([], q + xs)
  {
    PushAllAppends(q, xs);
    PopNTakesPrefix(q + xs, |q| + |xs|);
    assert (q + xs)[..|q| + |xs|] == q + xs;
  }
}

=== FILE: proxy_server.dfy ===
/**
 * The `ics` proxy server's bookkeeping: the two-slot remote table (a primary
 * and a secondary forwarding target addressed through two indices), the
 * listen/close guards, and the request/response counters driven by the
 * 4-byte package classifier over the forwarding buffers.  Sockets, accept loops and the connection
 * forwarding are not part of this model; address resolution and the outcome
 * of opening or closing the listener are inputs.
 */
module ProxyServer {
  import opened Optional
  import opened GoInt

  const REMOTE_TOTAL: nat := 2

  /** A resolved TCP address (`*net.TCPAddr`). */
  datatype TcpAddr = TcpAddr(host: string, port: int)

  datatype ProxyError = ErrResolve | ErrListen | ErrServerListening | ErrServerClosed | ErrClose

  datatype Server = Server(
    remoteIds: seq<int>,              // slot -> environment id (0: none)
    remotes: seq<Option<TcpAddr>>,    // slot -> forwarding address (None: nil)
    primary: nat,                     // slot index of the primary target
    secondary: nat,                   // slot index of the secondary target
    listening: bool,                  // a listener has been opened
    listenerClosed: bool,
    done: bool,                       // the done channel has been closed
    feedClosed: bool,                 // the serving feed has been closed
    activeConns: set<nat>,
    requested: int,                   // int32 counters, updated atomically in Go
    served: int,
    serving: int
  )

  /** Shape facts every server satisfies: two slots, indices into them, int32 counters. */
  ghost predicate Valid(s: Server) {
    && |s.remoteIds| == REMOTE_TOTAL && |s.remotes| == REMOTE_TOTAL
    && s.primary < REMOTE_TOTAL && s.secondary < REMOTE_TOTAL
    && IsInt32(s.requested) && IsInt32(s.served) && IsInt32(s.serving)
  }

  /** After `Listen` the two indices name different slots. */
  ghost predicate Distinct(s: Server) {
    Valid(s) && s.primary != s.secondary
  }

  /** `NewServer`: both indices are the zero value until `Listen` sets them. */
  function NewServer(): (s: Server)
    ensures Valid(s) && !s.listening && !s.done
    ensures s.requested == 0 && s.served == 0 && s.serving == 0
  {
    Server([0, 0], [None, None], 0, 0, false, false, false, false, {}, 0, 0, 0)
  }

  /**
   * `Listen`: fails if the local address does not resolve; when a listener
   * exists it returns `ErrServerListening` and changes nothing; otherwise it
   * resets the indices to (0, 1) and opens the listener (which may fail).
   */
  function Listen(s: Server, localResolved: bool, listenOk: bool): (r: (Server, Option<ProxyError>))
    requires Valid(s)
    ensures Valid(r.0)
    ensures !localResolved ==> r == (s, Some(ErrResolve))
    ensures localResolved && s.listening ==> r == (s, Some(ErrServerListening))
    ensures localResolved && !s.listening ==>
      && r.0 == s.(primary := 0, secondary := 1, listening := listenOk)
      && (r.1 == None <==> listenOk)
    ensures r.1 == None ==> Distinct(r.0) && r.0.listening
  {
    if !localResolved then (s, Some(ErrResolve))
    else if s.listening then (s, Some(ErrServerListening))
    else (s.(primary := 0, secondary := 1, listening := listenOk), if listenOk then None else Some(ErrListen))
  }

  /** How far `ListenAndProxy` got before its accept loop. */
  datatype ProxyStart = ProxyStart(server: Server, err: Option<ProxyError>, proxied: bool)

  /**
   * `ListenAndProxy` up to its accept loop: listen, point the primary slot at
   * the first environment, and fire the `onProxy` callback with its id.  A
   * failed listen returns at once; a failed remote resolution returns through
   * the deferred `Close`.
   */
  function ListenAndProxy(s: Server, id: int, localResolved: bool, listenOk: bool, remote: Option<TcpAddr>): (r: ProxyStart)
    requires Valid(s)
    ensures Valid(r.server)
    ensures r.proxied <==> localResolved && !s.listening && listenOk && remote != None
    ensures r.proxied ==>
      && r.err == None && Distinct(r.server) && r.server.listening
      && r.server.remoteIds[r.server.primary] == id && r.server.remotes[r.server.primary] == remote
      && r.server.remoteIds[r.server.secondary] == s.remoteIds[1] && r.server.remotes[r.server.secondary] == s.remotes[1]
    ensures localResolved && s.listening ==> r == ProxyStart(s, Some(ErrServerListening), false)
    ensures !r.proxied ==> r.err != None
  {
    var (s1, e1) := Listen(s, localResolved, listenOk);
    if e1 != None then ProxyStart(s1, e1, false)
    else
      var (s2, e2) := SetRemoteAddr(s1, id, remote);
      if e2 != None then ProxyStart(Close(s2, None).0, e2, false)
      else ProxyStart(s2, None, true)
  }

  /** `setRemoteAddr` (`Swap`): writes the primary slot only. */
  function SetRemoteAddr(s: Server, id: int, resolved: Option<TcpAddr>): (r: (Server, Option<ProxyError>))
    requires Valid(s)
    ensures Valid(r.0)
    ensures resolved == None ==> r == (s, Some(ErrResolve))
    ensures resolved != None ==>
      && r.1 == None
      && r.0.remoteIds[s.primary] == id && r.0.remotes[s.primary] == resolved
      && r.0 == s.(remoteIds := r.0.remoteIds, remotes := r.0.remotes)
    ensures forall i :: 0 <= i < REMOTE_TOTAL && i != s.primary ==>
      r.0.remoteIds[i] == s.remoteIds[i] && r.0.remotes[i] == s.remotes[i]
  {
    match resolved
    case None => (s, Some(ErrResolve))
    case Some(_) => (s.(remoteIds := s.remoteIds[s.primary := id], remotes := s.remotes[s.primary := resolved]), None)
  }

  /** `setShareAddr` (`Share`): writes the secondary slot only. */
  function SetShareAddr(s: Server, id: int, resolved: Option<TcpAddr>): (r: (Server, Option<ProxyError>))
    requires Valid(s)
    ensures Valid(r.0)
    ensures resolved == None ==> r == (s, Some(ErrResolve))
    ensures resolved != None ==>
      && r.1 == None
      && r.0.remoteIds[s.secondary] == id && r.0.remotes[s.secondary] == resolved
      && r.0 == s.(remoteIds := r.0.remoteIds, remotes := r.0.remotes)
    ensures forall i :: 0 <= i < REMOTE_TOTAL && i != s.secondary ==>
      r.0.remoteIds[i] == s.remoteIds[i] && r.0.remotes[i] == s.remotes[i]
  {
    match resolved
    case None => (s, Some(ErrResolve))
    case Some(_) => (s.(remoteIds := s.remoteIds[s.secondary := id], remotes := s.remotes[s.secondary := resolved]), None)
  }

  /** `Unshare`: clears the secondary slot and nothing else. */
  function Unshare(s: Server): (r: Server)
    requires Valid(s)
    ensures Valid(r)
    ensures r.remoteIds[s.secondary] == 0 && r.remotes[s.secondary] == None
    ensures forall i :: 0 <= i < REMOTE_TOTAL && i != s.secondary ==>
      r.remoteIds[i] == s.remoteIds[i] && r.remotes[i] == s.remotes[i]
    ensures r == s.(remoteIds := r.remoteIds, remotes := r.remotes)
  {
    s.(remoteIds := s.remoteIds[s.secondary := 0], remotes := s.remotes[s.secondary := None])
  }

  /** `Promote`: clears the primary slot and exchanges the two indices. */
  function Promote(s: Server): (r: Server)
    requires Valid(s)
    ensures Valid(r)
    ensures r.primary == s.secondary && r.secondary == s.primary
    ensures r.remoteIds[s.primary] == 0 && r.remotes[s.primary] == None
    ensures forall i :: 0 <= i < REMOTE_TOTAL && i != s.primary ==>
      r.remoteIds[i] == s.remoteIds[i] && r.remotes[i] == s.remotes[i]
  {
    s.(remoteIds := s.remoteIds[s.primary := 0], remotes := s.remotes[s.primary := None],
       primary := s.secondary, secondary := s.primary)
  }

  /** The forwarding targets `getRemoteAddr` reports: ids and addresses, aligned. */
  datatype Targets = Targets(ids: seq<int>, addrs: seq<Option<TcpAddr>>)

  /** `getRemoteAddr`: the primary alone when the secondary address is nil, else both. */
  function GetRemoteAddr(s: Server): (t: Targets)
    requires Valid(s)
    ensures |t.ids| == |t.addrs|
    ensures 1 <= |t.ids| <= 2
    ensures t.ids[0] == s.remoteIds[s.primary] && t.addrs[0] == s.remotes[s.primary]
    ensures |t.ids| == 1 <==> s.remotes[s.secondary] == None
    ensures |t.ids| == 2 ==> t.ids[1] == s.remoteIds[s.secondary] && t.addrs[1] == s.remotes[s.secondary]
  {
    if s.remotes[s.secondary] == None then
      Targets([s.remoteIds[s.primary]], [s.remotes[s.primary]])
    else
      Targets([s.remoteIds[s.primary], s.remoteIds[s.secondary]], [s.remotes[s.primary], s.remotes[s.secondary]])
  }

  /** `Primary()`: the id of the first forwarding target. */
  function PrimaryId(s: Server): (id: int)
    requires Valid(s)
    ensures id == s.remoteIds[s.primary]
  {
    GetRemoteAddr(s).ids[0]
  }

  /** `Secondary()`: the id of the second forwarding target, 0 when there is only one. */
  function SecondaryId(s: Server): (id: int)
    requires Valid(s)
    ensures s.remotes[s.secondary] == None ==> id == 0
    ensures s.remotes[s.secondary] != None ==> id == s.remoteIds[s.secondary]
  {
    var t := GetRemoteAddr(s);
    if |t.ids| > 1 then t.ids[1] else 0
  }

  /**
   * After a share, promoting makes the former secondary the only target:
   * its id becomes the primary and the new secondary slot is empty.
   */
  lemma {:induction false} ShareThenPromote(s: Server, id: int, addr: TcpAddr)
    requires Distinct(s)
    ensures var s1 := SetShareAddr(s, id, Some(addr)).0;
      && PrimaryId(Promote(s1)) == id
      && SecondaryId(Promote(s1)) == 0
      && GetRemoteAddr(Promote(s1)) == Targets([id], [Some(addr)])
  {
  }

  /** Sharing and then unsharing restores the forwarding targets of a server with no secondary. */
  lemma ShareThenUnshare(s: Server, id: int, addr: TcpAddr)
    requires Distinct(s)
    requires s.remotes[s.secondary] == None
    ensures GetRemoteAddr(Unshare(SetShareAddr(s, id, Some(addr)).0)) == GetRemoteAddr(s)
  {
  }

  /**
   * `Close`: the first call closes the done channel, the serving feed, the
   * listener (whose close error it returns) and every active connection;
   * later calls return nil and change nothing.
   */
  function Close(s: Server, listenerCloseErr: Option<ProxyError>): (r: (Server, Option<ProxyError>))
    requires Valid(s)
    ensures Valid(r.0)
    ensures s.done ==> r == (s, None)
    ensures !s.done ==>
      && r.0.done && r.0.feedClosed && r.0.activeConns == {}
      && r.0.listenerClosed == (s.listenerClosed || s.listening)
      && r.1 == (if s.listening then listenerCloseErr else None)
  {
    if s.done then (s, None)
    else
      (s.(done := true, feedClosed := true, activeConns := {}, listenerClosed := s.listenerClosed || s.listening),
       if s.listening then listenerCloseErr else None)
  }

  /** A second `Close` is a no-op that returns nil, whatever its listener would report. */
  lemma CloseIdempotent(s: Server, e1: Option<ProxyError>, e2: Option<ProxyError>)
    requires Valid(s)
    ensures Close(Close(s, e1).0, e2) == (Close(s, e1).0, None)
  {
  }

  /** What the classifier makes of the first four bytes of a package. */
  datatype PackageKind = Response | Request | Other

  /** The size of each of the two buffers a forwarding `pipe` reads into. */
  const BUFFER_SIZE: nat := 0xffff

  /** A buffer as `make` allocates it: all zero bytes. */
  function ZeroBuffer(): (b: string)
    ensures |b| == BUFFER_SIZE
    ensures forall i :: 0 <= i < |b| ==> b[i] == 0 as char
  {
    seq(BUFFER_SIZE, _ => 0 as char)
  }

  /**
   * The buffer after a read of `data` into it: the bytes read over the
   * buffer's earlier contents, which stay in place past them.
   */
  function Refill(buffer: string, data: string): (r: string)
    requires |data| <= |buffer|
    ensures |r| == |buffer|
    ensures r[..|data|] == data && r[|data|..] == buffer[|data|..]
  {
    data + buffer[|data|..]
  }

  /** The classification `packageMatcher` applies to the first four bytes it sees. */
  function Classify(head: string): (k: PackageKind)
    requires |head| == 4
    ensures k == Response <==> head == "HTTP"
    ensures k == Request <==> head in {"GET ", "POST", "PUT ", "DELE"}
  {
    if head == "HTTP" then Response
    else if head in {"GET ", "POST", "PUT ", "DELE"} then Request
    else Other
  }

  /**
   * The kind of the package `b := buff[:n]` that `pipe` hands to the
   * matcher after reading `data` into `buffer`.  `b[:4]` slices within the
   * buffer's capacity, not its length, so a read of fewer than four bytes is
   * classified with the buffer's earlier bytes filling the rest.
   */
  function ReadKind(buffer: string, data: string): (k: PackageKind)
    requires |data| <= |buffer| == BUFFER_SIZE
    ensures |data| >= 4 ==> k == Classify(data[..4])
    ensures |data| < 4 ==> k == Classify(data + buffer[|data|..4])
  {
    var head := Refill(buffer, data)[..4];
    assert |data| >= 4 ==> head == data[..4];
    assert |data| < 4 ==> head == data + buffer[|data|..4];
    Classify(head)
  }

  /** `countRequested`: one more request received, one more in service. */
  function CountRequested(s: Server): (r: Server)
    requires Valid(s)
    ensures Valid(r)
  {
    s.(requested := Wrap32(s.requested + 1), serving := Wrap32(s.serving + 1))
  }

  /** `countServed`: one more response seen, one fewer in service. */
  function CountServed(s: Server): (r: Server)
    requires Valid(s)
    ensures Valid(r)
  {
    s.(served := Wrap32(s.served + 1), serving := Wrap32(s.serving - 1))
  }

  /** The counter update for one package of the given kind. */
  function Count(s: Server, k: PackageKind): (r: Server)
    requires Valid(s)
    ensures Valid(r)
    ensures k == Request ==> r == s.(requested := Wrap32(s.requested + 1), serving := Wrap32(s.serving + 1))
    ensures k == Response ==> r == s.(served := Wrap32(s.served + 1), serving := Wrap32(s.serving - 1))
    ensures k == Other ==> r == s
  {
    match k
    case Response => CountServed(s)
    case Request => CountRequested(s)
    case Other => s
  }

  /**
   * `packageMatcher` on the package read as `data` into `buffer`: one whose
   * first four bytes are "HTTP" counts as served, "GET ", "POST", "PUT " or
   * "DELE" as requested, and any other leaves every counter alone.
   */
  function PackageMatcher(s: Server, buffer: string, data: string): (r: Server)
    requires Valid(s)
    requires |data| <= |buffer| == BUFFER_SIZE
    ensures Valid(r)
    ensures var head := Refill(buffer, data)[..4];
      && (head == "HTTP" ==> r == s.(served := Wrap32(s.served + 1), serving := Wrap32(s.serving - 1)))
      && (head in {"GET ", "POST", "PUT ", "DELE"} ==>
            r == s.(requested := Wrap32(s.requested + 1), serving := Wrap32(s.serving + 1)))
      && (head !in {"HTTP", "GET ", "POST", "PUT ", "DELE"} ==> r == s)
  {
    Count(s, ReadKind(buffer, data))
  }

  /**
   * A one-byte read of "P" into a buffer that last held a "PUT " request
   * counts as one more request: the three bytes after it are stale.
   */
  lemma ShortReadCountsStaleRequest(s: Server, buffer: string)
    requires Valid(s) && |buffer| == BUFFER_SIZE && buffer[..4] == "PUT "
    ensures PackageMatcher(s, buffer, "P") == CountRequested(s)
  {
    assert "P" + buffer[1..4] == "PUT ";
  }

  /**
   * The same read into a freshly allocated buffer is no package at all.
   */
  lemma ShortReadIntoFreshBuffer(s: Server)
    requires Valid(s)
    ensures PackageMatcher(s, ZeroBuffer(), "P") == s
  {
    var z := ZeroBuffer();
    assert ("P" + z[1..4])[1] == 0 as char;
  }

  /** The in-service counter agrees with the other two, modulo the int32 wrap-around. */
  ghost predicate CountersAgree(s: Server) {
    Wrap32(s.requested - s.served) == s.serving
  }

  /** A response keeps the in-service counter in step, at the level of the int32 values. */
  lemma ServedStep(q: int, v: int, w: int)
    requires Wrap32(q - v) == w
    ensures Wrap32(q - Wrap32(v + 1)) == Wrap32(w - 1)
  {
    Wrap32Sub(q, v + 1);
    Wrap32Add(q - v, -1);
  }

  /** A request keeps the in-service counter in step, at the level of the int32 values. */
  lemma RequestedStep(q: int, v: int, w: int)
    requires Wrap32(q - v) == w
    ensures Wrap32(Wrap32(q + 1) - v) == Wrap32(w + 1)
  {
    Wrap32Add(q + 1, -v);
    Wrap32Add(q - v, 1);
  }

  /** Every package keeps `serving == requested - served` (in int32 arithmetic). */
  lemma CountKeepsCounters(s: Server, k: PackageKind)
    requires Valid(s) && CountersAgree(s)
    ensures CountersAgree(Count(s, k))
  {
    match k
    case Response => ServedKeepsCounters(s);
    case Request => RequestedKeepsCounters(s);
    case Other =>
  }

  lemma ServedKeepsCounters(s: Server)
    requires Valid(s) && CountersAgree(s)
    ensures CountersAgree(CountServed(s))
  {
    ServedStep(s.requested, s.served, s.serving);
  }

  lemma RequestedKeepsCounters(s: Server)
    requires Valid(s) && CountersAgree(s)
    ensures CountersAgree(CountRequested(s))
  {
    RequestedStep(s.requested, s.served, s.serving);
  }

  /** The request counter after one package: one more exactly for a request. */
  lemma CountRequested1(s: Server, k: PackageKind)
    requires Valid(s)
    ensures Count(s, k).requested == Wrap32(s.requested + if k == Request then 1 else 0)
  {
    if k != Request {
      assert Wrap32(s.requested + 0) == s.requested;
    }
  }

  /** The response counter after one package: one more exactly for a response. */
  lemma CountServed1(s: Server, k: PackageKind)
    requires Valid(s)
    ensures Count(s, k).served == Wrap32(s.served + if k == Response then 1 else 0)
  {
    if k != Response {
      assert Wrap32(s.served + 0) == s.served;
    }
  }

  /** The counter updates for a stream of packages, in order. */
  function CountAll(s: Server, ks: seq<PackageKind>): (r: Server)
    requires Valid(s)
    ensures Valid(r)
    ensures r == s.(requested := r.requested, served := r.served, serving := r.serving)
    decreases |ks|
  {
    if |ks| == 0 then s else CountAll(Count(s, ks[0]), ks[1..])
  }

  /**
   * The kinds the matcher sees for the successive `chunks` one `pipe`
   * reads, alternating between its two buffers, `bufs.0` being the next
   * one read into: each read lands in the buffer the read before last used.
   */
  function PipeKinds(bufs: (string, string), chunks: seq<string>): (ks: seq<PackageKind>)
    requires |bufs.0| == BUFFER_SIZE && |bufs.1| == BUFFER_SIZE
    requires forall i :: 0 <= i < |chunks| ==> |chunks[i]| <= BUFFER_SIZE
    ensures |ks| == |chunks|
    ensures forall i :: 0 <= i < |chunks| && |chunks[i]| >= 4 ==> ks[i] == Classify(chunks[i][..4])
    decreases |chunks|
  {
    if |chunks| == 0 then []
    else
      var k := ReadKind(bufs.0, chunks[0]);
      var rest := PipeKinds((bufs.1, Refill(bufs.0, chunks[0])), chunks[1..]);
      assert forall i :: 1 <= i < |chunks| ==> chunks[i] == chunks[1..][i - 1];
      [k] + rest
  }

  /** The kinds a freshly started `pipe` sees: both buffers start zeroed. */
  function Kinds(chunks: seq<string>): (ks: seq<PackageKind>)
    requires forall i :: 0 <= i < |chunks| ==> |chunks[i]| <= BUFFER_SIZE
    ensures |ks| == |chunks|
    ensures forall i :: 0 <= i < |chunks| && |chunks[i]| >= 4 ==> ks[i] == Classify(chunks[i][..4])
  {
    PipeKinds((ZeroBuffer(), ZeroBuffer()), chunks)
  }

  /**
   * A fresh pipe that reads "PUT /a", then "x", then "P" sees two requests:
   * the third read lands in the first buffer, whose "UT " is still there.
   */
  lemma StaleBytesCountTwice()
    ensures Kinds(["PUT /a", "x", "P"]) == [Request, Other, Request]
  {
    var z := ZeroBuffer();
    var b0 := Refill(z, "PUT /a");
    var b1 := Refill(z, "x");
    assert b0[..4] == "PUT ";
    assert ("x" + z[1..4])[1] == 0 as char;
    assert "P" + b0[1..4] == "PUT ";
    assert PipeKinds((z, b1), ["x", "P"]) == [Other] + PipeKinds((b1, b0), ["P"]);
  }

  /** Number of packages of the given kind. */
  function Occurrences(ks: seq<PackageKind>, k: PackageKind): (n: nat)
    ensures n <= |ks|
  {
    if |ks| == 0 then 0 else (if ks[0] == k then 1 else 0) + Occurrences(ks[1..], k)
  }

  /** Two wrapped additions in a row are one wrapped addition of the sum. */
  lemma WrappedSteps(x0: int, x1: int, x2: int, i: int, n: int, t: int)
    requires x1 == Wrap32(x0 + i) && x2 == Wrap32(x1 + n) && t == i + n
    ensures x2 == Wrap32(x0 + t)
  {
    Wrap32Add(x0 + i, n);
  }

  /** After a stream of packages the request counter has grown by the number of requests. */
  lemma {:induction false} RequestsCounted(s: Server, ks: seq<PackageKind>)
    requires Valid(s)
    ensures CountAll(s, ks).requested == Wrap32(s.requested + Occurrences(ks, Request))
    decreases |ks|
  {
    if |ks| > 0 {
      var s1 := Count(s, ks[0]);
      RequestsCounted(s1, ks[1..]);
      var iq := if ks[0] == Request then 1 else 0;
      CountRequested1(s, ks[0]);
      WrappedSteps(s.requested, s1.requested, CountAll(s, ks).requested, iq, Occurrences(ks[1..], Request), Occurrences(ks, Request));
    }
  }

  /** After a stream of packages the response counter has grown by the number of responses. */
  lemma {:induction false} ResponsesCounted(s: Server, ks: seq<PackageKind>)
    requires Valid(s)
    ensures CountAll(s, ks).served == Wrap32(s.served + Occurrences(ks, Response))
    decreases |ks|
  {
    if |ks| > 0 {
      var s1 := Count(s, ks[0]);
      ResponsesCounted(s1, ks[1..]);
      var ir := if ks[0] == Response then 1 else 0;
      CountServed1(s, ks[0]);
      WrappedSteps(s.served, s1.served, CountAll(s, ks).served, ir, Occurrences(ks[1..], Response), Occurrences(ks, Response));
    }
  }

  /** A stream of packages keeps the in-service counter equal to requested minus served. */
  lemma {:induction false} CountAllKeepsCounters(s: Server, ks: seq<PackageKind>)
    requires Valid(s) && CountersAgree(s)
    ensures CountersAgree(CountAll(s, ks))
    decreases |ks|
  {
    if |ks| > 0 {
      CountKeepsCounters(s, ks[0]);
      CountAllKeepsCounters(Count(s, ks[0]), ks[1..]);
    }
  }

  /**
   * From a fresh server, after any stream of packages the counters are
   * exactly the wrapped numbers of requests, of responses, and of their
   * difference.
   */
  lemma FreshServerCounts(chunks: seq<string>)
    requires forall i :: 0 <= i < |chunks| ==> |chunks[i]| <= BUFFER_SIZE
    ensures var r := CountAll(NewServer(), Kinds(chunks));
      && r.requested == Wrap32(Occurrences(Kinds(chunks), Request))
      && r.served == Wrap32(Occurrences(Kinds(chunks), Response))
      && r.serving == Wrap32(Occurrences(Kinds(chunks), Request) - Occurrences(Kinds(chunks), Response))
  {
    var ks := Kinds(chunks);
    var r := CountAll(NewServer(), ks);
    RequestsCounted(NewServer(), ks);
    ResponsesCounted(NewServer(), ks);
    CountAllKeepsCounters(NewServer(), ks);
    var nq: int, ns: int := Occurrences(ks, Request), Occurrences(ks, Response);
    assert r.requested == Wrap32(nq) && r.served == Wrap32(ns);
    Wrap32Diff(nq, ns);
  }
}

=== FILE: recorder.dfy ===
/**
 * The benchmark's CSV recorder (`benchmark/common/recorder.py`): callers
 * `save` entries, a writer thread drains them into `path + filename`.
 * The writer's wake-ups become an explicit `WriterStep`, taken whenever
 * `newData` is set; an entry is the list of its fields as `str` renders
 * them.
 */
module Recorder {
  import opened Optional
  import T = Text

  type Row = seq<string>

  /** The output file: not yet opened, open with what has been written, or closed. */
  datatype File = Unopened | Open(name: string, content: string) | Closed(name: string, content: string)

  /** The errors of Python's `threading.Thread` the recorder can run into. */
  datatype ThreadError =
    | StartedTwice   /** `start` on a thread already started. */
    | JoinUnstarted  /** `join` on a thread never started. */

  datatype Recorder = Recorder(
    path: string,
    filename: string,
    pending: Option<seq<Row>>,
    shouldClose: bool,
    newData: bool,
    file: File,
    started: bool,
    stopped: bool)

  /**
   * A call's outcome.  Python changes the recorder before `start` or `join`
   * raises, so an error carries the recorder as the raise leaves it.
   */
  datatype Result = Ok(rec: Recorder) | Err(error: ThreadError, rec: Recorder)

  /** `Recorder(path)`: nothing pending, file unopened, writer not started. */
  function NewRecorder(path: string): (r: Recorder)
    ensures r.filename == "response.csv" && r.pending.None? && !r.newData && r.file.Unopened? && !r.started
  {
    Recorder(path, "response.csv", None, false, false, Unopened, false, false)
  }

  /**
   * `open(filename)`: only while the file is unopened, take the file name
   * and start the writer; a second start before the writer has opened the
   * file is Python's `RuntimeError`.
   */
  function OpenRecorder(rec: Recorder, filename: Option<string>): (r: Result)
    ensures !rec.file.Unopened? ==> r == Ok(rec)
    ensures rec.file.Unopened? && rec.started ==> r.Err? && r.error == StartedTwice
    ensures rec.file.Unopened? ==> r.rec.started && r.rec.filename == filename.GetOr(rec.filename)
    ensures r.rec.pending == rec.pending && r.rec.file == rec.file && r.rec.shouldClose == rec.shouldClose
    ensures r.rec == rec.(filename := r.rec.filename, started := r.rec.started)
  {
    if !rec.file.Unopened? then Ok(rec)
    else
      var rec := rec.(filename := filename.GetOr(rec.filename));
      if rec.started then Err(StartedTwice, rec)
      else Ok(rec.(started := true))
  }

  /** `save(entries, filename)`: open first when a name is given, then queue the entries and wake the writer. */
  function Save(rec: Recorder, entries: seq<Row>, filename: Option<string>): (r: Result)
    ensures r.Ok? ==> r.rec.newData && r.rec.pending == Some(Pending(rec) + entries)
    ensures r.Ok? ==> r.rec.file == rec.file && r.rec.shouldClose == rec.shouldClose
    ensures filename.None? ==> r.Ok?
    ensures r.Err? ==> r.error == StartedTwice && r.rec.pending == rec.pending && r.rec.newData == rec.newData
  {
    var afterOpen := if filename.Some? then OpenRecorder(rec, filename) else Ok(rec);
    match afterOpen
    case Err(e, rec') => Err(e, rec')
    case Ok(rec') =>
      var pending := if rec'.pending.None? then entries else rec'.pending.value + entries;
      assert pending == Pending(rec) + entries by {
        assert [] + entries == entries;
      }
      Ok(rec'.(pending := Some(pending), newData := true))
  }

  /** The queued rows, none when nothing is pending. */
  function Pending(rec: Recorder): seq<Row> {
    if rec.pending.None? then [] else rec.pending.value
  }

  /** One line of the file: the fields joined with ',' and a newline. */
  function Line(row: Row): string {
    (if |row| == 0 then "" else T.Join(row, ',')) + "\n"
  }

  /** The text written for `rows`, in order. */
  function Lines(rows: seq<Row>): string {
    if |rows| == 0 then "" else Line(rows[0]) + Lines(rows[1..])
  }

  lemma {:induction false} LinesAppend(a: seq<Row>, b: seq<Row>)
    ensures Lines(a + b) == Lines(a) + Lines(b)
    decreases |a|
  {
    if |a| == 0 {
      assert a + b == b;
    } else {
      assert (a + b)[1..] == a[1..] + b;
      LinesAppend(a[1..], b);
    }
  }

  /**
   * One wake-up of the writer: take the pending rows and `shouldClose`
   * together, clear both signals, create or truncate the file on the first
   * wake-up, append the rows, and close the file and stop when asked.
   */
  function WriterStep(rec: Recorder): (r: Recorder)
    requires rec.started && !rec.stopped && rec.newData && !rec.file.Closed?
    ensures r.pending.None? && !r.newData
    ensures !r.file.Unopened?
    ensures r.file.name == (if rec.file.Open? then rec.file.name else rec.path + rec.filename)
    ensures r.file.content == (if rec.file.Open? then rec.file.content else "") + Lines(Pending(rec))
    ensures r.stopped == rec.shouldClose && (r.file.Closed? <==> rec.shouldClose)
  {
    var shouldClose := rec.shouldClose;
    var entries := rec.pending;
    var rec := rec.(pending := None, newData := false);
    var name := if rec.file.Open? then rec.file.name else rec.path + rec.filename;
    var content := if rec.file.Open? then rec.file.content else "";
    var content := if entries.Some? then content + Lines(entries.value) else content;
    if shouldClose then rec.(file := Closed(name, content), stopped := true)
    else rec.(file := Open(name, content))
  }

  /**
   * `close`: ask the writer to stop, wake it, and wait for it; the writer
   * drains what is pending and closes the file.  Joining a writer that was
   * never started is Python's `RuntimeError`; joining one that has already
   * stopped returns at once.
   */
  function Close(rec: Recorder): (r: Result)
    ensures !rec.started <==> r == Err(JoinUnstarted, rec.(shouldClose := true, newData := true))
    ensures r.Ok? && (rec.stopped || rec.file.Closed?) ==> r.rec == rec.(shouldClose := true, newData := true)
    ensures r.Ok? && !rec.stopped && !rec.file.Closed? ==>
      && r.rec.stopped && r.rec.file.Closed? && r.rec.pending.None?
      && r.rec.file.content == (if rec.file.Open? then rec.file.content else "") + Lines(Pending(rec))
  {
    var rec := rec.(shouldClose := true, newData := true);
    if !rec.started then Err(JoinUnstarted, rec)
    else if rec.stopped || rec.file.Closed? then Ok(rec)
    else Ok(WriterStep(rec))
  }

  /** Rows saved twice before the writer wakes are written in the order saved. */
  lemma SavesAreFifo(rec: Recorder, a: seq<Row>, b: seq<Row>)
    requires rec.started && !rec.stopped && !rec.file.Closed? && !rec.shouldClose && rec.pending.None?
    ensures var r := WriterStep(Save(Save(rec, a, None).rec, b, None).rec);
      r.file.content == (if rec.file.Open? then rec.file.content else "") + Lines(a) + Lines(b)
  {
    var s1 := Save(rec, a, None).rec;
    assert Pending(s1) == a;
    var s2 := Save(s1, b, None).rec;
    assert Pending(s2) == a + b;
    var c := if rec.file.Open? then rec.file.content else "";
    var r := WriterStep(s2);
    assert r.file.content == c + Lines(a + b);
    LinesAppend(a, b);
    ConcatAssoc(c, Lines(a), Lines(b));
  }

  lemma ConcatAssoc(x: string, y: string, z: string)
    ensures x + (y + z) == x + y + z
  {
  }

  /** Writing in two wake-ups gives the same file as writing everything in one. */
  lemma StepsCompose(rec: Recorder, a: seq<Row>, b: seq<Row>)
    requires rec.started && !rec.stopped && !rec.file.Closed? && !rec.shouldClose && rec.pending.None?
    ensures var one := WriterStep(Save(rec, a, None).rec);
      var two := WriterStep(Save(one, b, None).rec);
      var both := WriterStep(Save(rec, a + b, None).rec);
      two.file == both.file
  {
    var c := if rec.file.Open? then rec.file.content else "";
    var s1 := Save(rec, a, None).rec;
    assert Pending(s1) == a;
    var one := WriterStep(s1);
    var s2 := Save(one, b, None).rec;
    assert Pending(s2) == b;
    var two := WriterStep(s2);
    var s3 := Save(rec, a + b, None).rec;
    assert Pending(s3) == a + b;
    var both := WriterStep(s3);
    assert one.file.Open? && two.file.Open? && both.file.Open?;
    assert two.file.content == c + Lines(a) + Lines(b);
    LinesAppend(a, b);
    ConcatAssoc(c, Lines(a), Lines(b));
    assert two.file.content == both.file.content;
    assert two.file.name == both.file.name;
  }

  /** A row of fields without ',' reads back from its line by splitting at ','. */
  lemma LineRoundTrip(row: Row)
    requires |row| >= 1 && T.NoSeparator(row, ',')
    ensures var line := Line(row);
      line[|line| - 1] == '\n' && T.Split(line[..|line| - 1], ',') == row
  {
    var line := Line(row);
    assert line[..|line| - 1] == T.Join(row, ',');
    T.SplitJoin(row, ',');
  }

  /**
   * A second `open` before the writer has woken raises, but only after
   * taking the new name: the writer then creates the file under that name.
   */
  lemma SecondOpenRenames(path: string, first: string, second: string)
    ensures var r := OpenRecorder(OpenRecorder(NewRecorder(path), Some(first)).rec, Some(second));
      && r.Err? && r.error == StartedTwice
      && WriterStep(r.rec.(newData := true)).file == Open(path + second, "")
  {
  }

  /** The file is created (empty) at the first wake-up even when nothing is pending. */
  lemma FirstWakeCreatesFile(path: string, filename: string)
    ensures var rec := OpenRecorder(NewRecorder(path), Some(filename)).rec.(newData := true);
      WriterStep(rec).file == Open(path + filename, "")
  {
  }
}

=== FILE: request_sampler.dfy ===
/**
 * `RequestSampler` (`ics/monitor/sampler/request_sampler.go`): samples
 * the number of requests the proxy served since the previous sample.  The
 * proxy's statistics at each call are an input.
 */
module RequestSamplers {
  import opened Optional
  import opened Sampling

  /** The proxy's `Stats`: its `requested` and `served` counters and the time they were read. */
  datatype Stats = Stats(requested: int, served: int, time: int)

  datatype RequestSampler = RequestSampler(lastStats: Option<Stats>)

  function NewRequestSampler(): (s: RequestSampler)
    ensures s.lastStats == None
  {
    RequestSampler(None)
  }

  /** `MakeVariable(num, ts)`: `num` less the served count of the last statistics, at `ts`. */
  function MakeVariable(s: RequestSampler, num: real, ts: int): (r: Sample)
    requires s.lastStats.Some?
    ensures r.time == ts && r.value + (s.lastStats.value.served as real) == num
  {
    Sample(num - s.lastStats.value.served as real, ts)
  }

  /**
   * `Sample`: the first call has no previous statistics and answers
   * `ErrNotEnoughData`; later calls answer the requests served since the
   * previous call, at the time the statistics were read.  Either way the
   * statistics are remembered.
   */
  function RequestSample(s: RequestSampler, stats: Stats): (r: (RequestSampler, Option<Sample>, Option<SampleError>))
    ensures r.0.lastStats == Some(stats)
    ensures s.lastStats == None <==> r.2 == Some(ErrNotEnoughData)
    ensures s.lastStats == None ==> r.1 == None
    ensures s.lastStats != None ==> r.2 == None && r.1 == Some(Sample((stats.served - s.lastStats.value.served) as real, stats.time))
  {
    if s.lastStats.Some? then
      (RequestSampler(Some(stats)), Some(MakeVariable(s, stats.served as real, stats.time)), None)
    else (RequestSampler(Some(stats)), None, Some(ErrNotEnoughData))
  }

  /** The samples answered for a run of statistics (the first call's nil dropped). */
  function Samples(s: RequestSampler, stats: seq<Stats>): seq<Sample>
    decreases |stats|
  {
    if |stats| == 0 then []
    else
      var (s', sample, _) := RequestSample(s, stats[0]);
      (if sample.Some? then [sample.value] else []) + Samples(s', stats[1..])
  }

  function TotalValue(samples: seq<Sample>): real {
    if |samples| == 0 then 0.0 else samples[0].value + TotalValue(samples[1..])
  }

  /**
   * Over a run of calls from a fresh sampler, every call but the first
   * answers a sample, the i-th at the time of statistics i + 1, and the
   * samples add up to the requests served between the first and the last
   * call.
   */
  lemma {:induction false} SamplesTelescope(s: RequestSampler, stats: seq<Stats>)
    requires s.lastStats.Some?
    ensures |Samples(s, stats)| == |stats|
    ensures forall i :: 0 <= i < |stats| ==> Samples(s, stats)[i].time == stats[i].time
    ensures TotalValue(Samples(s, stats)) ==
      if |stats| == 0 then 0.0 else (stats[|stats| - 1].served - s.lastStats.value.served) as real
    decreases |stats|
  {
    if |stats| > 0 {
      var s' := RequestSampler(Some(stats[0]));
      SamplesTelescope(s', stats[1..]);
      var rest := Samples(s', stats[1..]);
      assert Samples(s, stats) == [Sample((stats[0].served - s.lastStats.value.served) as real, stats[0].time)] + rest;
      forall i | 0 <= i < |stats|
        ensures Samples(s, stats)[i].time == stats[i].time
      {
        if i > 0 {
          assert Samples(s, stats)[i] == rest[i - 1];
        }
      }
      assert ([Sample((stats[0].served - s.lastStats.value.served) as real, stats[0].time)] + rest)[1..] == rest;
    }
  }

  lemma FreshSamplerRun(stats: seq<Stats>)
    requires |stats| > 0
    ensures var samples := Samples(NewRequestSampler(), stats);
      && |samples| == |stats| - 1
      && TotalValue(samples) == (stats[|stats| - 1].served - stats[0].served) as real
  {
    var s' := RequestSampler(Some(stats[0]));
    var rest := Samples(s', stats[1..]);
    SamplesTelescope(s', stats[1..]);
    assert RequestSample(NewRequestSampler(), stats[0]) == (s', None, Some(ErrNotEnoughData));
    assert Samples(NewRequestSampler(), stats) == [] + rest;
    assert [] + rest == rest;
    if |stats| > 1 {
      assert stats[1..][|stats[1..]| - 1] == stats[|stats| - 1];
    }
  }
}

=== FILE: response_groups.dfy ===
/**
 * `Response.groupby` of the benchmark's response parsers
 * (`benchmark/graphs/parsers/response.py` and `benchmark/parsers/response.py`
 * share it): records are grouped by a key, `mapper(record[field])` in the
 * source, here any function of the record.
 */
module ResponseGroups {

  /** The distinct keys of `s`, in order of first appearance. */
  function Keys<R, K(==)>(s: seq<R>, key: R -> K): (ks: seq<K>)
    ensures forall i, j :: 0 <= i < j < |ks| ==> ks[i] != ks[j]
    ensures forall i :: 0 <= i < |s| ==> key(s[i]) in ks
  {
    if |s| == 0 then []
    else
      var ks := Keys(s[..|s| - 1], key);
      var last := s[|s| - 1];
      assert forall i :: 0 <= i < |s| - 1 ==> s[i] == s[..|s| - 1][i];
      if key(last) in ks then ks else ks + [key(last)]
  }

  /** The records of `s` whose key is `k`, in their original order. */
  function Group<R, K(==)>(s: seq<R>, key: R -> K, k: K): (g: seq<R>)
    ensures |g| <= |s|
  {
    if |s| == 0 then []
    else
      var last := s[|s| - 1];
      Group(s[..|s| - 1], key, k) + (if key(last) == k then [last] else [])
  }

  /** The groups for `keys`, in the order of `keys`. */
  function Groups<R, K(==)>(s: seq<R>, key: R -> K, keys: seq<K>): (gs: seq<seq<R>>)
    ensures |gs| == |keys|
    ensures forall i :: 0 <= i < |keys| ==> gs[i] == Group(s, key, keys[i])
  {
    seq(|keys|, i requires 0 <= i < |keys| => Group(s, key, keys[i]))
  }

  /**
   * `groupby(field, sort = False, mapper)`: one pass over the records,
   * appending each to the list of its key, new keys in the order met.
   */
  method GroupBy<R, K(==)>(records: seq<R>, key: R -> K) returns (keys: seq<K>, groups: seq<seq<R>>)
    ensures keys == Keys(records, key)
    ensures groups == Groups(records, key, keys)
  {
    keys := [];
    var hash: map<K, seq<R>> := map[];
    var i := 0;
    while i < |records|
      invariant i <= |records|
      invariant Grouped(records[..i], key, keys, hash)
    {
      var g := key(records[i]);
      if g in hash {
        KnownKeyStep(records, key, i, keys, hash);
        hash := hash[g := hash[g] + [records[i]]];
      } else {
        NewKeyStep(records, key, i, keys, hash);
        keys := keys + [g];
        hash := hash[g := [records[i]]];
      }
      i := i + 1;
    }
    assert records[..i] == records;
    groups := seq(|keys|, j requires 0 <= j < |keys| => hash[keys[j]]);
  }

  /** What `groupby` has built after the records `s`: their keys, and each key's list. */
  ghost predicate Grouped<R, K>(s: seq<R>, key: R -> K, keys: seq<K>, hash: map<K, seq<R>>) {
    && keys == Keys(s, key)
    && hash.Keys == set k | k in keys
    && forall k :: k in hash ==> hash[k] == Group(s, key, k)
  }

  lemma KnownKeyStep<R, K>(s: seq<R>, key: R -> K, i: nat, keys: seq<K>, hash: map<K, seq<R>>)
    requires i < |s| && Grouped(s[..i], key, keys, hash) && key(s[i]) in hash
    ensures Grouped(s[..i + 1], key, keys, hash[key(s[i]) := hash[key(s[i])] + [s[i]]])
  {
    var g := key(s[i]);
    KeysSnoc(s, key, i);
    var hash' := hash[g := hash[g] + [s[i]]];
    forall k | k in hash'
      ensures hash'[k] == Group(s[..i + 1], key, k)
    {
      GroupSnoc(s, key, i, k);
    }
  }

  lemma NewKeyStep<R, K>(s: seq<R>, key: R -> K, i: nat, keys: seq<K>, hash: map<K, seq<R>>)
    requires i < |s| && Grouped(s[..i], key, keys, hash) && key(s[i]) !in hash
    ensures Grouped(s[..i + 1], key, keys + [key(s[i])], hash[key(s[i]) := [s[i]]])
  {
    KeysSnoc(s, key, i);
    KeySetSnoc(keys, hash, key(s[i]), [s[i]]);
    var hash' := hash[key(s[i]) := [s[i]]];
    forall k | k in hash'
      ensures hash'[k] == Group(s[..i + 1], key, k)
    {
      NewKeyGroup(s, key, i, keys, hash, k);
    }
  }

  /** The map's keys follow the key list when both gain the same key. */
  lemma KeySetSnoc<K, V>(keys: seq<K>, hash: map<K, V>, g: K, v: V)
    requires hash.Keys == set k | k in keys
    ensures hash[g := v].Keys == set k | k in keys + [g]
  {
    assert (set k | k in keys + [g]) == (set k | k in keys) + {g};
  }

  /** After a new key's first record, each list is still its key's group. */
  lemma NewKeyGroup<R, K>(s: seq<R>, key: R -> K, i: nat, keys: seq<K>, hash: map<K, seq<R>>, k: K)
    requires i < |s| && Grouped(s[..i], key, keys, hash) && key(s[i]) !in hash
    requires k in hash || k == key(s[i])
    ensures hash[key(s[i]) := [s[i]]][k] == Group(s[..i + 1], key, k)
  {
    GroupSnoc(s, key, i, k);
    if k == key(s[i]) {
      assert k !in hash.Keys;
      GroupOutsideKeys(s[..i], key, k);
    }
  }

  /** Taking one more record: its key joins the keys if it is new. */
  lemma KeysSnoc<R, K>(s: seq<R>, key: R -> K, i: nat)
    requires i < |s|
    ensures Keys(s[..i + 1], key)
      == if key(s[i]) in Keys(s[..i], key) then Keys(s[..i], key) else Keys(s[..i], key) + [key(s[i])]
  {
    assert s[..i + 1][..i] == s[..i];
  }

  /** Taking one more record: only the group of its key grows. */
  lemma GroupSnoc<R, K>(s: seq<R>, key: R -> K, i: nat, k: K)
    requires i < |s|
    ensures Group(s[..i + 1], key, k) == Group(s[..i], key, k) + (if key(s[i]) == k then [s[i]] else [])
  {
    assert s[..i + 1][..i] == s[..i];
  }

  /** A key that is not among the keys has no records. */
  lemma {:induction false} GroupOutsideKeys<R, K>(s: seq<R>, key: R -> K, k: K)
    requires k !in Keys(s, key)
    ensures Group(s, key, k) == []
  {
    if |s| > 0 {
      GroupOutsideKeys(s[..|s| - 1], key, k);
    }
  }

  /** A group holds records of `s` with key `k` only. */
  lemma {:induction false} GroupMembers<R, K>(s: seq<R>, key: R -> K, k: K)
    ensures forall r :: r in Group(s, key, k) ==> r in s && key(r) == k
  {
    if |s| > 0 {
      var prefix := s[..|s| - 1];
      GroupMembers(prefix, key, k);
      assert forall r :: r in prefix ==> r in s;
    }
  }

  /** Every key is the key of some record. */
  lemma KeysAreRecordKeys<R, K>(s: seq<R>, key: R -> K, k: K)
    requires k in Keys(s, key)
    ensures exists i :: 0 <= i < |s| && key(s[i]) == k
  {
    var g := Group(s, key, k);
    if |g| == 0 {
      GroupsAreNonEmpty(s, key, k);
    }
    GroupMembers(s, key, k);
    assert g[0] in s;
  }

  /** Every record is in the group of its key: no group is empty. */
  lemma GroupsAreNonEmpty<R, K>(s: seq<R>, key: R -> K, k: K)
    requires k in Keys(s, key)
    ensures |Group(s, key, k)| > 0
  {
    var i := FirstWithKey(s, key, k);
    GroupHolds(s, key, i);
  }

  /** The position of a record whose key is `k`, one of the keys. */
  ghost function FirstWithKey<R, K>(s: seq<R>, key: R -> K, k: K): (i: nat)
    requires k in Keys(s, key)
    ensures i < |s| && key(s[i]) == k
  {
    var prefix := s[..|s| - 1];
    if k in Keys(prefix, key) then
      var i := FirstWithKey(prefix, key, k);
      assert prefix[i] == s[i];
      i
    else |s| - 1
  }

  lemma {:induction false} GroupHolds<R, K>(s: seq<R>, key: R -> K, i: nat)
    requires i < |s|
    ensures s[i] in Group(s, key, key(s[i]))
  {
    var prefix := s[..|s| - 1];
    if i < |s| - 1 {
      assert prefix[i] == s[i];
      GroupHolds(prefix, key, i);
    }
  }

  /** The groups laid end to end. */
  function Flatten<R>(gs: seq<seq<R>>): seq<R> {
    if |gs| == 0 then [] else gs[0] + Flatten(gs[1..])
  }

  /** Appending a record adds it to the groups of distinct keys exactly when its key is one of them. */
  lemma FlattenSnoc<R, K>(s: seq<R>, key: R -> K, keys: seq<K>, r: R)
    requires forall i, j :: 0 <= i < j < |keys| ==> keys[i] != keys[j]
    ensures multiset(Flatten(Groups(s + [r], key, keys)))
      == multiset(Flatten(Groups(s, key, keys))) + (if key(r) in keys then multiset{r} else multiset{})
  {
    if key(r) in keys {
      FlattenSnocKnown(s, key, keys, r);
    } else {
      GroupsUnchanged(s, key, keys, r);
    }
  }

  /** A record whose key is not among the keys leaves their groups alone. */
  lemma GroupsUnchanged<R, K>(s: seq<R>, key: R -> K, keys: seq<K>, r: R)
    requires key(r) !in keys
    ensures Groups(s + [r], key, keys) == Groups(s, key, keys)
  {
    forall i | 0 <= i < |keys|
      ensures Group(s + [r], key, keys[i]) == Group(s, key, keys[i])
    {
      GroupAppend(s, key, r, keys[i]);
    }
  }

  lemma {:induction false} FlattenSnocKnown<R, K>(s: seq<R>, key: R -> K, keys: seq<K>, r: R)
    requires forall i, j :: 0 <= i < j < |keys| ==> keys[i] != keys[j]
    requires key(r) in keys
    ensures multiset(Flatten(Groups(s + [r], key, keys))) == multiset(Flatten(Groups(s, key, keys))) + multiset{r}
    decreases |keys|
  {
    var rest := keys[1..];
    var after, before := Groups(s + [r], key, keys), Groups(s, key, keys);
    assert after[1..] == Groups(s + [r], key, rest);
    assert before[1..] == Groups(s, key, rest);
    GroupAppend(s, key, r, keys[0]);
    FlattenFirst(after);
    FlattenFirst(before);
    if key(r) == keys[0] {
      assert key(r) !in rest by {
        assert forall j :: 0 <= j < |rest| ==> rest[j] == keys[j + 1];
      }
      GroupsUnchanged(s, key, rest, r);
      MultisetMiddle(before[0], r, Flatten(before[1..]));
    } else {
      assert after[0] == before[0] by {
        assert before[0] + [] == before[0];
      }
      assert key(r) in rest;
      FlattenSnocKnown(s, key, rest, r);
      MultisetPrefix(before[0], Flatten(before[1..]), Flatten(after[1..]), r);
    }
  }

  lemma FlattenFirst<R>(gs: seq<seq<R>>)
    requires |gs| > 0
    ensures Flatten(gs) == gs[0] + Flatten(gs[1..])
  {
  }

  lemma MultisetPrefix<T>(a: seq<T>, b: seq<T>, b': seq<T>, x: T)
    requires multiset(b') == multiset(b) + multiset{x}
    ensures multiset(a + b') == multiset(a + b) + multiset{x}
  {
  }

  lemma MultisetMiddle<T>(a: seq<T>, x: T, b: seq<T>)
    ensures multiset((a + [x]) + b) == multiset(a + b) + multiset{x}
  {
  }

  /** Appending a record grows the group of its key only. */
  lemma GroupAppend<R, K>(s: seq<R>, key: R -> K, r: R, k: K)
    ensures Group(s + [r], key, k) == Group(s, key, k) + (if key(r) == k then [r] else [])
  {
    assert (s + [r])[..|s|] == s;
  }

  /**
   * The groups partition the records: together they hold every record
   * exactly once.
   */
  lemma {:induction false} GroupsPartition<R, K>(s: seq<R>, key: R -> K)
    ensures multiset(Flatten(Groups(s, key, Keys(s, key)))) == multiset(s)
  {
    PartitionFor(s, key, Keys(s, key));
  }

  lemma {:induction false} PartitionFor<R, K>(s: seq<R>, key: R -> K, keys: seq<K>)
    requires forall i, j :: 0 <= i < j < |keys| ==> keys[i] != keys[j]
    requires forall i :: 0 <= i < |s| ==> key(s[i]) in keys
    ensures multiset(Flatten(Groups(s, key, keys))) == multiset(s)
    decreases |s|
  {
    if |s| == 0 {
      EmptyGroups(key, keys);
    } else {
      var prefix := s[..|s| - 1];
      var r := s[|s| - 1];
      assert prefix + [r] == s;
      assert forall i :: 0 <= i < |prefix| ==> prefix[i] == s[i];
      PartitionFor(prefix, key, keys);
      FlattenSnoc(prefix, key, keys, r);
    }
  }

  lemma {:induction false} EmptyGroups<R, K>(key: R -> K, keys: seq<K>)
    ensures Flatten(Groups([], key, keys)) == []
    decreases |keys|
  {
    if |keys| > 0 {
      assert Groups([], key, keys)[1..] == Groups([], key, keys[1..]);
      EmptyGroups(key, keys[1..]);
    }
  }

  predicate Ascending(s: seq<int>) {
    forall i, j :: 0 <= i < j < |s| ==> s[i] <= s[j]
  }

  /** `groups.sort()` on integer keys: ascending order. */
  function SortKeys(ks: seq<int>): (r: seq<int>)
    ensures multiset(r) == multiset(ks)
    ensures Ascending(r)
  {
    if |ks| == 0 then []
    else
      assert ks == [ks[0]] + ks[1..];
      Insert(ks[0], SortKeys(ks[1..]))
  }

  function Insert(x: int, s: seq<int>): (r: seq<int>)
    requires Ascending(s)
    ensures multiset(r) == multiset(s) + multiset{x}
    ensures Ascending(r)
  {
    if |s| == 0 then [x]
    else if x <= s[0] then
      InsertFront(x, s);
      [x] + s
    else
      assert Ascending(s[1..]) by {
        assert forall i :: 0 <= i < |s| - 1 ==> s[1..][i] == s[i + 1];
      }
      var rest := Insert(x, s[1..]);
      InsertAfter(x, s, rest);
      [s[0]] + rest
  }

  lemma InsertFront(x: int, s: seq<int>)
    requires Ascending(s) && |s| > 0 && x <= s[0]
    ensures multiset([x] + s) == multiset(s) + multiset{x}
    ensures Ascending([x] + s)
  {
    assert forall i :: 0 <= i < |s| ==> s[0] <= s[i];
  }

  lemma InsertAfter(x: int, s: seq<int>, rest: seq<int>)
    requires Ascending(s) && |s| > 0 && s[0] < x
    requires multiset(rest) == multiset(s[1..]) + multiset{x} && Ascending(rest)
    ensures multiset([s[0]] + rest) == multiset(s) + multiset{x}
    ensures Ascending([s[0]] + rest)
  {
    assert s == [s[0]] + s[1..];
    assert multiset(s) == multiset{s[0]} + multiset(s[1..]);
    assert multiset([s[0]] + rest) == multiset{s[0]} + multiset(rest);
    assert forall i :: 0 <= i < |s| - 1 ==> s[0] <= s[1..][i] by {
      assert forall i :: 0 <= i < |s| - 1 ==> s[1..][i] == s[i + 1];
    }
    LowerBound(s[0], x, s[1..], rest);
    ConsAscending(s[0], rest);
  }

  lemma ConsAscending(b: int, s: seq<int>)
    requires Ascending(s) && forall i :: 0 <= i < |s| ==> b <= s[i]
    ensures Ascending([b] + s)
  {
    assert forall i :: 0 < i < |s| + 1 ==> ([b] + s)[i] == s[i - 1];
  }

  /** A bound below `x` and every element of `s` bounds a permutation of `s` with `x`. */
  lemma LowerBound(b: int, x: int, s: seq<int>, r: seq<int>)
    requires b <= x && forall i :: 0 <= i < |s| ==> b <= s[i]
    requires multiset(r) == multiset(s) + multiset{x}
    ensures forall i :: 0 <= i < |r| ==> b <= r[i]
  {
    forall i | 0 <= i < |r|
      ensures b <= r[i]
    {
      assert r[i] in multiset(r);
      if r[i] != x {
        assert r[i] in multiset(s);
      }
    }
  }

  /**
   * `groupby(field, sort = True, mapper)` for integer keys: the same groups,
   * ordered by ascending key.
   */
  method GroupBySorted<R>(records: seq<R>, key: R -> int) returns (keys: seq<int>, groups: seq<seq<R>>)
    ensures multiset(keys) == multiset(Keys(records, key))
    ensures forall i, j :: 0 <= i < j < |keys| ==> keys[i] < keys[j]
    ensures groups == Groups(records, key, keys)
  {
    var found, _ := GroupBy(records, key);
    keys := SortKeys(found);
    DistinctSorted(found, keys);
    groups := Groups(records, key, keys);
  }

  /** Sorting distinct keys orders them strictly. */
  lemma DistinctSorted(ks: seq<int>, r: seq<int>)
    requires forall i, j :: 0 <= i < j < |ks| ==> ks[i] != ks[j]
    requires multiset(r) == multiset(ks)
    requires Ascending(r)
    ensures forall i, j :: 0 <= i < j < |r| ==> r[i] < r[j]
  {
    forall i, j | 0 <= i < j < |r|
      ensures r[i] < r[j]
    {
      if r[i] == r[j] {
        Twice(r, i, j);
        DistinctOnce(ks, r[i]);
        assert false;
      }
    }
  }

  /** A value at two positions occurs at least twice. */
  lemma Twice(r: seq<int>, i: nat, j: nat)
    requires i < j < |r| && r[i] == r[j]
    ensures multiset(r)[r[i]] >= 2
  {
    assert r == r[..j] + r[j..];
    assert r[..j][i] == r[i];
    assert r[j..][0] == r[j];
    assert multiset(r) == multiset(r[..j]) + multiset(r[j..]);
  }

  lemma {:induction false} DistinctOnce(ks: seq<int>, v: int)
    requires forall i, j :: 0 <= i < j < |ks| ==> ks[i] != ks[j]
    ensures multiset(ks)[v] <= 1
  {
    if |ks| > 0 {
      assert ks == [ks[0]] + ks[1..];
      DistinctOnce(ks[1..], v);
      if ks[0] == v {
        assert v !in ks[1..];
      }
    }
  }
}

=== FILE: responses.dfy ===
/**
 * The benchmark's response-log readers: `benchmark/graphs/parsers/response.py`
 * (`Layout.Graphs`) and its older copy `benchmark/parsers/response.py`
 * (`Layout.Legacy`).  A log is the CSV the recorder writes, one request per
 * line: time, status code, response time, elapsed time, then anything else.
 * Python's `float()` and `int()` on a field are the parameters `conv`; a
 * failed conversion is `ValueError`, a missing field `IndexError`.
 */
module Responses {
  import opened Optional
  import T = Text
  import G = ResponseGroups

  /** A field after parsing: converted to a Python float or int, or left as the text read. */
  datatype Value = Float(f: real) | Int(i: int) | Str(s: string)

  type Record = seq<Value>

  const FIELD_TIME := 0
  const FIELD_STATUSCODE := 1
  const FIELD_RESPONSE := 2
  const FIELD_ELAPSE := 3

  /** The initial value of the running minimum of the times. */
  const START: real := 9999999999.0

  /** The two versions of the reader differ in how they read the elapsed time and in naming. */
  datatype Layout = Graphs | Legacy

  /** Python's `float(text)` and `int(text)`; `None` is `ValueError`. */
  datatype Conversions = Conversions(toFloat: string -> Option<real>, toInt: string -> Option<int>)

  datatype Error = IndexError | ValueError

  datatype Result<T> = Ok(value: T) | Err(error: Error)

  /** A list of records; only the newer reader keeps a name. */
  datatype Response = Response(records: seq<Record>, name: Option<string>)

  /** The fields left as read. */
  function Texts(fields: seq<string>): (r: seq<Value>)
    ensures |r| == |fields| && forall i :: 0 <= i < |r| ==> r[i] == Str(fields[i])
  {
    seq(|fields|, i requires 0 <= i < |fields| => Str(fields[i]))
  }

  /** The fields after the four standard ones. */
  function Extra(fields: seq<string>): seq<string> {
    if |fields| > 4 then fields[4..] else []
  }

  /**
   * The elapsed-time field: the newer reader converts it when present and
   * appends 0 otherwise; the older one converts it for status 200 only, sets
   * it to 0 for any other status, and needs it present either way.
   */
  function Elapsed(layout: Layout, conv: Conversions, fields: seq<string>, status: int): (r: Result<Value>)
    requires |fields| >= 3
    ensures layout.Graphs? ==> (r.Err? <==> |fields| > 3 && conv.toFloat(fields[3]).None?)
    ensures layout.Legacy? ==> (r == Err(IndexError) <==> |fields| == 3)
    ensures r.Ok? ==> r.value.Float? || r.value == Int(0)
    ensures r.Ok? && r.value.Float? ==> |fields| > 3 && conv.toFloat(fields[3]) == Some(r.value.f)
    ensures r.Ok? && r.value.Float? ==> layout.Graphs? || status == 200
    ensures r.Ok? && |fields| > 3 && (layout.Graphs? || status == 200) ==> r.value.Float?
    ensures layout.Graphs? && |fields| == 3 ==> r == Ok(Int(0))
    ensures layout.Legacy? && |fields| > 3 && status != 200 ==> r == Ok(Int(0))
    ensures layout.Legacy? ==> (r == Err(ValueError) <==> |fields| > 3 && status == 200 && conv.toFloat(fields[3]).None?)
  {
    match layout
    case Graphs =>
      if |fields| > FIELD_ELAPSE then
        match conv.toFloat(fields[FIELD_ELAPSE])
        case None => Err(ValueError)
        case Some(e) => Ok(Float(e))
      else Ok(Int(0))
    case Legacy =>
      if |fields| <= FIELD_ELAPSE then Err(IndexError)
      else if status == 200 then
        match conv.toFloat(fields[FIELD_ELAPSE])
        case None => Err(ValueError)
        case Some(e) => Ok(Float(e))
      else Ok(Int(0))
  }

  /** One line: split at ',' and convert the first four fields in order, the first failure winning. */
  function ParseLine(layout: Layout, conv: Conversions, line: string): (r: Result<Record>)
    ensures r.Ok? ==> |r.value| >= 4 && r.value[0].Float? && r.value[1].Int? && r.value[2].Float?
    ensures r.Ok? ==> |r.value| == |T.Split(line, ',')| || (layout.Graphs? && |T.Split(line, ',')| == 3)
    ensures r.Ok? ==> r.value[4..] == Texts(Extra(T.Split(line, ',')))
    ensures r.Ok? ==> var f := T.Split(line, ',');
      && |f| >= 3 && r.value[0].Float? && r.value[1].Int? && r.value[2].Float?
      && conv.toFloat(f[0]) == Some(r.value[0].f)
      && conv.toInt(f[1]) == Some(r.value[1].i)
      && conv.toFloat(f[2]) == Some(r.value[2].f)
      && Elapsed(layout, conv, f, r.value[1].i) == Ok(r.value[3])
    ensures conv.toFloat(T.Split(line, ',')[0]).None? ==> r == Err(ValueError)
    ensures var f := T.Split(line, ',');
      conv.toFloat(f[0]).Some? && |f| < 2 ==> r == Err(IndexError)
    ensures var f := T.Split(line, ',');
      conv.toFloat(f[0]).Some? && |f| >= 2 && conv.toInt(f[1]).None? ==> r == Err(ValueError)
    ensures var f := T.Split(line, ',');
      conv.toFloat(f[0]).Some? && |f| >= 2 && conv.toInt(f[1]).Some? && |f| < 3 ==> r == Err(IndexError)
    ensures var f := T.Split(line, ',');
      conv.toFloat(f[0]).Some? && |f| >= 3 && conv.toInt(f[1]).Some? && conv.toFloat(f[2]).None? ==> r == Err(ValueError)
    ensures var f := T.Split(line, ',');
      conv.toFloat(f[0]).Some? && |f| >= 3 && conv.toInt(f[1]).Some? && conv.toFloat(f[2]).Some? ==>
        (r.Err? <==> Elapsed(layout, conv, f, conv.toInt(f[1]).value).Err?)
        && (r.Err? ==> r.error == Elapsed(layout, conv, f, conv.toInt(f[1]).value).error)
  {
    var fields := T.Split(line, ',');
    match conv.toFloat(fields[FIELD_TIME])
    case None => Err(ValueError)
    case Some(time) =>
      if |fields| <= FIELD_STATUSCODE then Err(IndexError)
      else match conv.toInt(fields[FIELD_STATUSCODE])
      case None => Err(ValueError)
      case Some(status) =>
        if |fields| <= FIELD_RESPONSE then Err(IndexError)
        else match conv.toFloat(fields[FIELD_RESPONSE])
        case None => Err(ValueError)
        case Some(response) =>
          match Elapsed(layout, conv, fields, status)
          case Err(e) => Err(e)
          case Ok(elapsed) => Ok([Float(time), Int(status), Float(response), elapsed] + Texts(Extra(fields)))
  }

  /** Every line, in order; the first line that fails stops the reading. */
  function ParseLines(layout: Layout, conv: Conversions, lines: seq<string>): (r: Result<seq<Record>>)
    ensures r.Ok? <==> forall i :: 0 <= i < |lines| ==> ParseLine(layout, conv, lines[i]).Ok?
    ensures r.Ok? ==>
      && |r.value| == |lines|
      && forall i :: 0 <= i < |lines| ==> r.value[i] == ParseLine(layout, conv, lines[i]).value
  {
    if |lines| == 0 then Ok([])
    else match ParseLine(layout, conv, lines[0])
    case Err(e) => Err(e)
    case Ok(record) =>
      match ParseLines(layout, conv, lines[1..])
      case Err(e) => Err(e)
      case Ok(rest) => Ok([record] + rest)
  }

  /** The time of a parsed record. */
  function Time(record: Record): real
    requires |record| > 0 && record[0].Float?
  {
    record[0].f
  }

  /** Records whose time field is a float, as parsing makes them. */
  predicate Timed(records: seq<Record>) {
    forall i :: 0 <= i < |records| ==> |records[i]| > 0 && records[i][0].Float?
  }

  /** The start of the run: the earliest time, or `START` when every time is later. */
  function Start(records: seq<Record>): (start: real)
    requires Timed(records)
    ensures start <= START
    ensures forall i :: 0 <= i < |records| ==> start <= Time(records[i])
    ensures start == START || exists i :: 0 <= i < |records| && Time(records[i]) == start
  {
    if |records| == 0 then START
    else
      var rest := Start(records[..|records| - 1]);
      assert forall i :: 0 <= i < |records| - 1 ==> records[..|records| - 1][i] == records[i];
      var t := Time(records[|records| - 1]);
      if t < rest then t else rest
  }

  /** Every time made relative to `start`; all other fields unchanged. */
  function Shift(records: seq<Record>, start: real): (r: seq<Record>)
    requires Timed(records)
    ensures |r| == |records| && Timed(r)
    ensures forall i :: 0 <= i < |r| ==>
      Time(r[i]) == Time(records[i]) - start && r[i][1..] == records[i][1..]
  {
    seq(|records|, i requires 0 <= i < |records| => [Float(Time(records[i]) - start)] + records[i][1..])
  }

  /** The last position of `c` in `s`. */
  function LastIndex(s: string, c: char): (r: Option<nat>)
    ensures r.None? <==> c !in s
    ensures r.Some? ==> r.value < |s| && s[r.value] == c && c !in s[r.value + 1..]
  {
    if |s| == 0 then None
    else if s[|s| - 1] == c then Some(|s| - 1)
    else
      var r := LastIndex(s[..|s| - 1], c);
      assert forall i :: 0 <= i < |s| - 1 ==> s[i] == s[..|s| - 1][i];
      assert r.Some? ==> s[r.value + 1..] == s[..|s| - 1][r.value + 1..] + [s[|s| - 1]];
      r
  }

  /** `os.path.basename`: what follows the last '/'. */
  function Basename(path: string): (b: string)
    ensures '/' !in b
    ensures |b| <= |path| && path[|path| - |b|..] == b
    ensures |b| < |path| ==> path[|path| - |b| - 1] == '/'
  {
    match LastIndex(path, '/')
    case None => path
    case Some(i) => path[i + 1..]
  }

  predicate AllDots(s: string) {
    forall i :: 0 <= i < |s| ==> s[i] == '.'
  }

  /**
   * `os.path.splitext(name)[0]` for a name without '/': the name without
   * its last '.' and what follows, unless only dots come before that '.'.
   */
  function Stem(name: string): (stem: string)
    ensures |stem| <= |name| && name[..|stem|] == stem
    ensures |stem| < |name| ==> name[|stem|] == '.' && '.' !in name[|stem| + 1..] && !AllDots(stem)
    ensures |stem| == |name| ==> '.' !in name || AllDots(name[..LastIndex(name, '.').value])
  {
    match LastIndex(name, '.')
    case None => name
    case Some(i) => if AllDots(name[..i]) then name else name[..i]
  }

  /** `Response.parse(file, name)` and its older copy `Response.parse(file)`, given the file's lines. */
  function Parse(layout: Layout, conv: Conversions, file: string, lines: seq<string>, name: Option<string>): (r: Result<Response>)
    ensures r.Ok? <==> ParseLines(layout, conv, lines).Ok?
    ensures r.Ok? ==> |r.value.records| == |lines| && Timed(r.value.records)
    ensures r.Ok? ==> r.value.name == (if layout.Legacy? then None else Some(name.GetOr(Stem(Basename(file)))))
  {
    match ParseLines(layout, conv, lines)
    case Err(e) => Err(e)
    case Ok(records) =>
      assert Timed(records) by {
        forall i | 0 <= i < |records|
          ensures |records[i]| > 0 && records[i][0].Float?
        {
          assert records[i] == ParseLine(layout, conv, lines[i]).value;
        }
      }
      var named := if layout.Legacy? then None else Some(name.GetOr(Stem(Basename(file))));
      Ok(Response(Shift(records, Start(records)), named))
  }

  /**
   * Made relative to their start, no time is negative, and the earliest is
   * 0 unless every time is after `START`.
   */
  lemma {:induction false} TimesFromStart(records: seq<Record>)
    requires Timed(records)
    ensures var rs := Shift(records, Start(records));
      && (forall i :: 0 <= i < |rs| ==> Time(rs[i]) >= 0.0)
      && ((exists i :: 0 <= i < |records| && Time(records[i]) <= START) ==>
          exists i :: 0 <= i < |rs| && Time(rs[i]) == 0.0)
  {
    var start := Start(records);
    var rs := Shift(records, start);
    if exists i :: 0 <= i < |records| && Time(records[i]) <= START {
      var k :| 0 <= k < |records| && Time(records[k]) <= START;
      if start == START {
        assert Time(rs[k]) == 0.0;
      } else {
        var i :| 0 <= i < |records| && Time(records[i]) == start;
        assert Time(rs[i]) == 0.0;
      }
    }
  }

  /** A parsed log is its lines' records made relative to their start. */
  lemma ParsedTimes(layout: Layout, conv: Conversions, file: string, lines: seq<string>, name: Option<string>)
    requires Parse(layout, conv, file, lines, name).Ok?
    ensures var records := ParseLines(layout, conv, lines).value;
      Timed(records) && Parse(layout, conv, file, lines, name).value.records == Shift(records, Start(records))
  {
  }

  /**
   * A row the recorder writes (fields without ',', the line ending in a
   * newline that Python's `float()` ignores) reads back as the values it
   * was written from.
   */
  lemma LineRoundTrip(layout: Layout, conv: Conversions, time: string, status: string, response: string, elapsed: string,
                      t: real, s: int, x: real, e: real)
    requires T.NoSeparator([time, status, response, elapsed + "\n"], ',')
    requires conv.toFloat(time) == Some(t) && conv.toInt(status) == Some(s) && conv.toFloat(response) == Some(x)
    requires conv.toFloat(elapsed + "\n") == Some(e)
    ensures ParseLine(layout, conv, T.Join([time, status, response, elapsed + "\n"], ','))
      == Ok([Float(t), Int(s), Float(x), if layout.Graphs? || s == 200 then Float(e) else Int(0)])
  {
    var fields := [time, status, response, elapsed + "\n"];
    T.SplitJoin(fields, ',');
    assert T.Split(T.Join(fields, ','), ',') == fields;
    assert Extra(fields) == [];
    assert Texts([]) == [];
    var elapsedValue := if layout.Graphs? || s == 200 then Float(e) else Int(0);
    assert Elapsed(layout, conv, fields, s) == Ok(elapsedValue);
    var line := T.Join(fields, ',');
    assert fields[0] == time && fields[1] == status && fields[2] == response;
    var values := [Float(t), Int(s), Float(x), elapsedValue];
    assert ParseLine(layout, conv, line) == Ok(values + Texts(Extra(fields)));
    assert values + [] == values;
  }

  /** The older reader refuses a line without the elapsed field; the newer one reads it as 0. */
  lemma ThreeFields(conv: Conversions, time: string, status: string, response: string, t: real, s: int, x: real)
    requires T.NoSeparator([time, status, response], ',')
    requires conv.toFloat(time) == Some(t) && conv.toInt(status) == Some(s) && conv.toFloat(response) == Some(x)
    ensures ParseLine(Graphs, conv, T.Join([time, status, response], ',')) == Ok([Float(t), Int(s), Float(x), Int(0)])
    ensures ParseLine(Legacy, conv, T.Join([time, status, response], ',')) == Err(IndexError)
  {
    var fields := [time, status, response];
    T.SplitJoin(fields, ',');
    assert T.Split(T.Join(fields, ','), ',') == fields;
    assert Extra(fields) == [];
    assert Texts([]) == [];
    assert Elapsed(Graphs, conv, fields, s) == Ok(Int(0));
    var values := [Float(t), Int(s), Float(x), Int(0)];
    assert fields[0] == time && fields[1] == status && fields[2] == response;
    assert values + [] == values;
  }

  /** A position of `c` with no `c` after it is the last one. */
  lemma LastIndexIs(s: string, c: char, i: nat)
    requires i < |s| && s[i] == c && c !in s[i + 1..]
    ensures LastIndex(s, c) == Some(i)
  {
    assert c in s;
  }

  /** The base name of `dir/name` is `name` when `name` has no '/'. */
  lemma BasenameOf(dir: string, name: string)
    requires '/' !in name
    ensures Basename(dir + "/" + name) == name
  {
    var path := dir + "/" + name;
    assert path[|dir|] == '/' && path[|dir| + 1..] == name;
    LastIndexIs(path, '/', |dir|);
  }

  /** The stem of `base.ext` is `base` when neither part holds a '.'. */
  lemma StemOf(base: string, ext: string)
    requires |base| > 0 && '.' !in base && '.' !in ext
    ensures Stem(base + "." + ext) == base
  {
    var name := base + "." + ext;
    assert name[|base|] == '.' && name[|base| + 1..] == ext && name[..|base|] == base;
    LastIndexIs(name, '.', |base|);
    assert base[0] != '.';
  }

  /** The default name of `dir/base.ext` is `base`, when neither part holds a '.' or '/'. */
  lemma NameOfLog(dir: string, base: string, ext: string)
    requires |base| > 0 && '.' !in base && '/' !in base && '.' !in ext && '/' !in ext
    ensures Stem(Basename(dir + "/" + base + "." + ext)) == base
  {
    var name := base + "." + ext;
    assert '/' !in name;
    assert dir + "/" + base + "." + ext == dir + "/" + name;
    BasenameOf(dir, name);
    StemOf(base, ext);
  }

  /** A name that starts with its only '.' is its own default name. */
  lemma HiddenName(rest: string)
    requires '.' !in rest && '/' !in rest
    ensures Stem(Basename("." + rest)) == "." + rest
  {
    var name := "." + rest;
    assert '/' !in name;
    assert name[1..] == rest;
    LastIndexIs(name, '.', 0);
    assert AllDots(name[..0]);
  }

  /** `series(field)`: one field of every record; `IndexError` when a record is too short. */
  function Series(resp: Response, field: nat): (r: Result<seq<Value>>)
    ensures r.Ok? <==> forall i :: 0 <= i < |resp.records| ==> field < |resp.records[i]|
    ensures r.Ok? ==>
      && |r.value| == |resp.records|
      && forall i :: 0 <= i < |r.value| ==> r.value[i] == resp.records[i][field]
  {
    if forall i :: 0 <= i < |resp.records| ==> field < |resp.records[i]| then
      Ok(seq(|resp.records|, i requires 0 <= i < |resp.records| => resp.records[i][field]))
    else Err(IndexError)
  }

  /** Every field of a parsed log has the four standard fields. */
  lemma ParsedSeries(layout: Layout, conv: Conversions, file: string, lines: seq<string>, name: Option<string>, field: nat)
    requires Parse(layout, conv, file, lines, name).Ok? && field <= FIELD_ELAPSE
    ensures Series(Parse(layout, conv, file, lines, name).value, field).Ok?
  {
    var records := ParseLines(layout, conv, lines).value;
    var rs := Parse(layout, conv, file, lines, name).value.records;
    forall i | 0 <= i < |rs|
      ensures field < |rs[i]|
    {
      assert records[i] == ParseLine(layout, conv, lines[i]).value;
    }
  }

  /** `filter(func)`: the records `keep` accepts, in order, under the same name. */
  function Filter(resp: Response, keep: Record -> bool): (r: Response)
    ensures r.name == resp.name && |r.records| <= |resp.records|
    ensures forall x :: x in r.records <==> x in resp.records && keep(x)
    decreases |resp.records|
  {
    if |resp.records| == 0 then resp
    else
      var rest := Filter(resp.(records := resp.records[1..]), keep).records;
      var head := resp.records[0];
      assert forall x :: x in resp.records <==> x == head || x in resp.records[1..];
      Response(if keep(head) then [head] + rest else rest, resp.name)
  }

  /** A filter and its complement share out the records. */
  lemma {:induction false} FilterSplits(resp: Response, keep: Record -> bool)
    ensures |Filter(resp, keep).records| + |Filter(resp, x => !keep(x)).records| == |resp.records|
    decreases |resp.records|
  {
    if |resp.records| > 0 {
      FilterSplits(resp.(records := resp.records[1..]), keep);
    }
  }

  /** `length()`. */
  function Length(resp: Response): (n: nat)
    ensures n == 0 <==> resp.records == []
  {
    |resp.records|
  }

  /** The key of a record: the mapper applied to one field. */
  function FieldKey<K>(field: nat, mapper: Value -> K): Record -> K {
    r => mapper(if field < |r| then r[field] else Str(""))
  }

  /**
   * `groupby(field, sort = False, mapper)`: one response per key, keys in
   * order of first appearance, each with the records of its key in their
   * order and the name of the whole; `IndexError` when a record lacks the
   * field.
   */
  method GroupBy<K(==)>(resp: Response, field: nat, mapper: Value -> K) returns (r: Result<seq<Response>>)
    ensures r.Err? <==> exists i :: 0 <= i < |resp.records| && |resp.records[i]| <= field
    ensures r.Ok? ==> var keys := G.Keys(resp.records, FieldKey(field, mapper));
      |r.value| == |keys|
      && forall i :: 0 <= i < |keys| ==>
        r.value[i] == Response(G.Group(resp.records, FieldKey(field, mapper), keys[i]), resp.name)
  {
    if exists i :: 0 <= i < |resp.records| && |resp.records[i]| <= field {
      return Err(IndexError);
    }
    var keys, groups := G.GroupBy(resp.records, FieldKey(field, mapper));
    r := Ok(seq(|groups|, i requires 0 <= i < |groups| => Response(groups[i], resp.name)));
  }

  /** Python's `==` on field values: an int and a float compare by value, text only equals text. */
  predicate PyEq(a: Value, b: Value) {
    || a == b
    || (a.Int? && b.Float? && a.i as real == b.f)
    || (a.Float? && b.Int? && a.f == b.i as real)
  }

  /**
   * The dictionary key a field value stands for: an int and a float of
   * equal value hash alike and compare equal, so they are one key.
   */
  function DictKey(v: Value): (k: Value)
    ensures !k.Int?
  {
    match v
    case Int(i) => Float(i as real)
    case _ => v
  }

  /** Two field values are one dictionary key exactly when Python finds them equal. */
  lemma DictKeyIsPyEq(a: Value, b: Value)
    ensures DictKey(a) == DictKey(b) <==> PyEq(a, b)
  {
  }

  /**
   * The responses split records by a field as Python's `==` does: records
   * of one response have equal fields, records of two responses do not.
   */
  predicate EqualityClasses(gs: seq<Response>, field: nat) {
    && (forall i, p, q :: 0 <= i < |gs| && 0 <= p < |gs[i].records| && 0 <= q < |gs[i].records| ==>
          && field < |gs[i].records[p]| && field < |gs[i].records[q]|
          && PyEq(gs[i].records[p][field], gs[i].records[q][field]))
    && (forall i, j, p, q :: 0 <= i < j < |gs| && 0 <= p < |gs[i].records| && 0 <= q < |gs[j].records| ==>
          && field < |gs[i].records[p]| && field < |gs[j].records[q]|
          && !PyEq(gs[i].records[p][field], gs[j].records[q][field]))
  }

  /**
   * `groupby(field, sort = False)` with no mapper: the field itself is the
   * dictionary key, so the records of one response have Python-equal
   * fields and records of different responses do not.
   */
  method GroupByField(resp: Response, field: nat) returns (r: Result<seq<Response>>)
    ensures r.Err? <==> exists i :: 0 <= i < |resp.records| && |resp.records[i]| <= field
    ensures r.Ok? ==> var keys := G.Keys(resp.records, FieldKey(field, DictKey));
      |r.value| == |keys|
      && forall i :: 0 <= i < |keys| ==>
        r.value[i] == Response(G.Group(resp.records, FieldKey(field, DictKey), keys[i]), resp.name)
    ensures r.Ok? ==> EqualityClasses(r.value, field)
  {
    r := GroupBy(resp, field, DictKey);
    if r.Ok? {
      GroupsAreClasses(resp.records, field, r.value);
    }
  }

  /** Responses holding the groups by a field's dictionary key are its equality classes. */
  lemma GroupsAreClasses(s: seq<Record>, field: nat, gs: seq<Response>)
    requires forall k :: 0 <= k < |s| ==> field < |s[k]|
    requires var keys := G.Keys(s, FieldKey(field, DictKey));
      |gs| == |keys| && forall i :: 0 <= i < |keys| ==> gs[i].records == G.Group(s, FieldKey(field, DictKey), keys[i])
    ensures EqualityClasses(gs, field)
  {
    var keys := G.Keys(s, FieldKey(field, DictKey));
    forall i, p, q | 0 <= i < |gs| && 0 <= p < |gs[i].records| && 0 <= q < |gs[i].records|
      ensures && field < |gs[i].records[p]| && field < |gs[i].records[q]|
              && PyEq(gs[i].records[p][field], gs[i].records[q][field])
    {
      SameGroupPyEq(s, field, keys[i], gs[i].records[p], gs[i].records[q]);
    }
    forall i, j, p, q | 0 <= i < j < |gs| && 0 <= p < |gs[i].records| && 0 <= q < |gs[j].records|
      ensures && field < |gs[i].records[p]| && field < |gs[j].records[q]|
              && !PyEq(gs[i].records[p][field], gs[j].records[q][field])
    {
      OtherGroupNotPyEq(s, field, keys[i], keys[j], gs[i].records[p], gs[j].records[q]);
    }
  }

  /** Two records of one group by a field's dictionary key have Python-equal fields. */
  lemma SameGroupPyEq(s: seq<Record>, field: nat, k: Value, a: Record, b: Record)
    requires forall i :: 0 <= i < |s| ==> field < |s[i]|
    requires a in G.Group(s, FieldKey(field, DictKey), k) && b in G.Group(s, FieldKey(field, DictKey), k)
    ensures field < |a| && field < |b| && PyEq(a[field], b[field])
  {
    InFieldGroup(s, field, k, a);
    InFieldGroup(s, field, k, b);
    DictKeyIsPyEq(a[field], b[field]);
  }

  /** Records of the groups of two different keys have fields Python finds unequal. */
  lemma OtherGroupNotPyEq(s: seq<Record>, field: nat, k: Value, k': Value, a: Record, b: Record)
    requires forall i :: 0 <= i < |s| ==> field < |s[i]|
    requires k != k'
    requires a in G.Group(s, FieldKey(field, DictKey), k) && b in G.Group(s, FieldKey(field, DictKey), k')
    ensures field < |a| && field < |b| && !PyEq(a[field], b[field])
  {
    InFieldGroup(s, field, k, a);
    InFieldGroup(s, field, k', b);
    DictKeyIsPyEq(a[field], b[field]);
  }

  /** A record in the group of key `k` has the field, and the field stands for `k`. */
  lemma InFieldGroup(s: seq<Record>, field: nat, k: Value, a: Record)
    requires forall i :: 0 <= i < |s| ==> field < |s[i]|
    requires a in G.Group(s, FieldKey(field, DictKey), k)
    ensures field < |a| && DictKey(a[field]) == k
  {
    G.GroupMembers(s, FieldKey(field, DictKey), k);
    var i :| 0 <= i < |s| && s[i] == a;
  }

  /**
   * A line without an elapsed field (read as the int 0) and a line whose
   * elapsed time reads as 0.0 fall into one group.
   */
  lemma ZeroElapsedOneGroup(a: Record, b: Record)
    requires |a| > FIELD_ELAPSE && a[FIELD_ELAPSE] == Int(0)
    requires |b| > FIELD_ELAPSE && b[FIELD_ELAPSE] == Float(0.0)
    ensures G.Keys([a, b], FieldKey(FIELD_ELAPSE, DictKey)) == [Float(0.0)]
  {
    var key := FieldKey(FIELD_ELAPSE, DictKey);
    assert key(a) == Float(0.0) && key(b) == Float(0.0);
    assert [a, b][..1] == [a];
    assert [a][..0] == [];
    assert G.Keys([a], key) == [Float(0.0)];
  }

  /**
   * `groupby(field, sort = True, mapper)` with an integer-valued mapper:
   * the same responses, by ascending key.
   */
  method GroupBySorted(resp: Response, field: nat, mapper: Value -> int) returns (r: Result<seq<Response>>)
    ensures r.Err? <==> exists i :: 0 <= i < |resp.records| && |resp.records[i]| <= field
    ensures r.Ok? ==> exists keys: seq<int> ::
      && multiset(keys) == multiset(G.Keys(resp.records, FieldKey(field, mapper)))
      && (forall i, j :: 0 <= i < j < |keys| ==> keys[i] < keys[j])
      && |r.value| == |keys|
      && forall i :: 0 <= i < |keys| ==>
        r.value[i] == Response(G.Group(resp.records, FieldKey(field, mapper), keys[i]), resp.name)
  {
    if exists i :: 0 <= i < |resp.records| && |resp.records[i]| <= field {
      return Err(IndexError);
    }
    var keys, groups := G.GroupBySorted(resp.records, FieldKey(field, mapper));
    r := Ok(seq(|groups|, i requires 0 <= i < |groups| => Response(groups[i], resp.name)));
  }

  /** The grouped responses together hold every record of the whole exactly once. */
  lemma GroupsCoverResponse<K>(resp: Response, key: Record -> K)
    ensures var keys := G.Keys(resp.records, key);
      multiset(G.Flatten(G.Groups(resp.records, key, keys))) == multiset(resp.records)
      && |G.Flatten(G.Groups(resp.records, key, keys))| == Length(resp)
  {
    G.GroupsPartition(resp.records, key);
    var f := G.Flatten(G.Groups(resp.records, key, G.Keys(resp.records, key)));
    assert |multiset(f)| == |f|;
    assert |multiset(resp.records)| == |resp.records|;
  }
}

=== FILE: sampler.dfy ===
/**
 * Samples and the cgroup value parsers of the monitor's sampler package
 * (`ics/monitor/sampler/sampler.go`).  Times are integers of nanoseconds;
 * sample values are reals.  The file reads are not modelled.
 */
module Sampling {
  import opened Optional
  import opened GoInt
  import opened Text
  import S = GoStrconv

  datatype Sample = Sample(value: real, time: int)

  datatype SampleError =
    | ErrNotValidFormat
    | ErrNotEnoughData
    | ErrConvert(param: string, cause: S.NumError)

  /** `NewDiff`: the change since `last`, at this sample's time. */
  function NewDiff(s: Sample, last: Sample): (d: Sample)
    ensures d.time == s.time
    ensures last.value + d.value == s.value
  {
    Sample(s.value - last.value, s.time)
  }

  /**
   * `NewRate`: the change since `last` per nanosecond, at this sample's
   * time.  `None` is the division by a zero interval, which Go answers
   * with an infinity or NaN.
   */
  function NewRate(s: Sample, last: Sample): (r: Option<Sample>)
    ensures r.None? <==> s.time == last.time
    ensures r.Some? ==> r.value.time == s.time
    ensures r.Some? ==> r.value.value * ((s.time - last.time) as real) == NewDiff(s, last).value
  {
    if s.time == last.time then None
    else Some(Sample((s.value - last.value) / ((s.time - last.time) as real), s.time))
  }

  /**
   * `parseUint`: `ParseUint`, except that a negative integer (which some
   * kernels report for memory statistics) saturates to 0 without error,
   * whether or not it fits in an int64.
   */
  function ParseUint(s: string): (r: S.NumResult)
    ensures S.ParseUint(s).err == None ==> r == S.ParseUint(s)
    ensures r.err != None ==> r == S.ParseUint(s)
    ensures r.err == None ==> 0 <= r.value <= MAX_UINT64
  {
    var u := S.ParseUint(s);
    if u.err == None then u
    else
      var i := S.ParseInt(s);
      if i.err == None && i.value < 0 then S.NumResult(0, None)
      else if i.err == Some(S.ErrRange) && i.value < 0 then S.NumResult(0, None)
      else u
  }

  /** The parse succeeds exactly for unsigned values and for negative integers, and fails as `ParseUint` does otherwise. */
  lemma ParseUintOutcome(s: string)
    ensures S.ParseUint(s).err == None ==> ParseUint(s) == S.ParseUint(s)
    ensures S.ParseUint(s).err != None ==>
      (ParseUint(s).err == None <==> S.ParseInt(s).err != Some(S.ErrSyntax) && S.ParseInt(s).value < 0)
    ensures ParseUint(s).err != None ==> ParseUint(s) == S.ParseUint(s)
    ensures ParseUint(s).err == None ==> 0 <= ParseUint(s).value <= MAX_UINT64
  {
  }

  /** A digit string that fits in 64 bits parses to its value. */
  lemma ParseUintDigits(s: string)
    requires |s| > 0 && S.AllDigits(s) && S.Value(s) <= MAX_UINT64
    ensures ParseUint(s) == S.NumResult(S.Value(s), None)
  {
    S.ParseUintDigits(s);
  }

  /**
   * A minus sign before a positive digit string saturates to zero, both
   * within the int64 range and beyond it.
   */
  lemma NegativeSaturates(digits: string)
    requires |digits| > 0 && S.AllDigits(digits) && S.Value(digits) > 0
    ensures ParseUint("-" + digits) == S.NumResult(0, None)
  {
    var s := "-" + digits;
    assert !S.IsDigit(s[0]);
    assert s[1..] == digits;
    S.ParseUintDigits(digits);
  }

  /** "-0" is not negative: it keeps `ParseUint`'s syntax error. */
  lemma MinusZeroRejected()
    ensures ParseUint("-0") == S.NumResult(0, Some(S.ErrSyntax))
  {
    assert "-0"[1..] == "0";
    S.ParseUintDigits("0");
  }

  /** The `(key, value, err)` triple of `getCgroupParamKeyValue`. */
  datatype KeyValue = KeyValue(key: string, value: int, err: Option<SampleError>)

  /**
   * `getCgroupParamKeyValue`: a line of exactly two white-space separated
   * fields is a name and an unsigned value; any other line is
   * `ErrNotValidFormat`, and a bad value is a conversion error.
   */
  function CgroupParamKeyValue(t: string): (r: KeyValue)
    ensures r.err != None ==> r.key == "" && r.value == 0
    ensures |Fields(t)| != 2 ==> r.err == Some(ErrNotValidFormat)
    ensures |Fields(t)| == 2 ==> (r.err == None <==> ParseUint(Fields(t)[1]).err == None)
    ensures r.err == None ==> |Fields(t)| == 2 && r.key == Fields(t)[0] && r.value == ParseUint(Fields(t)[1]).value
  {
    var parts := Fields(t);
    if |parts| == 2 then
      var v := ParseUint(parts[1]);
      if v.err != None then KeyValue("", 0, Some(ErrConvert(parts[1], v.err.value)))
      else KeyValue(parts[0], v.value, None)
    else KeyValue("", 0, Some(ErrNotValidFormat))
  }

  /** A name and a decimal value written with a blank between them read back as that pair. */
  lemma KeyValueRoundTrip(key: string, v: nat)
    requires |key| > 0 && !HasSpace(key) && v <= MAX_UINT64
    ensures CgroupParamKeyValue(key + " " + S.Itoa(v)) == KeyValue(key, v, None)
  {
    var value := S.Itoa(v);
    assert !HasSpace(value) by {
      forall i | 0 <= i < |value| ensures !IsSpace(value[i]) {
        assert S.IsDigit(value[i]);
      }
    }
    assert Unwords([value]) == value;
    assert Unwords([key, value]) == key + " " + value;
    FieldsUnwords([key, value]);
    S.ValueItoa(v);
    ParseUintDigits(value);
  }

  /** A NO-BREAK SPACE separates fields as a blank does, so "a\u00A0b 5" has three fields and is malformed. */
  lemma NoBreakSpaceSeparates()
    ensures CgroupParamKeyValue("a\U{00A0}b 5").err == Some(ErrNotValidFormat)
  {
    var t := "a\U{00A0}b 5";
    assert Fields(t) == ["a"] + Fields(t[1..]) by {
      assert IsSpace(t[1]);
      assert WordPrefix(t) == 1;
      assert t[..1] == "a";
    }
    assert Fields(t[1..]) == Fields(t[2..]);
    assert t[2..] == "b 5";
    assert Fields("b 5") == ["b"] + Fields(" 5") by {
      assert WordPrefix("b 5") == 1;
      assert "b 5"[..1] == "b" && "b 5"[1..] == " 5";
    }
    assert Fields(" 5") == Fields("5");
    assert Fields("5") == ["5"] by {
      var five := "5";
      assert !IsSpace(five[0]) && five[1..] == "";
      assert WordPrefix(five[1..]) == 0;
      assert WordPrefix(five) == 1;
      assert five[..1] == five && five[1..] == [];
      assert Fields(five[1..]) == [];
      assert Fields(five) == [five[..1]] + Fields(five[1..]);
    }
  }
}

=== FILE: sampler_cache.dfy ===
/**
 * `SamplerCache` (`ics/monitor/sampler/sampler_cache.go`): remembers the
 * wrapped sampler's last answer and its timestamp, and answers a repeated
 * timestamp from memory.  What the wrapped sampler would answer is an
 * input, since it may have state of its own.
 */
module SamplerCaches {
  import opened Optional
  import opened Sampling

  /** A sampler's `(*Sample, error)` pair; `None` is nil. */
  datatype Answer = Answer(sample: Option<Sample>, err: Option<SampleError>)

  datatype SamplerCache = SamplerCache(last: Answer, lastTime: Option<int>)

  /** `NewSamplerCache`: nothing sampled yet. */
  function NewSamplerCache(): (c: SamplerCache)
    ensures c.lastTime == None
  {
    SamplerCache(Answer(None, None), None)
  }

  /**
   * `Sample(ts)`: `delegated` is what the wrapped sampler answers if it is
   * asked.  Returns the new cache, the answer, and whether it was asked.
   */
  function CachedSample(c: SamplerCache, ts: int, delegated: Answer): (r: (SamplerCache, Answer, bool))
    ensures r.2 <==> c.lastTime != Some(ts)
    ensures r.2 ==> r.1 == delegated && r.0 == SamplerCache(delegated, Some(ts))
    ensures !r.2 ==> r.1 == c.last && r.0 == c
  {
    if c.lastTime == None || c.lastTime.value != ts then
      (SamplerCache(delegated, Some(ts)), delegated, true)
    else (c, c.last, false)
  }

  /** The first call always asks the wrapped sampler. */
  lemma FirstCallDelegates(ts: int, delegated: Answer)
    ensures CachedSample(NewSamplerCache(), ts, delegated) == (SamplerCache(delegated, Some(ts)), delegated, true)
  {
  }

  /**
   * Asking twice for the same time asks the wrapped sampler at most once:
   * the second answer, error included, is the first one, whatever the
   * wrapped sampler would have said.
   */
  lemma RepeatIsCached(c: SamplerCache, ts: int, first: Answer, second: Answer)
    ensures var (c1, a1, _) := CachedSample(c, ts, first);
      var (c2, a2, asked) := CachedSample(c1, ts, second);
      !asked && a2 == a1 && c2 == c1
  {
  }
}

=== FILE: scheduler_status.dfy ===
/**
 * The scheduler lifecycle status shared by the two scheduler variants
 * (`ics` and `watchdog`): LAUNCHING -> READY -> SERVING <-> SHARING.
 * Each transition returns the status to adopt together with an error; a
 * failed transition hands back the status it was given.
 */
module SchedulerStatus {
  import opened Optional

  datatype Status = Launching | Ready | Serving | Sharing

  datatype StatusError = ErrStatusTransition | ErrStatusPendding

  /** The `(SchedulerStatus, error)` pair of a transition; `err == None` is success. */
  datatype Transition = Transition(status: Status, err: Option<StatusError>)

  /** Which scheduler's table: they differ only in `share`. */
  datatype Variant = Ics | Watchdog

  datatype Op = OpReady | OpServe | OpSwap | OpShare | OpUnshare | OpPromote

  function Fail(s: Status): Transition {
    Transition(s, Some(ErrStatusTransition))
  }

  /** `ready()`: LAUNCHING to READY. */
  function ToReady(s: Status): (r: Transition)
    ensures r.err == None <==> s == Launching
    ensures r.err == None ==> r.status == Status.Ready
    ensures r.err != None ==> r == Fail(s)
  {
    if s == Launching then Transition(Status.Ready, None) else Fail(s)
  }

  /** `serve()`: READY to SERVING; asked while LAUNCHING it tells the caller to wait. */
  function Serve(s: Status): (r: Transition)
    ensures r.err == None <==> s == Status.Ready
    ensures r.err == None ==> r.status == Serving
    ensures r.err == Some(ErrStatusPendding) <==> s == Launching
    ensures r.err != None ==> r.status == s
  {
    if s == Status.Ready then Transition(Serving, None)
    else if s == Launching then Transition(s, Some(ErrStatusPendding))
    else Fail(s)
  }

  /** `swap()`: SERVING stays SERVING; anything else fails. */
  function Swap(s: Status): (r: Transition)
    ensures r.err == None <==> s == Serving
    ensures r.status == s
  {
    if s == Serving then Transition(Serving, None) else Fail(s)
  }

  /** The `ics` share: SERVING only. */
  function Share(s: Status): (r: Transition)
    ensures r.err == None <==> s == Serving
    ensures r.err == None ==> r.status == Sharing
    ensures r.err != None ==> r == Fail(s)
  {
    if s == Serving then Transition(Sharing, None) else Fail(s)
  }

  /** The `watchdog` share: SERVING or SHARING. */
  function ShareWatchdog(s: Status): Transition {
    if s == Serving || s == Sharing then Transition(Sharing, None) else Fail(s)
  }

  /** `unshare()`: SHARING back to SERVING. */
  function Unshare(s: Status): (r: Transition)
    ensures r.err == None <==> s == Sharing
    ensures r.err == None ==> r.status == Serving
    ensures r.err != None ==> r == Fail(s)
  {
    if s == Sharing then Transition(Serving, None) else Fail(s)
  }

  /** `promote()`: SHARING to SERVING, like `unshare()`. */
  function Promote(s: Status): (r: Transition)
    ensures r == Unshare(s)
  {
    if s == Sharing then Transition(Serving, None) else Fail(s)
  }

  /** Dispatch of an operation to the transition of the given variant. */
  function Apply(v: Variant, op: Op, s: Status): Transition {
    match op
    case OpReady => ToReady(s)
    case OpServe => Serve(s)
    case OpSwap => Swap(s)
    case OpShare => if v == Ics then Share(s) else ShareWatchdog(s)
    case OpUnshare => Unshare(s)
    case OpPromote => Promote(s)
  }

  /** The lifecycle diagram as an explicit set of edges `(operation, from, to)`. */
  function Edges(v: Variant): set<(Op, Status, Status)> {
    var common := {
      (OpReady, Launching, Status.Ready),
      (OpServe, Status.Ready, Serving),
      (OpSwap, Serving, Serving),
      (OpShare, Serving, Sharing),
      (OpUnshare, Sharing, Serving),
      (OpPromote, Sharing, Serving)
    };
    if v == Ics then common else common + {(OpShare, Sharing, Sharing)}
  }

  /**
   * The transition functions implement exactly the edge table: a transition
   * succeeds with target `t` iff `(op, s, t)` is an edge; otherwise the status
   * is unchanged, and the error is "pending" exactly for serve in LAUNCHING.
   */
  lemma TransitionTable(v: Variant, op: Op, s: Status, t: Status)
    ensures (op, s, t) in Edges(v) <==> Apply(v, op, s) == Transition(t, None)
    ensures Apply(v, op, s).err != None ==> Apply(v, op, s).status == s
    ensures Apply(v, op, s).err == Some(ErrStatusPendding) <==> op == OpServe && s == Launching
  {
  }

  /** The two tables differ in exactly one edge: share from SHARING. */
  lemma VariantsDiffer(op: Op, s: Status)
    ensures Apply(Ics, op, s) != Apply(Watchdog, op, s) <==> op == OpShare && s == Sharing
  {
  }

  /** The `watchdog` share is idempotent; the `ics` share refuses a second share. */
  lemma ShareIdempotence(s: Status)
    ensures ShareWatchdog(s).err == None ==> ShareWatchdog(ShareWatchdog(s).status) == ShareWatchdog(s)
    ensures Share(s).err == None ==> Share(Share(s).status).err == Some(ErrStatusTransition)
  {
  }
}

=== FILE: series.dfy ===
/**
 * Sums over a history of real values, the reference the accumulators of
 * the monitor and the benchmark are checked against.  `real` stands in
 * for Go's `float64` and Python's `float` throughout; rounding is not
 * modelled.
 */
module Series {
  /** The total of the values. */
  function Total(s: seq<real>): real {
    if |s| == 0 then 0.0 else s[0] + Total(s[1..])
  }

  /** The total of the squares of the values. */
  function TotalSquares(s: seq<real>): real {
    if |s| == 0 then 0.0 else s[0] * s[0] + TotalSquares(s[1..])
  }

  lemma {:induction false} TotalAppend(s: seq<real>, v: real)
    ensures Total(s + [v]) == Total(s) + v
    ensures TotalSquares(s + [v]) == TotalSquares(s) + v * v
  {
    if |s| > 0 {
      assert (s + [v])[1..] == s[1..] + [v];
      TotalAppend(s[1..], v);
    }
  }

  lemma {:induction false} TotalConcat(a: seq<real>, b: seq<real>)
    ensures Total(a + b) == Total(a) + Total(b)
    ensures TotalSquares(a + b) == TotalSquares(a) + TotalSquares(b)
    decreases |a|
  {
    if |a| == 0 {
      assert a + b == b;
    } else {
      assert (a + b)[1..] == a[1..] + b;
      TotalConcat(a[1..], b);
    }
  }

  function Min(a: int, b: int): (m: int)
    ensures m <= a && m <= b && (m == a || m == b)
  {
    if a < b then a else b
  }

  /** The sum of the squared deviations of the values from `c`. */
  function SquaredDeviations(s: seq<real>, c: real): real {
    if |s| == 0 then 0.0 else (s[0] - c) * (s[0] - c) + SquaredDeviations(s[1..], c)
  }

  lemma {:induction false} SquaredDeviationsExpand(s: seq<real>, c: real)
    ensures SquaredDeviations(s, c) == TotalSquares(s) - 2.0 * c * Total(s) + (|s| as real) * c * c
  {
    if |s| > 0 {
      SquaredDeviationsExpand(s[1..], c);
      var x := s[0];
      assert (x - c) * (x - c) == x * x - 2.0 * c * x + c * c;
      assert (|s| as real) * c * c == c * c + (|s[1..]| as real) * c * c;
    }
  }

  /**
   * The running-sums formula `(n·Σx² − (Σx)²) / (n(n−1))` is the sample
   * variance: the squared deviations from the mean `c` over `n − 1`.
   */
  lemma SampleVariance(s: seq<real>, c: real)
    requires |s| > 1 && c == Total(s) / (|s| as real)
    ensures Variance(|s| as real, Total(s), TotalSquares(s)) == SquaredDeviations(s, c) / (|s| as real - 1.0)
  {
    MeanTimesCount(c, Total(s), |s| as real);
    VarianceAboutMean(s, c);
  }

  lemma VarianceAboutMean(s: seq<real>, c: real)
    requires |s| > 1 && c * (|s| as real) == Total(s)
    ensures Variance(|s| as real, Total(s), TotalSquares(s)) == SquaredDeviations(s, c) / (|s| as real - 1.0)
  {
    SquaredDeviationsExpand(s, c);
    VarianceAlgebra(|s| as real, Total(s), TotalSquares(s), c, SquaredDeviations(s, c));
  }

  /** A mean `t / n`, multiplied back by the count, gives the total. */
  lemma MeanTimesCount(c: real, t: real, n: real)
    requires n != 0.0 && c == t / n
    ensures c * n == t
  {
  }

  /** The variance from running sums: `(n·Σx² − (Σx)²) / (n(n−1))`. */
  function Variance(n: real, x: real, x2: real): real
    requires n > 1.0
  {
    (n * x2 - x * x) / (n * (n - 1.0))
  }

  lemma VarianceAlgebra(n: real, t: real, q: real, c: real, d: real)
    requires n > 1.0 && c * n == t
    requires d == q - 2.0 * c * t + n * c * c
    ensures Variance(n, t, q) == d / (n - 1.0)
  {
    assert n * c * c == t * c;
    assert d == q - t * c;
    assert n * d == n * q - t * t;
    var m := n - 1.0;
    var r := d / m;
    assert r * m == d;
    assert n * q - t * t == (n * m) * r;
    DivideProduct(n * q - t * t, n * m, r);
  }

  lemma DivideProduct(x: real, y: real, r: real)
    requires y != 0.0 && x == y * r
    ensures x / y == r
  {
  }
}

=== FILE: single_run.dfy ===
/**
 * The benchmark's single-problem driver (`benchmark/common/single.py`):
 * run a problem until the confidence interval of the mean is within
 * `target` percent of the mean.  The problem's answers are the sequence
 * `rets`, in call order; the model stops when they run out, where the
 * driver would keep calling.  scipy's `norm.ppf`, `t.ppf` and
 * `math.sqrt` are parameters.
 */
module SingleRun {
  import opened Optional
  import opened Series

  /** The outside numerics: the normal and Student-t quantiles and the square root. */
  datatype Numerics = Numerics(normPpf: real -> real, tPpf: (real, nat) -> real, sqrt: real -> real)

  datatype RunResult =
    | Converged(iterations: nat, mean: real, accuracy: real)
      /** Python raises `ZeroDivisionError`: a zero mean, or no iteration at all. */
    | ZeroDivision(iterations: nat)
      /** The answers ran out while the accuracy was still above the target. */
    | OutOfAnswers(iterations: nat)

  /** The two-sided quantile level for `confidence`. */
  function Level(confidence: real): real {
    1.0 - (1.0 - confidence) / 2.0
  }

  /** The quantile: Student's t with `cnt − 1` degrees of freedom below 30 samples, the normal one from 30 on. */
  function Quantile(num: Numerics, confidence: real, cnt: nat): (r: real)
    requires cnt > 1
    ensures cnt < 30 ==> r == num.tPpf(Level(confidence), cnt - 1) && cnt - 1 >= 1
    ensures cnt >= 30 ==> r == num.normPpf(Level(confidence))
  {
    if cnt < 30 then num.tPpf(Level(confidence), cnt - 1) else num.normPpf(Level(confidence))
  }

  /**
   * The accuracy after the answers `vals`: the half-width of the
   * confidence interval as a percentage of the mean, or `None` when the
   * mean is zero.
   */
  function Accuracy(num: Numerics, confidence: real, vals: seq<real>): (r: Option<real>)
    requires |vals| > 1
    ensures r.None? <==> Total(vals) == 0.0
  {
    var n := |vals| as real;
    var mean := Total(vals) / n;
    var variance := Variance(n, Total(vals), TotalSquares(vals));
    if mean == 0.0 then None
    else Some(Percentage(Quantile(num, confidence, |vals|), num.sqrt(variance / n), mean))
  }

  /** `ppf * sqrt(var / cnt) / mean * 100`: the half-width relative to the mean, in percent. */
  function Percentage(ppf: real, deviation: real, mean: real): real
    requires mean != 0.0
  {
    ppf * deviation / mean * 100.0
  }

  /** The accuracy of `vals` is known and above the target: the driver goes on. */
  predicate KeepsGoing(num: Numerics, confidence: real, target: real, vals: seq<real>)
    requires |vals| > 1
  {
    Accuracy(num, confidence, vals).Some? && Accuracy(num, confidence, vals).value > target
  }

  /** `run`: the driver's loop over the answers. */
  method Run(target: real, confidence: real, rets: seq<real>, num: Numerics) returns (r: RunResult)
    ensures target >= 100.0 <==> r == ZeroDivision(0)
    ensures r.Converged? ==>
      && 2 <= r.iterations <= |rets|
      && Accuracy(num, confidence, rets[..r.iterations]) == Some(r.accuracy)
      && r.accuracy <= target
      && r.mean == Total(rets[..r.iterations]) / (r.iterations as real)
    ensures r.ZeroDivision? && r.iterations > 0 ==>
      2 <= r.iterations <= |rets| && Accuracy(num, confidence, rets[..r.iterations]).None?
    ensures r.OutOfAnswers? ==> r.iterations == |rets| && target < 100.0
    ensures forall k :: 2 <= k < Iterations(r) ==> KeepsGoing(num, confidence, target, rets[..k])
    ensures r.OutOfAnswers? && |rets| > 1 ==> KeepsGoing(num, confidence, target, rets)
  {
    var accuracy := 100.0;
    var cnt := 0;
    var sum := 0.0;
    var sum2 := 0.0;
    while accuracy > target
      invariant cnt <= |rets|
      invariant sum == Total(rets[..cnt]) && sum2 == TotalSquares(rets[..cnt])
      invariant cnt <= 1 ==> accuracy == 100.0
      invariant cnt > 0 ==> target < 100.0
      invariant cnt > 1 ==> Accuracy(num, confidence, rets[..cnt]) == Some(accuracy)
      invariant forall k :: 2 <= k < cnt ==> KeepsGoing(num, confidence, target, rets[..k])
      decreases |rets| - cnt
    {
      if cnt == |rets| {
        assert rets[..cnt] == rets;
        return OutOfAnswers(cnt);
      }
      assert cnt > 1 ==> KeepsGoing(num, confidence, target, rets[..cnt]);
      var ret := rets[cnt];
      assert rets[..cnt + 1] == rets[..cnt] + [ret];
      TotalAppend(rets[..cnt], ret);
      cnt := cnt + 1;
      sum := sum + ret;
      sum2 := sum2 + ret * ret;
      if cnt > 1 {
        var a := Estimate(num, confidence, cnt, sum, sum2, rets[..cnt]);
        if a.None? {
          return ZeroDivision(cnt);
        }
        accuracy := a.value;
      }
    }
    if cnt == 0 {
      return ZeroDivision(0);
    }
    r := Converged(cnt, sum / (cnt as real), accuracy);
  }

  /** One accuracy update from the running sums; `None` where Python divides by a zero mean. */
  method Estimate(num: Numerics, confidence: real, cnt: nat, sum: real, sum2: real, ghost vals: seq<real>) returns (a: Option<real>)
    requires cnt == |vals| > 1 && sum == Total(vals) && sum2 == TotalSquares(vals)
    ensures a == Accuracy(num, confidence, vals)
  {
    var n := cnt as real;
    var mean := sum / n;
    var variance := Variance(n, sum, sum2);
    assert n == |vals| as real;
    var ppf := num.normPpf(Level(confidence));
    if cnt < 30 {
      ppf := num.tPpf(Level(confidence), cnt - 1);
    }
    assert ppf == Quantile(num, confidence, cnt);
    if mean == 0.0 {
      return None;
    }
    a := Some(Percentage(ppf, num.sqrt(variance / n), mean));
  }

  /** The number of iterations the driver made. */
  function Iterations(r: RunResult): nat {
    match r
    case Converged(k, _, _) => k
    case ZeroDivision(k) => k
    case OutOfAnswers(k) => k
  }

  /**
   * The running-sum variance the accuracy uses is the sample variance of
   * the answers: squared deviations from the mean over `n − 1`.
   */
  lemma AccuracyUsesSampleVariance(vals: seq<real>, mean: real)
    requires |vals| > 1 && mean == Total(vals) / (|vals| as real)
    ensures var n := |vals| as real;
      Variance(n, Total(vals), TotalSquares(vals)) == SquaredDeviations(vals, mean) / (n - 1.0)
  {
    SampleVariance(vals, mean);
  }
}

=== FILE: strconv.dfy ===
/**
 * Decimal parsing as Go's `strconv` package does it for base 10 and 64-bit
 * results: `ParseUint`, `ParseInt` and `Atoi`.  Digits are scanned left to
 * right; the first non-digit is a syntax error and the first digit that makes
 * the value overflow is a range error (reported even if a non-digit follows).
 */
module GoStrconv {
  import opened Optional
  import opened GoInt

  datatype NumError = ErrSyntax | ErrRange

  /** The `(value, err)` pair a strconv parser returns; `err == None` is Go's nil. */
  datatype NumResult = NumResult(value: int, err: Option<NumError>)

  predicate IsDigit(c: char) {
    '0' <= c <= '9'
  }

  function DigitValue(c: char): (d: nat)
    requires IsDigit(c)
    ensures d <= 9
  {
    (c as int) - ('0' as int)
  }

  predicate AllDigits(s: string) {
    forall i :: 0 <= i < |s| ==> IsDigit(s[i])
  }

  /** The value of the digit string `s` read after the already accumulated `acc`. */
  function ValueFrom(s: string, acc: nat): nat
    requires AllDigits(s)
  {
    if |s| == 0 then acc else ValueFrom(s[1..], acc * 10 + DigitValue(s[0]))
  }

  /** The unbounded value of a decimal digit string. */
  function Value(s: string): nat
    requires AllDigits(s)
  {
    ValueFrom(s, 0)
  }

  lemma {:induction false} ValueFromGrows(s: string, acc: nat)
    requires AllDigits(s)
    ensures ValueFrom(s, acc) >= acc
    decreases |s|
  {
    if |s| > 0 {
      ValueFromGrows(s[1..], acc * 10 + DigitValue(s[0]));
    }
  }

  /** Left-to-right scan of Go's `ParseUint` over `s` with `acc` already read. */
  function ScanUint(s: string, acc: nat): (r: NumResult)
    requires acc <= MAX_UINT64
    ensures r.err == None ==> 0 <= r.value <= MAX_UINT64
    ensures r.err == Some(ErrRange) ==> r.value == MAX_UINT64
    decreases |s|
  {
    if |s| == 0 then NumResult(acc, None)
    else if !IsDigit(s[0]) then NumResult(0, Some(ErrSyntax))
    else
      var n := acc * 10 + DigitValue(s[0]);
      if n > MAX_UINT64 then NumResult(MAX_UINT64, Some(ErrRange))
      else ScanUint(s[1..], n)
  }

  /** `strconv.ParseUint(s, 10, 64)`. */
  function ParseUint(s: string): (r: NumResult)
    ensures r.err == None ==> 0 <= r.value <= MAX_UINT64
    ensures r.err == Some(ErrRange) ==> r.value == MAX_UINT64
    ensures |s| == 0 ==> r == NumResult(0, Some(ErrSyntax))
  {
    if |s| == 0 then NumResult(0, Some(ErrSyntax)) else ScanUint(s, 0)
  }

  /** On a digit string the scan yields its value, or the range error past 2^64 - 1. */
  lemma {:induction false} ScanUintDigits(s: string, acc: nat)
    requires acc <= MAX_UINT64
    requires AllDigits(s)
    ensures ValueFrom(s, acc) <= MAX_UINT64 ==> ScanUint(s, acc) == NumResult(ValueFrom(s, acc), None)
    ensures ValueFrom(s, acc) > MAX_UINT64 ==> ScanUint(s, acc) == NumResult(MAX_UINT64, Some(ErrRange))
    decreases |s|
  {
    if |s| > 0 {
      var n := acc * 10 + DigitValue(s[0]);
      ValueFromGrows(s[1..], n);
      if n <= MAX_UINT64 {
        ScanUintDigits(s[1..], n);
      }
    }
  }

  /** A non-empty digit string parses to its value when it fits in 64 bits, else to a range error. */
  lemma ParseUintDigits(s: string)
    requires |s| > 0 && AllDigits(s)
    ensures Value(s) <= MAX_UINT64 ==> ParseUint(s) == NumResult(Value(s), None)
    ensures Value(s) > MAX_UINT64 ==> ParseUint(s) == NumResult(MAX_UINT64, Some(ErrRange))
  {
    ScanUintDigits(s, 0);
  }

  /**
   * `strconv.ParseInt(s, 10, 64)`: an optional sign, then the unsigned digits;
   * out-of-range magnitudes saturate to the int64 bounds with a range error.
   */
  function ParseInt(s: string): (r: NumResult)
    ensures r.err != Some(ErrRange) ==> IsInt64(r.value)
    ensures r.err == Some(ErrRange) ==> r.value == MAX_INT64 || r.value == MIN_INT64
    ensures r.err == Some(ErrSyntax) ==> r.value == 0
  {
    if |s| == 0 then NumResult(0, Some(ErrSyntax))
    else
      var neg := s[0] == '-';
      var digits := if s[0] == '+' || s[0] == '-' then s[1..] else s;
      var u := ParseUint(digits);
      match u.err
      case Some(ErrSyntax) => NumResult(0, Some(ErrSyntax))
      case _ =>
        if !neg && u.value > MAX_INT64 then NumResult(MAX_INT64, Some(ErrRange))
        else if neg && u.value > -MIN_INT64 then NumResult(MIN_INT64, Some(ErrRange))
        else NumResult(if neg then -u.value else u.value, None)
  }

  /** `strconv.Atoi` on a 64-bit platform: the same result as `ParseInt(s, 10, 0)`. */
  function Atoi(s: string): (r: NumResult)
    ensures r.err == None ==> IsInt64(r.value)
    ensures |s| == 0 ==> r == NumResult(0, Some(ErrSyntax))
    ensures r.err == Some(ErrSyntax) ==> r.value == 0
    ensures |s| > 0 && AllDigits(s) && Value(s) <= MAX_INT64 ==> r == NumResult(Value(s), None)
  {
    if |s| > 0 && AllDigits(s) then
      ParseUintDigits(s);
      ParseInt(s)
    else ParseInt(s)
  }

  /** The decimal digit for `d`. */
  function DigitChar(d: nat): (c: char)
    requires d <= 9
    ensures IsDigit(c) && DigitValue(c) == d
  {
    ('0' as int + d) as char
  }

  /** Decimal rendering of a natural number, as `fmt.Sprintf("%d")` or `str` write it. */
  function Itoa(v: nat): (s: string)
    ensures |s| > 0 && AllDigits(s)
  {
    if v < 10 then [DigitChar(v)] else Itoa(v / 10) + [DigitChar(v % 10)]
  }

  /** Reading digit strings one after another continues from where the first ended. */
  lemma {:induction false} ValueFromAppend(a: string, b: string, acc: nat)
    requires AllDigits(a) && AllDigits(b)
    ensures AllDigits(a + b)
    ensures ValueFrom(a + b, acc) == ValueFrom(b, ValueFrom(a, acc))
    decreases |a|
  {
    if |a| == 0 {
      assert a + b == b;
    } else {
      assert (a + b)[0] == a[0];
      assert (a + b)[1..] == a[1..] + b;
      ValueFromAppend(a[1..], b, acc * 10 + DigitValue(a[0]));
    }
  }

  /** The value of the rendering is the number rendered. */
  lemma {:induction false} ValueItoa(v: nat)
    ensures Value(Itoa(v)) == v
  {
    if v < 10 {
      var c := DigitChar(v);
      assert [c][1..] == [];
      assert ValueFrom([c], 0) == ValueFrom([], DigitValue(c));
    } else {
      ValueItoa(v / 10);
      var c := DigitChar(v % 10);
      ValueFromAppend(Itoa(v / 10), [c], 0);
      assert [c][1..] == [];
      assert ValueFrom([c], v / 10) == (v / 10) * 10 + v % 10;
    }
  }

  /** Parsing the decimal rendering of a 64-bit unsigned value gives it back without error. */
  lemma ParseUintItoa(v: nat)
    requires v <= MAX_UINT64
    ensures ParseUint(Itoa(v)) == NumResult(v, None)
  {
    ValueItoa(v);
    ParseUintDigits(Itoa(v));
  }

  /** The rendering of a 64-bit signed integer, with a leading '-' when negative. */
  function FormatInt(v: int): (s: string)
    ensures |s| > 0
    ensures s[0] == '-' <==> v < 0
    ensures v >= 0 ==> AllDigits(s)
  {
    if v < 0 then "-" + Itoa(-v) else Itoa(v)
  }

  /** `Atoi` inverts `FormatInt` on every int64. */
  lemma AtoiFormatInt(v: int)
    requires IsInt64(v)
    ensures Atoi(FormatInt(v)) == NumResult(v, None)
  {
    if v < 0 {
      var s := FormatInt(v);
      assert s[1..] == Itoa(-v);
      ParseUintItoa(-v);
    } else {
      var s := Itoa(v);
      assert s[0] != '-' && s[0] != '+' by { assert IsDigit(s[0]); }
      ParseUintItoa(v);
    }
  }
}

=== FILE: sum.dfy ===
/** The monitor's running `Sum` accumulator (`ics/monitor/model/sum.go`). */
module Sums {
  import opened Series

  datatype Sum = Sum(n: int, sum: real)

  /** `NewSum`: nothing added yet. */
  function NewSum(): (s: Sum)
    ensures s.n == 0 && s.sum == 0.0
  {
    Sum(0, 0.0)
  }

  /** `Add`: one more value; the new total is returned. */
  function Add(s: Sum, val: real): (r: (Sum, real))
    ensures r.0.n == s.n + 1
    ensures r.0.sum - s.sum == val
    ensures r.1 == r.0.sum
  {
    var s' := Sum(s.n + 1, s.sum + val);
    (s', s'.sum)
  }

  /**
   * The accumulator after adding `vals` in order: `N()` has grown by their
   * number and `Sum()` by their total.
   */
  function AddAll(s: Sum, vals: seq<real>): (r: Sum)
    ensures r.n == s.n + |vals|
    ensures r.sum == s.sum + Total(vals)
    decreases |vals|
  {
    if |vals| == 0 then s else AddAll(Add(s, vals[0]).0, vals[1..])
  }

  lemma NewSumCounts(vals: seq<real>)
    ensures AddAll(NewSum(), vals) == Sum(|vals|, Total(vals))
  {
  }
}

=== FILE: text.dfy ===
/**
 * String helpers shared by the configuration readers, the cgroup parser and
 * the CSV tools: splitting on a separator (Go's `strings.Split`, Python's
 * `str.split`), joining, and Go's `strings.Fields`.
 */
module Text {

  /** Index of the first occurrence of `c` in `s`. */
  function IndexOf(s: string, c: char): (i: nat)
    requires c in s
    ensures i < |s| && s[i] == c
    ensures c !in s[..i]
  {
    if s[0] == c then 0 else 1 + IndexOf(s[1..], c)
  }

  /** `parts` joined with `sep` between consecutive parts. */
  function Join(parts: seq<string>, sep: char): string
    requires |parts| >= 1
  {
    if |parts| == 1 then parts[0] else parts[0] + [sep] + Join(parts[1..], sep)
  }

  predicate NoSeparator(parts: seq<string>, sep: char) {
    forall i :: 0 <= i < |parts| ==> sep !in parts[i]
  }

  /**
   * The maximal `sep`-free pieces of `s`, in order; an empty piece appears
   * between two adjacent separators and at either end.  Joining them back
   * gives `s` again.
   */
  function Split(s: string, sep: char): (parts: seq<string>)
    ensures |parts| >= 1
    ensures NoSeparator(parts, sep)
    ensures Join(parts, sep) == s
    decreases |s|
  {
    if sep !in s then [s]
    else
      var i := IndexOf(s, sep);
      var rest := Split(s[i + 1..], sep);
      assert s == s[..i] + [sep] + s[i + 1..];
      [s[..i]] + rest
  }

  /** The first separator of `a + [sep] + b` is the one after `a` when `a` has none. */
  lemma {:induction false} IndexOfAfter(a: string, sep: char, b: string)
    requires sep !in a
    ensures sep in a + [sep] + b
    ensures IndexOf(a + [sep] + b, sep) == |a|
    decreases |a|
  {
    var s := a + [sep] + b;
    assert s[|a|] == sep;
    if |a| > 0 {
      assert s[1..] == a[1..] + [sep] + b;
      IndexOfAfter(a[1..], sep, b);
    }
  }

  /** Splitting a joined list of separator-free parts gives the parts back. */
  lemma {:induction false} SplitJoin(parts: seq<string>, sep: char)
    requires |parts| >= 1
    requires NoSeparator(parts, sep)
    ensures Split(Join(parts, sep), sep) == parts
    decreases |parts|
  {
    if |parts| > 1 {
      var s := Join(parts, sep);
      var tail := Join(parts[1..], sep);
      assert s == parts[0] + [sep] + tail;
      IndexOfAfter(parts[0], sep, tail);
      var i := IndexOf(s, sep);
      assert s[..i] == parts[0];
      assert s[i + 1..] == tail;
      SplitJoin(parts[1..], sep);
    }
  }

  /**
   * The characters `strings.Fields` treats as separators: Go's
   * `unicode.IsSpace`, that is the ASCII white space, NEL and NO-BREAK
   * SPACE, and the other characters of Unicode's White_Space property.
   */
  predicate IsSpace(c: char) {
    || c == ' ' || c == '\t' || c == '\n' || c == '\r' || c == '\U{000B}' || c == '\U{000C}'
    || c == '\U{0085}' || c == '\U{00A0}' || c == '\U{1680}'
    || ('\U{2000}' <= c <= '\U{200A}')
    || c == '\U{2028}' || c == '\U{2029}' || c == '\U{202F}' || c == '\U{205F}' || c == '\U{3000}'
  }

  predicate HasSpace(s: string) {
    exists i :: 0 <= i < |s| && IsSpace(s[i])
  }

  /** Number of leading non-white-space characters of `s`. */
  function WordPrefix(s: string): (k: nat)
    ensures k <= |s|
    ensures forall i :: 0 <= i < k ==> !IsSpace(s[i])
    ensures k < |s| ==> IsSpace(s[k])
  {
    if |s| == 0 || IsSpace(s[0]) then 0 else 1 + WordPrefix(s[1..])
  }

  /**
   * Go's `strings.Fields`: the maximal runs of non-white-space characters of
   * `s`, in order.  Every field is non-empty and free of white space.
   */
  function Fields(s: string): (fs: seq<string>)
    ensures forall i :: 0 <= i < |fs| ==> |fs[i]| > 0 && !HasSpace(fs[i])
    decreases |s|
  {
    if |s| == 0 then []
    else if IsSpace(s[0]) then Fields(s[1..])
    else
      var w := WordPrefix(s);
      [s[..w]] + Fields(s[w..])
  }

  /** The fields written with a single blank between them. */
  function Unwords(fs: seq<string>): string {
    if |fs| == 0 then "" else if |fs| == 1 then fs[0] else fs[0] + " " + Unwords(fs[1..])
  }

  /** `Fields` recovers words that were written with one blank between them. */
  lemma {:induction false} FieldsUnwords(fs: seq<string>)
    requires forall i :: 0 <= i < |fs| ==> |fs[i]| > 0 && !HasSpace(fs[i])
    ensures Fields(Unwords(fs)) == fs
    decreases |fs|
  {
    if |fs| > 0 {
      var s := Unwords(fs);
      var w0 := fs[0];
      assert !HasSpace(w0);
      if |fs| == 1 {
        WordPrefixAll(s);
        assert s[..|w0|] == w0;
        assert s[|w0|..] == [];
      } else {
        var rest := Unwords(fs[1..]);
        assert s == w0 + " " + rest;
        assert s[|w0|] == ' ';
        WordPrefixStops(s, |w0|);
        assert s[..|w0|] == w0;
        assert s[|w0|..] == " " + rest;
        assert (" " + rest)[1..] == rest;
        FieldsUnwords(fs[1..]);
      }
    }
  }

  lemma WordPrefixAll(s: string)
    requires !HasSpace(s)
    ensures WordPrefix(s) == |s|
  {
    if |s| > 0 {
      assert !IsSpace(s[0]);
      assert forall i :: 0 <= i < |s| - 1 ==> s[1..][i] == s[i + 1];
      WordPrefixAll(s[1..]);
    }
  }

  lemma WordPrefixStops(s: string, k: nat)
    requires k < |s| && IsSpace(s[k])
    requires forall i :: 0 <= i < k ==> !IsSpace(s[i])
    ensures WordPrefix(s) == k
  {
    if k > 0 {
      WordPrefixStops(s[1..], k - 1);
    }
  }
}

=== FILE: uri_stripper.dfy ===
/**
 * The gateway's URI prefix stripper (`gateway/handlers/uri_stripper.go`):
 * a handler that removes a prefix from the request path before handing the
 * request to the next handler.  The next handler is represented by the
 * list of requests it is called with.
 */
module UriStripper {
  import opened Optional

  /** The parts of a URL that matter here; everything but `path` is carried along. */
  datatype Url = Url(scheme: string, host: string, path: string, rawQuery: string)

  /** A request whose URL may be nil. */
  datatype Request = Request(verb: string, url: Option<Url>)

  /** `strings.HasPrefix`. */
  predicate HasPrefix(s: string, prefix: string) {
    |prefix| <= |s| && s[..|prefix|] == prefix
  }

  /** `strings.TrimPrefix`: `s` without a leading `prefix`, or `s` when it has none. */
  function TrimPrefix(s: string, prefix: string): (t: string)
    ensures HasPrefix(s, prefix) ==> prefix + t == s
    ensures !HasPrefix(s, prefix) ==> t == s
  {
    if HasPrefix(s, prefix) then s[|prefix|..] else s
  }

  /** The request as the next handler sees it. */
  function Strip(r: Request, prefix: string): (r': Request)
    ensures r'.verb == r.verb && r'.url.Some? == r.url.Some?
    ensures r.url.Some? ==> r'.url.value == r.url.value.(path := r'.url.value.path)
    ensures r.url.None? ==> r' == r
    ensures r.url.Some? && !HasPrefix(r.url.value.path, prefix) ==> r' == r
    ensures r.url.Some? && HasPrefix(r.url.value.path, prefix) ==> prefix + r'.url.value.path == r.url.value.path
  {
    if r.url.Some? && HasPrefix(r.url.value.path, prefix) then
      r.(url := Some(r.url.value.(path := TrimPrefix(r.url.value.path, prefix))))
    else r
  }

  /** The handler made by `MakeURIPrefixStripper`: the calls it makes to `next`. */
  function Serve(r: Request, prefix: string): (calls: seq<Request>)
    ensures |calls| == 1 && calls[0] == Strip(r, prefix)
  {
    [Strip(r, prefix)]
  }

  /** A path made of the prefix and a rest reaches the next handler as the rest, whatever the rest begins with. */
  lemma StripRoundTrip(verb: string, url: Url, prefix: string, rest: string)
    ensures Strip(Request(verb, Some(url.(path := prefix + rest))), prefix) == Request(verb, Some(url.(path := rest)))
  {
    var s := prefix + rest;
    assert s[..|prefix|] == prefix;
    assert s[|prefix|..] == rest;
  }

  /** The prefix is removed once: a doubled prefix leaves one. */
  lemma StripOnce(verb: string, url: Url, prefix: string, rest: string)
    ensures Strip(Request(verb, Some(url.(path := prefix + prefix + rest))), prefix)
      == Request(verb, Some(url.(path := prefix + rest)))
  {
    assert prefix + prefix + rest == prefix + (prefix + rest);
    StripRoundTrip(verb, url, prefix, prefix + rest);
  }

  /** "/function/tester" and "/function/tester/22" reach the next handler as "tester" and "tester/22". */
  lemma StripFunctionPaths(url: Url)
    ensures Serve(Request("GET", Some(url.(path := "/function/tester"))), "/function/")
      == [Request("GET", Some(url.(path := "tester")))]
    ensures Serve(Request("GET", Some(url.(path := "/function/tester/22"))), "/function/")
      == [Request("GET", Some(url.(path := "tester/22")))]
  {
    StripRoundTrip("GET", url, "/function/", "tester");
    assert "/function/" + "tester" == "/function/tester";
    StripRoundTrip("GET", url, "/function/", "tester/22");
    assert "/function/" + "tester/22" == "/function/tester/22";
  }
}

=== FILE: watchdog_config.dfy ===
/**
 * The scheduler watchdog's configuration reader (`watchdog/readconfig.go`):
 * the `ics` rules without instances, admin port and base path, plus the
 * scheduler mode and the function registry.
 */
module WatchdogConfigReader {
  import opened Optional
  import opened GoInt
  import opened ConfigParsers
  import T = Text
  import S = GoStrconv
  import D = GoDuration

  /**
   * `WatchdogConfig`: durations in nanoseconds.  The registry is nil
   * (`None`) or the set of its keys; every key maps to a fresh, empty
   * `FaasProcess`, so the keys are all there is to it.
   */
  datatype Config = Config(
    readTimeout: int,
    writeTimeout: int,
    execTimeout: int,
    port: int,
    faasProcess: string,
    writeDebug: bool,
    cgiHeaders: bool,
    marshalRequest: bool,
    debugHeaders: bool,
    suppressLock: bool,
    contentType: string,
    combineOutput: bool,
    profile: string,
    schedulerMode: bool,
    faasRegistry: Option<set<string>>)

  /** The registry loop: one key per item, duplicates collapsing. */
  function Registry(items: seq<string>): (r: set<string>)
    ensures forall k :: k in r <==> k in items
    ensures |r| <= |items|
  {
    if |items| == 0 then {} else {items[0]} + Registry(items[1..])
  }

  /** The registry read from `faas_registry`: nil when the variable is empty. */
  function ReadRegistry(env: Env): (r: Option<set<string>>)
    ensures r.None? <==> Getenv(env, "faas_registry") == ""
    ensures r.Some? ==> forall k :: k in r.value <==> k in T.Split(Getenv(env, "faas_registry"), ',')
  {
    var registry := Getenv(env, "faas_registry");
    if |registry| > 0 then Some(Registry(T.Split(registry, ','))) else None
  }

  /** `ReadConfig.Read`. */
  function Read(env: Env): (c: Config)
    ensures c.port >= 0
    ensures c.schedulerMode <==> Getenv(env, "fpattern") != ""
    ensures c.faasProcess == if c.schedulerMode then Getenv(env, "fpattern") else Getenv(env, "fprocess")
    ensures c.writeDebug <==> Getenv(env, "write_debug") == "true"
    ensures c.cgiHeaders <==> Getenv(env, "cgi_headers") in {"", "true"}
    ensures c.combineOutput <==> Getenv(env, "combine_output") in {"", "true"}
    ensures c.marshalRequest <==> Getenv(env, "marshal_request") == "true"
    ensures c.debugHeaders <==> Getenv(env, "debug_headers") == "true"
    ensures c.suppressLock <==> Getenv(env, "suppress_lock") == "true"
    ensures c.contentType == Getenv(env, "content_type") && c.profile == Getenv(env, "profile")
    ensures c.faasRegistry == ReadRegistry(env)
  {
    var defaults := Config(0, 0, 0, 0, "", false, true, false, false, false, "", true, "", true, None);
    var pattern := Getenv(env, "fpattern");
    var c := if |pattern| == 0 then defaults.(faasProcess := Getenv(env, "fprocess"), schedulerMode := false)
      else defaults.(faasProcess := pattern);
    var c := c.(
      readTimeout := ParseIntOrDurationValue(Getenv(env, "read_timeout"), 5 * D.SECOND),
      writeTimeout := ParseIntOrDurationValue(Getenv(env, "write_timeout"), 5 * D.SECOND),
      execTimeout := ParseIntOrDurationValue(Getenv(env, "exec_timeout"), 0 * D.SECOND),
      port := ParseIntValue(Getenv(env, "port"), 8080));
    var c := c.(
      writeDebug := Flag(Getenv(env, "write_debug"), c.writeDebug),
      cgiHeaders := Flag(Getenv(env, "cgi_headers"), c.cgiHeaders),
      marshalRequest := ParseBoolValue(Getenv(env, "marshal_request")),
      debugHeaders := ParseBoolValue(Getenv(env, "debug_headers")),
      suppressLock := ParseBoolValue(Getenv(env, "suppress_lock")),
      contentType := Getenv(env, "content_type"));
    var c := c.(combineOutput := Flag(Getenv(env, "combine_output"), c.combineOutput));
    var c := c.(profile := Getenv(env, "profile"));
    c.(faasRegistry := ReadRegistry(env))
  }

  /**
   * An empty environment: not in scheduler mode, port 8080, 5 s read and
   * write timeouts, no exec timeout, CGI headers and combined output on,
   * and no registry.
   */
  lemma ReadDefaults()
    ensures Read(map[]) == Config(5 * D.SECOND, 5 * D.SECOND, 0, 8080, "",
      false, true, false, false, false, "", true, "", false, None)
  {
    EmptyGivesFallback(5 * D.SECOND);
    EmptyGivesFallback(0);
    EmptyGivesFallback(8080);
  }

  /**
   * A registry written as comma-separated names without commas has exactly
   * those names as keys.
   */
  lemma RegistryOfNames(env: Env, names: seq<string>)
    requires |names| >= 1 && T.NoSeparator(names, ',')
    requires Getenv(env, "faas_registry") == T.Join(names, ',') != ""
    ensures ReadRegistry(env) == Some(set i | 0 <= i < |names| :: names[i])
  {
    T.SplitJoin(names, ',');
    assert T.Split(Getenv(env, "faas_registry"), ',') == names;
    var r := ReadRegistry(env).value;
    var keys := set i | 0 <= i < |names| :: names[i];
    forall k
      ensures k in r <==> k in keys
    {
      if k in names {
        var i :| 0 <= i < |names| && names[i] == k;
        assert k in keys;
      }
    }
    assert r == keys;
  }

  /** "a,b,a" registers the two keys "a" and "b". */
  lemma DuplicatesCollapse()
    ensures ReadRegistry(map["faas_registry" := "a,b,a"]) == Some({"a", "b"})
  {
    var names := ["a", "b", "a"];
    assert T.Join(names, ',') == "a,b,a";
    RegistryOfNames(map["faas_registry" := "a,b,a"], names);
    assert (set i | 0 <= i < |names| :: names[i]) == {"a", "b"} by {
      assert names[0] == "a" && names[1] == "b";
    }
  }
}

=== FILE: watchdog_multi_io.dfy ===
/**
 * The watchdog proxy's fan-out reader and writer.  They differ from the
 * `ics` ones in that the results are collected in index order rather
 * than arrival order, and in the final copy of `Read`.
 */
module WatchdogMultiIo {
  import opened Optional
  import M = MultiIo

  /** `multiWriter.Write`: the `ics` rules, with the writers visited in index order. */
  function Write<W>(writers: seq<Option<W>>, results: seq<M.IoResult>, len: int): (r: M.WriteOutcome<W>)
    requires |results| == |writers|
    ensures |writers| == 1 ==> r == M.WriteOutcome(results[0].n, results[0].err, writers)
    ensures |writers| != 1 ==> (r.err == Some(M.ErrWriteToAny) <==> M.Failures(results, len, M.Indices(|writers|)) == |writers|)
    ensures |writers| != 1 && r.err != Some(M.ErrWriteToAny) ==> r.err == None && r.n == len
  {
    M.IndicesIsArrival(|writers|);
    M.Write(writers, results, len, M.Indices(|writers|))
  }

  /** Collecting in index order gives what the `ics` writer gives for any arrival order. */
  lemma WriteMatchesIcs<W>(writers: seq<Option<W>>, results: seq<M.IoResult>, len: int, arrival: seq<nat>)
    requires |results| == |writers|
    requires M.IsArrival(arrival, |writers|)
    ensures Write(writers, results, len) == M.Write(writers, results, len, arrival)
  {
    M.WriteOrderIndependent(writers, results, len, arrival);
  }

  /**
   * The index loop of `Read` from reader `i` on: the first reader without
   * error narrows the list to itself and its buffer is copied into `p`;
   * past the end, the last result stands and nothing was copied yet.
   */
  function Scan<R>(readers: seq<R>, results: seq<M.IoResult>, i: nat, n: int, err: Option<M.IoError>): (r: M.ReadOutcome<R>)
    requires |results| == |readers|
    ensures r.p == M.Untouched ==> r.readers == readers && forall k :: i <= k < |readers| ==> results[k].err != None
    ensures r.p == M.Untouched && i < |readers| ==> r.n == results[|readers| - 1].n && r.err == results[|readers| - 1].err
    ensures r.p != M.Untouched ==>
      && r.p.CopiedFrom? && i <= r.p.index < |readers| && r.err == None
      && results[r.p.index].err == None && r.readers == [readers[r.p.index]]
      && forall k :: i <= k < r.p.index ==> results[k].err != None
    decreases |readers| - i
  {
    if i >= |readers| then M.ReadOutcome(n, err, readers, M.Untouched)
    else if results[i].err == None then M.ReadOutcome(results[i].n, None, readers[i..i + 1], M.CopiedFrom(i))
    else Scan(readers, results, i + 1, results[i].n, results[i].err)
  }

  /**
   * `multiReader.Read` as written: after the loop, whenever any reader is
   * left, the buffer of the last one left is copied into `p`.  Once the
   * list has been narrowed to the successful reader that is index 0 of
   * the buffers, not the successful reader's own buffer.
   */
  function Read<R>(readers: seq<R>, results: seq<M.IoResult>): (r: M.ReadOutcome<R>)
    requires |results| == |readers|
    ensures |readers| == 1 ==> r == M.ReadOutcome(results[0].n, results[0].err, readers, M.Direct)
    ensures |readers| > 1 ==> (r.err == None <==> exists i :: 0 <= i < |readers| && results[i].err == None)
    ensures |readers| > 1 && r.err == None ==> |r.readers| == 1 && r.p == M.CopiedFrom(0)
    ensures |readers| > 1 && r.err != None ==> r.readers == readers && r.p == M.CopiedFrom(|readers| - 1)
  {
    if |readers| == 1 then M.ReadOutcome(results[0].n, results[0].err, readers, M.Direct)
    else
      var s := Scan(readers, results, 0, 0, None);
      if |s.readers| > 0 then s.(p := M.CopiedFrom(|s.readers| - 1)) else s
  }

  /**
   * Two readers, the first fails and the second reads 5 bytes: `Read`
   * reports the second reader's 5 bytes but leaves the first reader's
   * buffer in `p`.
   */
  lemma ReadCopiesWrongBuffer()
    ensures var r := Read([10, 11], [M.IoResult(0, Some(M.EOF)), M.IoResult(5, None)]);
      r == M.ReadOutcome(5, None, [11], M.CopiedFrom(0))
  {
  }

  /** The final copy only when no reader succeeded (the list was not narrowed). */
  function FinalCopy<R>(s: M.ReadOutcome<R>): (r: M.ReadOutcome<R>)
    ensures r.n == s.n && r.err == s.err && r.readers == s.readers
    ensures |s.readers| <= 1 ==> r == s
  {
    if |s.readers| > 1 then s.(p := M.CopiedFrom(|s.readers| - 1)) else s
  }

  /** `Read` with the final copy guarded as in the `ics` reader. */
  function ReadCorrected<R>(readers: seq<R>, results: seq<M.IoResult>): (r: M.ReadOutcome<R>)
    requires |results| == |readers|
    ensures |readers| == 1 ==> r == M.ReadOutcome(results[0].n, results[0].err, readers, M.Direct)
    ensures |readers| > 1 ==> (r.err == None <==> exists i :: 0 <= i < |readers| && results[i].err == None)
    ensures |readers| > 1 && r.err == None ==>
      r.p.CopiedFrom? && r.p.index < |readers| && results[r.p.index].err == None && r.readers == [readers[r.p.index]]
    ensures |readers| > 1 && r.err != None ==> r.readers == readers && r.p == M.CopiedFrom(|readers| - 1)
  {
    if |readers| == 1 then M.ReadOutcome(results[0].n, results[0].err, readers, M.Direct)
    else FinalCopy(Scan(readers, results, 0, 0, None))
  }

  lemma {:induction false} ScanMatchesReadLoop<R>(readers: seq<R>, results: seq<M.IoResult>, i: nat, n: int, err: Option<M.IoError>)
    requires |results| == |readers|
    ensures FinalCopy(Scan(readers, results, i, n, err)) == M.ReadLoop(readers, results, M.Indices(|readers|), i, n, err)
    decreases |readers| - i
  {
    if i < |readers| && results[i].err != None {
      ScanMatchesReadLoop(readers, results, i + 1, results[i].n, results[i].err);
    }
  }

  /** The corrected reader is the `ics` reader with results arriving in index order. */
  lemma ReadCorrectedMatchesIcs<R>(readers: seq<R>, results: seq<M.IoResult>)
    requires |results| == |readers|
    ensures M.IsArrival(M.Indices(|readers|), |readers|)
    ensures ReadCorrected(readers, results) == M.Read(readers, results, M.Indices(|readers|))
  {
    M.IndicesIsArrival(|readers|);
    M.ArrivalInRange(M.Indices(|readers|), |readers|);
    ScanMatchesReadLoop(readers, results, 0, 0, None);
  }

  /**
   * The corrected reader keeps the buffer it reports: with two or more
   * readers and `i` the first without error, the list narrows to reader
   * `i`, `n` is reader `i`'s and `p` holds reader `i`'s buffer.
   */
  lemma ReadCorrectedFirstSuccess<R>(readers: seq<R>, results: seq<M.IoResult>, i: nat)
    requires |results| == |readers| && |readers| > 1
    requires i < |readers| && results[i].err == None
    requires forall k :: 0 <= k < i ==> results[k].err != None
    ensures ReadCorrected(readers, results) == M.ReadOutcome(results[i].n, None, [readers[i]], M.CopiedFrom(i))
  {
    ReadCorrectedMatchesIcs(readers, results);
    var idx := M.Indices(|readers|);
    M.ArrivalInRange(idx, |readers|);
    M.ReadLoopSpec(readers, results, idx, 0, 0, None);
    var f := M.FirstOk(results, idx, 0);
    assert idx[i] == i;
    assert f == Some(i);
  }

  /** When every reader fails, both versions agree: the list stays, the last result and the last buffer. */
  lemma ReadAllFail<R>(readers: seq<R>, results: seq<M.IoResult>)
    requires |results| == |readers| && |readers| > 1
    requires forall k :: 0 <= k < |readers| ==> results[k].err != None
    ensures var last := results[|readers| - 1];
      && Read(readers, results) == M.ReadOutcome(last.n, last.err, readers, M.CopiedFrom(|readers| - 1))
      && ReadCorrected(readers, results) == Read(readers, results)
  {
    ScanAllFail(readers, results, 0, 0, None);
  }

  lemma {:induction false} ScanAllFail<R>(readers: seq<R>, results: seq<M.IoResult>, i: nat, n: int, err: Option<M.IoError>)
    requires |results| == |readers| && i < |readers|
    requires forall k :: i <= k < |readers| ==> results[k].err != None
    ensures var last := results[|readers| - 1];
      Scan(readers, results, i, n, err) == M.ReadOutcome(last.n, last.err, readers, M.Untouched)
    decreases |readers| - i
  {
    if i + 1 < |readers| {
      ScanAllFail(readers, results, i + 1, results[i].n, results[i].err);
    }
  }
}

=== FILE: watchdog_scheduler.dfy ===
/**
 * The `watchdog` scheduler: the older, smaller variant of the `ics` one.
 * It launches the environments, counts their registrations, serves one
 * function, and, once its proxy calls back, drains every queued `Serve`
 * in order.  Specialisation outcomes and process ids are inputs; the
 * proxy is reduced to whether it listens.
 */
module WatchdogScheduler {
  import opened Optional
  import opened GoStrconv
  import opened GoInt
  import opened PendingQueue
  import St = SchedulerStatus

  datatype Error = ErrSpecialization | ErrStatus(e: St.StatusError)

  /** What the caller of `Serve` gets back; a queued caller gets the reply of its later run. */
  datatype Reply = Returned(err: Option<Error>) | Queued

  datatype Scheduler = Scheduler(
    port: int,                  // config port
    instances: int,             // config instances
    listening: bool,            // the proxy has a listener
    servingFunction: string,
    envs: map<int, int>,        // faasEnvs: port -> process id
    status: St.Status,
    busying: int,
    serving: int,
    pending: seq<string>        // the function names of the queued `Serve` callers
  )

  function NewScheduler(port: int, instances: int): (s: Scheduler)
    ensures s.status == St.Launching && s.pending == [] && s.envs == map[]
  {
    Scheduler(port, instances, false, "", map[], St.Launching, 0, 0, [])
  }

  /** The ports `LaunchFEs` starts: `port+i+1` for `i` in `[0, instances)`. */
  function LaunchedPorts(port: int, instances: int): (ps: seq<int>)
    ensures |ps| == if instances > 0 then instances else 0
    ensures forall i :: 0 <= i < |ps| ==> ps[i] == port + i + 1
  {
    seq(if instances > 0 then instances else 0, i => port + i + 1)
  }

  /**
   * `LaunchFEs`: one token per instance, and one environment per launched
   * port with the process id the launch produced.
   */
  function LaunchFEs(s: Scheduler, pidOf: int -> int): (r: Scheduler)
    ensures r.busying == s.instances
    ensures forall p :: p in r.envs <==> p in LaunchedPorts(s.port, s.instances)
    ensures forall p :: p in r.envs ==> r.envs[p] == pidOf(p)
    ensures r == s.(busying := r.busying, envs := r.envs)
  {
    s.(busying := s.instances,
       envs := map p | p in LaunchedPorts(s.port, s.instances) :: pidOf(p))
  }

  /** `LaunchFEs` registers exactly the ports `port+1 .. port+instances`. */
  lemma LaunchedPortRange(s: Scheduler, pidOf: int -> int, p: int)
    ensures p in LaunchFEs(s, pidOf).envs <==> s.port + 1 <= p <= s.port + s.instances
  {
    if s.port + 1 <= p <= s.port + s.instances {
      assert LaunchedPorts(s.port, s.instances)[p - s.port - 1] == p;
    }
  }

  datatype Registration = Registration(s: Scheduler, pid: int, startsProxy: bool)

  /**
   * `RegisterFE`: -1 and no change for a port that does not parse or was
   * not launched; otherwise one token is released and the pid returned.
   */
  function RegisterFE(s: Scheduler, strPort: string): (r: Registration)
    ensures Atoi(strPort).err != None || Atoi(strPort).value !in s.envs ==> r == Registration(s, -1, false)
    ensures Atoi(strPort).err == None && Atoi(strPort).value in s.envs ==>
      r == Registration(s.(busying := s.busying - 1), s.envs[Atoi(strPort).value], !s.listening)
  {
    var a := Atoi(strPort);
    if a.err != None || a.value !in s.envs then Registration(s, -1, false)
    else Registration(s.(busying := s.busying - 1), s.envs[a.value], !s.listening)
  }

  /** Every launched environment registers under its decimal port and releases one token. */
  lemma RegisterLaunched(s: Scheduler, pidOf: int -> int, i: int)
    requires 0 <= i < s.instances
    requires IsInt64(s.port + i + 1)
    ensures var l := LaunchFEs(s, pidOf);
      var r := RegisterFE(l, FormatInt(s.port + i + 1));
      r.pid == pidOf(s.port + i + 1) && r.s.busying == s.instances - 1
  {
    AtoiFormatInt(s.port + i + 1);
    LaunchedPortRange(s, pidOf, s.port + i + 1);
  }

  /**
   * `Serve`: queued while LAUNCHING; otherwise it needs READY and adopts
   * the function and SERVING exactly when specialisation succeeded.  The
   * counter goes up and down around specialising.
   */
  function Serve(s: Scheduler, fn: string, specialized: bool): (r: (Scheduler, Reply))
    ensures s.status == St.Launching ==> r == (s.(pending := s.pending + [fn]), Queued)
    ensures s.status in {St.Serving, St.Sharing} ==> r == (s, Returned(Some(ErrStatus(St.ErrStatusTransition))))
    ensures s.status == St.Status.Ready ==>
      && r.0.busying == s.busying && r.0.pending == s.pending
      && (r.1 == Returned(None) <==> specialized)
      && r.0 == (if specialized then s.(servingFunction := fn, status := St.Serving) else s)
  {
    var t := St.Serve(s.status);
    if t.err == Some(St.ErrStatusPendding) then (s.(pending := Push(s.pending, fn)), Queued)
    else if t.err != None then (s, Returned(Some(ErrStatus(t.err.value))))
    else
      var s1 := s.(busying := s.busying + 1);
      var s2 := s1.(busying := s1.busying - 1);
      if specialized then (s2.(servingFunction := fn, status := t.status), Returned(None))
      else (s2, Returned(Some(ErrSpecialization)))
  }

  /**
   * The drain loop of the proxy callback: pop the head caller and run it,
   * until the queue is empty.  `specialized(i)` is the outcome of the
   * `i`-th run's specialisation.  Returns the final state and the replies
   * in dispatch order.
   */
  function Drain(s: Scheduler, specialized: nat -> bool, i: nat): (r: (Scheduler, seq<Reply>))
    requires s.status != St.Launching
    ensures r.0.pending == []
    ensures |r.1| == |s.pending|
    ensures r.0.status != St.Launching
    decreases |s.pending|
  {
    if |s.pending| == 0 then (s, [])
    else
      var (q, c) := Pop(s.pending);
      var (s1, reply) := Serve(s.(pending := q), c.value, specialized(i));
      var (s2, replies) := Drain(s1, specialized, i + 1);
      (s2, [reply] + replies)
  }

  /**
   * `makeOnProxyHandler`: the registered environment becomes the serving
   * one, the status moves to READY if it was LAUNCHING (any other
   * transition's error is ignored), and every queued caller then runs.
   */
  function OnProxy(s: Scheduler, port: int, specialized: nat -> bool): (r: (Scheduler, seq<Reply>))
    ensures r.0.pending == [] && |r.1| == |s.pending|
    ensures s.status == St.Launching && s.pending == [] ==> r.0.status == St.Status.Ready
  {
    var s1 := s.(serving := port, status := St.ToReady(s.status).status);
    Drain(s1, specialized, 0)
  }

  /** `k` is the first index from `i` at which specialisation succeeds, within the `n` runs from `i`. */
  predicate FirstSuccessAt(specialized: nat -> bool, i: nat, n: nat, k: nat) {
    i <= k < i + n && specialized(k) && forall j :: i <= j < k ==> !specialized(j)
  }

  /** Draining leaves the counter and the serving port alone. */
  lemma {:induction false} DrainKeepsCounter(s: Scheduler, specialized: nat -> bool, i: nat)
    requires s.status != St.Launching
    ensures Drain(s, specialized, i).0.busying == s.busying
    ensures Drain(s, specialized, i).0.serving == s.serving
    decreases |s.pending|
  {
    if |s.pending| > 0 {
      var (s1, _) := Serve(s.(pending := s.pending[1..]), s.pending[0], specialized(i));
      DrainKeepsCounter(s1, specialized, i + 1);
    }
  }

  /** When no specialisation succeeds, the scheduler stays READY and every caller gets the specialisation error. */
  lemma {:induction false} DrainAllFail(s: Scheduler, specialized: nat -> bool, i: nat)
    requires s.status == St.Status.Ready
    requires forall j :: i <= j < i + |s.pending| ==> !specialized(j)
    ensures var r := Drain(s, specialized, i);
      && r.0.status == St.Status.Ready && r.0.servingFunction == s.servingFunction
      && forall j :: 0 <= j < |r.1| ==> r.1[j] == Returned(Some(ErrSpecialization))
    decreases |s.pending|
  {
    if |s.pending| > 0 {
      var s1 := s.(pending := s.pending[1..]);
      assert !specialized(i);
      assert Serve(s1, s.pending[0], specialized(i)) == (s1, Returned(Some(ErrSpecialization)));
      DrainAllFail(s1, specialized, i + 1);
    }
  }

  /** A drain step from READY whose specialisation fails: the caller gets the error and the rest drains from READY. */
  lemma DrainSkips(s: Scheduler, specialized: nat -> bool, i: nat)
    requires s.status == St.Status.Ready && |s.pending| > 0 && !specialized(i)
    ensures var rest := Drain(s.(pending := s.pending[1..]), specialized, i + 1);
      && Drain(s, specialized, i).0 == rest.0
      && Drain(s, specialized, i).1 == [Returned(Some(ErrSpecialization))] + rest.1
  {
    assert Serve(s.(pending := s.pending[1..]), s.pending[0], false)
      == (s.(pending := s.pending[1..]), Returned(Some(ErrSpecialization)));
  }

  lemma DrainSkipsState(s: Scheduler, specialized: nat -> bool, i: nat)
    requires s.status == St.Status.Ready && |s.pending| > 0 && !specialized(i)
    ensures Drain(s, specialized, i).0 == Drain(s.(pending := s.pending[1..]), specialized, i + 1).0
  {
    DrainSkips(s, specialized, i);
  }

  /**
   * A drain step from READY whose specialisation succeeds: the caller's
   * function is served and every later caller gets the transition error.
   */
  lemma DrainTakes(s: Scheduler, specialized: nat -> bool, i: nat)
    requires s.status == St.Status.Ready && |s.pending| > 0 && specialized(i)
    ensures var r := Drain(s, specialized, i);
      && r.0 == ServingAfterDrain(s, s.pending[0])
      && r.1[0] == Returned(None)
      && forall j :: 0 < j < |r.1| ==> r.1[j] == Returned(Some(ErrStatus(St.ErrStatusTransition)))
  {
    var s1 := s.(pending := s.pending[1..], servingFunction := s.pending[0], status := St.Serving);
    assert Serve(s.(pending := s.pending[1..]), s.pending[0], true) == (s1, Returned(None));
    DrainFromServing(s1, specialized, i + 1);
    var rest := Drain(s1, specialized, i + 1);
    assert Drain(s, specialized, i) == (rest.0, [Returned(None)] + rest.1);
  }

  /**
   * Draining from READY serves exactly the first queued function whose
   * specialisation succeeds.
   */
  lemma DrainServesFirstSuccess(s: Scheduler, specialized: nat -> bool, i: nat, k: nat)
    requires s.status == St.Status.Ready
    requires FirstSuccessAt(specialized, i, |s.pending|, k)
    ensures Drain(s, specialized, i).0 == ServingAfterDrain(s, s.pending[k - i])
  {
    assert s.(pending := s.pending) == s;
    DrainQueueServesFirstSuccess(s, s.pending, specialized, i, k);
    ServedByIsAfterDrain(Drain(s, specialized, i).0, s, s.pending[k - i]);
  }

  /** `r` is `s` with the queue emptied and `f` served. */
  predicate ServedBy(r: Scheduler, s: Scheduler, f: string) {
    && r.port == s.port && r.instances == s.instances && r.listening == s.listening && r.envs == s.envs
    && r.busying == s.busying && r.serving == s.serving
    && r.servingFunction == f && r.status == St.Serving && r.pending == []
  }

  lemma ServedByIsAfterDrain(r: Scheduler, s: Scheduler, f: string)
    requires ServedBy(r, s, f)
    ensures r == ServingAfterDrain(s, f)
  {
  }

  /** The same, for the scheduler `b` with the queue `q`. */
  lemma {:induction false} DrainQueueServesFirstSuccess(b: Scheduler, q: seq<string>, specialized: nat -> bool, i: nat, k: nat)
    requires b.status == St.Status.Ready
    requires FirstSuccessAt(specialized, i, |q|, k)
    ensures ServedBy(Drain(b.(pending := q), specialized, i).0, b, q[k - i])
    decreases |q|
  {
    if k == i {
      DrainTakes(b.(pending := q), specialized, i);
    } else {
      DrainSkipsState(b.(pending := q), specialized, i);
      assert b.(pending := q).(pending := q[1..]) == b.(pending := q[1..]);
      DrainQueueServesFirstSuccess(b, q[1..], specialized, i + 1, k);
      assert q[1..][k - (i + 1)] == q[k - i];
    }
  }

  /** The scheduler once a drain has served `f`: queue empty, `f` served, SERVING. */
  function ServingAfterDrain(s: Scheduler, f: string): Scheduler {
    s.(pending := [], servingFunction := f, status := St.Serving)
  }

  /**
   * The replies a drain from READY gives when the caller at `m` is the
   * first whose specialisation succeeds: nil for it, the specialisation
   * error for every caller before it, and the transition error for every
   * caller after it, the scheduler being SERVING by then.
   */
  predicate FirstSuccessReplies(replies: seq<Reply>, m: nat) {
    && m < |replies|
    && replies[m] == Returned(None)
    && (forall j :: 0 <= j < m ==> replies[j] == Returned(Some(ErrSpecialization)))
    && (forall j :: m < j < |replies| ==> replies[j] == Returned(Some(ErrStatus(St.ErrStatusTransition))))
  }

  lemma FirstSuccessRepliesCons(rest: seq<Reply>, m: nat)
    requires FirstSuccessReplies(rest, m)
    ensures FirstSuccessReplies([Returned(Some(ErrSpecialization))] + rest, m + 1)
  {
    var replies := [Returned(Some(ErrSpecialization))] + rest;
    assert forall j :: 0 < j < |replies| ==> replies[j] == rest[j - 1];
  }

  /** The replies of a drain from READY, by the first caller whose specialisation succeeds. */
  lemma {:induction false} DrainRepliesFirstSuccess(s: Scheduler, specialized: nat -> bool, i: nat, k: nat)
    requires s.status == St.Status.Ready
    requires FirstSuccessAt(specialized, i, |s.pending|, k)
    ensures FirstSuccessReplies(Drain(s, specialized, i).1, k - i)
    decreases |s.pending|
  {
    if k == i {
      DrainTakes(s, specialized, i);
    } else {
      DrainSkips(s, specialized, i);
      var s1 := s.(pending := s.pending[1..]);
      DrainRepliesFirstSuccess(s1, specialized, i + 1, k);
      FirstSuccessRepliesCons(Drain(s1, specialized, i + 1).1, k - (i + 1));
    }
  }

  /** Draining once SERVING changes nothing but the queue, and every caller gets the transition error. */
  lemma {:induction false} DrainFromServing(s: Scheduler, specialized: nat -> bool, i: nat)
    requires s.status == St.Serving
    ensures var r := Drain(s, specialized, i);
      && r.0 == s.(pending := [])
      && forall j :: 0 <= j < |r.1| ==> r.1[j] == Returned(Some(ErrStatus(St.ErrStatusTransition)))
    decreases |s.pending|
  {
    if |s.pending| > 0 {
      DrainFromServing(s.(pending := s.pending[1..]), specialized, i + 1);
    }
  }
}
